=== FILE: README.md ===
# Vietnamese real-estate listing cleaner — a Dafny model

The system scrapes house-for-sale listings from batdongsan.com.vn and turns each raw
listing into a typed row for valuation. A raw listing has a title, a description, a short
address, an `address_parts` list and two decoded side panels: `main_info`, a list of
titled entries, and `other_info`, a dictionary. The cleaner reads every attribute from
these with a fixed order of sources. The structured panel comes first, then regular
expressions over the lower-cased title and description, then keyword defaults. A missing
attribute is "absent". The exceptions are the floor count and the construction cost: a
`main_info` "Số tầng" entry without a "value" key raises `KeyError`, which the model
carries. A panel of the wrong JSON shape raises `AttributeError`; see "## Left out".

Numbers follow the Vietnamese convention: `.` groups thousands and `,` is the decimal
point. Three parsers read them, and they do not agree with each other.

Around the extractors sit:
- first-match classifiers over static tables (land shape, facade count, remaining
  building quality);
- the two-stage "is it on a main road" test (near phrases veto, direct phrases confirm);
- a second, "refactored" generation of the extractors;
- an address standardiser that maps free-text province and district names to official
  ones;
- three valuation features: position tier VT1–VT4, business advantage and land unit
  price;
- the pipeline's chunking of the URL list among workers and its CSV append/header rule.

## Modules

- `wrappers`, `text`: options and outcomes, and the string operations Python's `str`
  gives the source (lower-casing, strip, split, replace, `in`, whole-word search).
- `pattern`: a small regular-expression AST with an exact match relation. It models the
  fixed patterns whose only use is a yes/no `re.search`.
- `numbers`: the three number parsers, Python's `float()` on the strings they build, and
  `round(x, 2)`.
- `listing`: a raw listing and its panels.
- `location`, `pricing`, `area`, `floors`, `classify`, `frontage`: the extractors of
  `DataCleaner`.
- `config`: the static tables.
- `road`, `refactored_floors`, `refactored_size`, `refactored_road`: `is_on_main_road` and
  `RefactoredDataCleaner`.
- `address`: `AddressStandardizer`, a class whose constructor builds the two reverse maps.
- `features`: `FeatureEngineer`.
- `chunks`, `pipeline`: both `chunks` generators, the save decisions and the worker plan.

Extractors that loop in the source (scans over a panel, over a table, over regex
matches) are methods with loop invariants. Each is proved equal to a specification
function, and the lemmas are about that function.

## Model

| member | source | states |
|---|---|---|
| Numbers.ParseNumber | src/cleaning.py:33-49 | A number exactly when the input is a string holding a digit; never negative. |
| Numbers.ParseNumberReadsDecimal | src/cleaning.py:40-46 | Digit-free text before the number is skipped. The first digit run, one separator and the digits after it are read with either separator as the decimal point: "3,5" and "3.5" give 3.5, and "1.234.567" gives 1.234. |
| Numbers.ParseNumberReadsInteger | src/cleaning.py:40-46 | A digit run followed by neither a digit nor a separator is read as that integer. |
| Numbers.SkipsToFirstDigit | src/cleaning.py:40 | Text without a digit in front of the number does not change the reading. |
| Numbers.FirstInteger | src/cleaning.py:270-272 | `int(re.search(r"\d+", s).group(0))` exists exactly when `s` holds a digit. |
| Numbers.NumberToken | test_clean.py:51-54 | The token `([\d\.,]+)` is made of digits, dots and commas, and it is empty exactly when the string has none of them. |
| Numbers.NumberTokenOfNumeral | test_clean.py:51-54 | A string made only of digits, dots and commas is its own token. |
| Numbers.Round2 | test_clean.py:70 | Rounding keeps a non-negative value non-negative. |
| Numbers.Round2OfShortDecimal | test_clean.py:70 | A numeral with at most two decimals is unchanged by rounding. |
| Numbers.ParseWidthUnder | test_clean.py:43-72 | The width parser under either reread rule is never negative. |
| Numbers.ParseWidthAsWritten | test_clean.py:43-72 | The width parser as written is never negative. |
| Numbers.ParseWidth | test_clean.py:43-72 | The width parser with the documented reread rule is never negative. |
| Numbers.WidthReadsThousandsAndDecimal | test_clean.py:57-58 | With both separators the dots are dropped and the comma is the decimal point, then the value is rounded: "a.b,c" reads as round(ab.c, 2). |
| Numbers.WidthReadsCommaOnly | test_clean.py:59-69 | A comma-only "a,b" reads as a.b unless the reread rule fires, and then as ab. The rule as written fires above 20; the documented rule fires on a three-digit group. |
| Numbers.WidthAsWrittenMisreadsThousands | test_clean.py:65-70 | As written, "1,234" reads as 1.23 and "5,500" as 5.5, against the parser's own documentation. |
| Numbers.AsWrittenOneComma234 | test_clean.py:65-70 | As written, "1,234" reads as 1.23. |
| Numbers.AsWrittenFiveComma500 | test_clean.py:65-70 | As written, "5,500" reads as 5.5. |
| Numbers.WidthDocumentedExamples | test_clean.py:46-67 | With the documented rule: "1.234,56" gives 1234.56, "5,5" gives 5.5, "1,234" gives 1234.0 and "5,500" gives 5500.0. |
| Numbers.WidthOfThousandsExample | test_clean.py:46 | "1.234,56" gives 1234.56. |
| Numbers.WidthOfFiveCommaFive | test_clean.py:66 | "5,5" gives 5.5. |
| Numbers.WidthOfOneComma234 | test_clean.py:46 | "1,234" gives 1234.0. |
| Numbers.WidthOfFiveComma500 | test_clean.py:67 | "5,500" gives 5500.0 and not 5.5. |
| Numbers.ParseNumberRefactored | test_clean.py:82-96 | The refactored parser is never negative. |
| Numbers.RefactoredDeletesDots | test_clean.py:93 | "a.b" reads as the integer ab, because every dot is deleted: "1.234" gives 1234.0. |
| Numbers.RefactoredReadsDecimalComma | test_clean.py:93-95 | "a,b" reads as round(a.b, 2): "3,5" gives 3.5. |
| Listing.Value | src/cleaning.py:237 | `item.get("value")` is a string exactly when the entry holds one. |
| Listing.OtherValue | src/cleaning.py:245 | `other_info.get(key)` is present exactly when the key is. |
| Config.FacadeCountsOrdered | src/config.py:61-79 | Every facade count is 1, 2 or 3, and the counts never increase along the table. |
| Config.RectangleIsLast | src/config.py:81-107 | There are 13 shapes, and the rectangle is the last and only rectangle entry. |
| Config.QualityTiersOrdered | src/config.py:109-142 | There are four tiers, 0.0, 0.5, 0.85 and 1.0, strictly increasing and within [0, 1]. |
| Config.MissingCommaJoinsKeywords | src/config.py:112-114 | As written, the tier-0 list holds the joined literal "tặng nhàcó nhà nhưng không đáng giá", and no tier holds "có nhà nhưng không đáng giá". With the comma it is a tier-0 keyword, and the two tables differ in nothing else. |
| Config.OrphanInNoTier | src/config.py:109-142 | No tier of the table as written holds "có nhà nhưng không đáng giá". |
| Config.AlleyWidthsPlausible | src/config.py:144-171 | Every alley width of the table lies strictly between 0 and 15 m. |
| Location.AddressComponents | src/cleaning.py:63 | The stripped comma-separated components: one per piece of the split, none holding a comma. |
| Location.ExtractCity | src/cleaning.py:53-66 | The second `address_parts` entry when there is one. Otherwise the city is present exactly when the short address is. It holds no comma, and a short address without a comma is returned whole, stripped. |
| Location.ExtractDistrict | src/cleaning.py:69-82 | The third `address_parts` entry when there is one. Otherwise the district is present exactly when the short address holds a comma, and it holds no comma itself. |
| Location.CityIsLastComponent | src/cleaning.py:61-65 | Without a second `address_parts` entry, the city is the last comma-separated piece of the short address, stripped. |
| Location.DistrictIsLastButOne | src/cleaning.py:77-81 | Without `address_parts` and with a comma in the short address, the district is its last-but-one piece, stripped. |
| Location.CityAndDistrictOfShortAddress | src/cleaning.py:61-65 | For the short address "w, d, c", the city is c and the district is d, both stripped. |
| Location.WardComponent | src/cleaning.py:87-92 | The first short-address component that starts with "phường ", "xã " or "thị trấn "; absent only when none does. |
| Location.ExtractWard | src/cleaning.py:85-104 | A ward component of the short address wins. Otherwise the answer is the stripped ward captured after "tại" in the last `address_parts` entry. The ward is absent when there is no such entry or no capture. |
| Location.FirstPrefixed | src/cleaning.py:111-115 | The first component with an explicit "đường"/"phố" street of at most five words. |
| Location.FirstPrefixedStreet | src/cleaning.py:111-115 | An explicit street is returned exactly when some component has one. |
| Location.ShortAddressStreet | src/cleaning.py:108-127 | Without an explicit street, the bare first component is returned exactly when it can name a street (not a ward, district or house-number prefix; a letter; at most five words). |
| Location.AddressPartsStreet | src/cleaning.py:129-139 | A street after "tại đường/phố" comes only from an `address_parts` entry. |
| Location.TitleStreet | src/cleaning.py:141-146 | A street from the title needs a non-blank title. |
| Location.ExtractStreet | src/cleaning.py:107-148 | The short-address street wins. Without it, the `address_parts` street wins. Without either, the title street is the answer. A street needs one of the three sources. |
| Location.MissingShortAddressReadsNan | src/cleaning.py:108-127 | A listing whose short address is NaN gets the street "nan", since `str()` of NaN passes the bare-name test. |
| Location.LeadingDetails | src/cleaning.py:171-177 | The longest prefix of the components whose elements all carry a detail prefix or a digit. |
| Location.CollectDetailParts | src/cleaning.py:171-177 | The loop collects exactly that prefix and stops at the first other component. |
| Location.ShortAddressDetails | src/cleaning.py:158-179 | Detail parts, when there are any, are a non-empty list of detail components. |
| Location.ExtractAddressDetail | src/cleaning.py:151-195 | Without detail parts the answer is "Mặt phố" exactly when the text says "mặt phố/mặt đường", else "Mặt ngõ". With detail parts, the joined lower-cased parts are title-cased when the 'Đường phố' value is empty (always the case for a raw scraped row), title-cased with that value removed when they contain it, and returned as they are otherwise. |
| Pricing.ExtractPublishedDate | src/cleaning.py:199-206 | The answer is the value of the first "Ngày đăng" entry. It is absent when that value is not a string, or when there is no such entry. |
| Pricing.ScaledValue | src/cleaning.py:213-215 | "tỷ" multiplies by 10^9 and "triệu" by 10^6. |
| Pricing.PriceEntry | src/cleaning.py:221-225 | The entry is the first price entry, with none before it: a "Mức giá" entry whose value is not JSON `null` and not "thỏa thuận". It is absent exactly when there is none. |
| Pricing.ExtractTotalPrice | src/cleaning.py:209-228 | The loop returns the conversion of that first entry, NaN without one or when `float()` raises. |
| Pricing.SkippedEntriesIgnored | src/cleaning.py:221-225 | Entries the loop passes over (other titles, null values, "thỏa thuận") change neither the entry it stops at nor the price. |
| Pricing.NegotiableIsSkipped | src/cleaning.py:224 | "thỏa thuận", in any ASCII capitalisation and with surrounding space, is never a price. |
| Pricing.PriceInBillions | src/cleaning.py:211-213 | "a,b tỷ" gives float("a.b") × 10^9, whatever white space (a no-break space included) separates the number from the unit. |
| Pricing.PriceInMillions | src/cleaning.py:214-215 | "a triệu" gives float("a") × 10^6. |
| Pricing.PlainPrice | src/cleaning.py:211-216 | A bare "a,b" is read with the comma as the decimal point. |
| Pricing.MixedUnitsGiveNaN | src/cleaning.py:212-213 | "a tỷ b triệu" is NaN: the billions branch comes first and `float()` rejects the "triệu" left over. |
| Area.MainInfoArea | src/cleaning.py:233-241 | A `main_info` area is present exactly when some "Diện tích" entry parses. |
| Area.TotalArea | src/cleaning.py:232-263 | The area is never negative. |
| Area.ExtractTotalArea | src/cleaning.py:232-263 | The loop over `main_info` and the three fallbacks compute the specified area. |
| Area.MainInfoAreaWins | src/cleaning.py:235-239 | The first parsing `main_info` entry decides, whatever the other sources say. |
| Area.OtherInfoAreaNext | src/cleaning.py:243-248 | Without one, an `other_info` area with a digit decides. |
| Area.LabelledPatternBeatsBare | src/cleaning.py:252-261 | Without a panel reading, the "diện tích/dt" pattern beats the bare "… m²" one. |
| Area.AreaAbsentIffNothingParses | src/cleaning.py:232-263 | The area is NaN exactly when none of the four sources holds a digit. |
| Floors.CollectCandidates | src/cleaning.py:303-307 | The loop collects the value of each token in order (digits as integers, number words through the word table). |
| Floors.ExtractNumFloors | src/cleaning.py:266-321 | The panel, the `main_info` loop and the text rules compute the specified floor count, including the `KeyError` the `main_info` lookup can raise. |
| Floors.CandidatesOfTokens | src/cleaning.py:303-307 | A value is a candidate exactly when some token stands for it. |
| Floors.RemainingIsFilter | src/cleaning.py:309 | A value survives exactly when it is a candidate and not a permit figure. |
| Floors.PanelFloorsWin | src/cleaning.py:267-272 | An `other_info` "Số tầng" digit wins over `main_info` and the text. |
| Floors.MainInfoFloorsBeatText | src/cleaning.py:276-282 | Without it, the first `main_info` "Số tầng" entry with a digit beats the text. |
| Floors.AllPermitFiguresGiveNone | src/cleaning.py:317-318 | Candidates that are all permit figures give absent, even for "nhà cấp 4". |
| Floors.FloorsAreLargestRemaining | src/cleaning.py:309-316 | With candidates left, the answer is the largest of them, plus one for each of "trệt" and "lửng" when "lầu" is present. The base is never a permit figure. |
| Floors.SingleStoreyOnlyWithoutCandidates | src/cleaning.py:317-321 | With no candidate, the answer is 1 for "nhà cấp 4"/"nhà trệt" and absent otherwise. |
| Floors.HouseTypeBeatsFloors | src/cleaning.py:327-345 | "biệt thự" and then "nhà cấp 4" pick their rate whatever the floor count. |
| Floors.CostKindOf | src/cleaning.py:341-351 | The basement rows are picked only with a whole-word "hầm", and the villa and two-or-more-storey rows without a basement only without one. The one-storey row means neither villa nor "nhà cấp 4", with one floor or an unknown count. |
| Floors.ConstructionCost | src/cleaning.py:325-351 | There is no cost only for a floor count of exactly 0. A villa is always priced at one of the two villa rates once the floor count returns. |
| Floors.NoCostOnlyForZeroFloors | src/cleaning.py:342-351 | No rate exactly when the house is neither a villa nor level 4 and has zero floors. |
| Floors.MultiStoreyByBasement | src/cleaning.py:348-350 | An ordinary house of two or more floors is priced by whether the whole word "hầm" occurs. |
| Floors.CostRaisesWithFloors | src/cleaning.py:339 | The cost raises exactly when the floor count does, because the count is computed before the chain. |
| Classify.FirstHit | src/cleaning.py:357-360 | The first table entry with a whole-word keyword hit: no earlier entry has one. |
| Classify.HitBoundsFirstHit | src/cleaning.py:357-360 | An entry with a hit stops the scan at or before it. |
| Classify.ScanHits | src/cleaning.py:357-360 | The nested scan over a keyword table stops at the first entry with a whole-word keyword hit, past all entries without one. |
| Classify.EstimateRemainingQuality | src/cleaning.py:354-362 | Returns the fraction of the first tier of `QUALITY_LEVELS` as written with a hit, else the default. |
| Classify.QualityIsATier | src/cleaning.py:357-362 | The quality is 0.0, 0.5, 0.85, 1.0 or the default, hence in [0, 1] when the default is, for the table as written and with the comma restored. |
| Classify.LandSaleOutranksNewBuild | src/cleaning.py:357-360 | "bán đất" or "đất nền" scores 0.0, even when the text also says the house is new, for the table as written and with the comma restored. |
| Classify.OrphanPhraseIgnoredAsWritten | src/config.py:113-114 | With the table as written, "có nhà nhưng không đáng giá" gets the default; with the comma restored it scores 0.0. |
| Classify.OrphanPhraseScoresZero | src/config.py:111-114 | With the comma restored, a text holding the whole phrase "có nhà nhưng không đáng giá" scores 0.0, whatever else it says. |
| Classify.ExtractLandShape | src/cleaning.py:366-373 | Returns the first shape with a keyword hit, else "Chữ nhật". |
| Classify.SpecificShapeBeatsRectangle | src/cleaning.py:369-373 | A hit on any non-rectangle shape's keyword rules out "Chữ nhật". |
| Classify.ExtendsLKeyword | src/config.py:81-107 | Each narrow-L and wide-L keyword is the matching 'Chữ L' keyword followed by a space. |
| Classify.NarrowAndWideLNeverReturned | src/cleaning.py:369-371 | "Chữ L hẹp ngang" and "Chữ L rộng ngang" are never returned, because 'Chữ L' always matches first. |
| Classify.FirstPattern | src/cleaning.py:423-425 | The first `FACADE_COUNT_MAP` pattern found in the text. |
| Classify.ScanPatterns | src/cleaning.py:423-425 | The scan over a pattern table stops at the first pattern found in the text, past all patterns not found. |
| Classify.ExtractFacadeCount | src/cleaning.py:411-426 | The panel check and the scan over the table compute the specified count. |
| Classify.PanelFacadeCountWins | src/cleaning.py:413-418 | A digit in the "Số mặt tiền" entry decides; without one the count is 1, 2 or 3. |
| Classify.TextFacadeCountBounds | src/cleaning.py:422-426 | A pattern found in the text gives at least its own count, and at most 3. |
| Classify.TextFacadeCountInRange | src/cleaning.py:422-426 | The count from the text is 1, 2 or 3. |
| Classify.SentencesAreUnbroken | src/cleaning.py:520 | Splitting on `[.\n!?]+` without empties gives non-empty pieces free of break characters. |
| Classify.MentionsAnyFeature | src/cleaning.py:523-526 | The inner loop reports a hit exactly when some feature keyword is a whole word of the sentence. |
| Classify.ExtractDirectFeatures | src/cleaning.py:514-527 | The set of stripped sentences of "title. description" that mention a feature. |
| Classify.CollectFeatures | src/cleaning.py:522-526 | Over any list of sentences, the set of those that mention a feature, stripped. |
| Classify.FeaturesHaveNoBreaks | src/cleaning.py:520-525 | No feature holds '.', '\n', '!' or '?'. |
| Classify.FeatureSentenceReported | src/cleaning.py:522-526 | Every sentence that names a feature is reported. |
| Frontage.FindWidth | src/cleaning.py:377-385 | A width found in a text is never negative. |
| Frontage.FirstWidthNote | src/cleaning.py:396-400 | The first area entry whose note yields a width. |
| Frontage.FacadeWidth | src/cleaning.py:376-408 | The facade width is never negative. |
| Frontage.ExtractFacadeWidth | src/cleaning.py:376-408 | The panel, the loop over `main_info` notes, the description and the title compute the specified width. |
| Frontage.PanelWidthWins | src/cleaning.py:387-391 | An `other_info` width wins over every text source. |
| Frontage.NoteWidthBeatsText | src/cleaning.py:395-400 | Without it, the first area note with a width beats the description and the title. |
| Frontage.Larger | src/cleaning.py:443 | `max` of two readings: one of them and at least both. |
| Frontage.FindLength | src/cleaning.py:430-444 | A length found in a text is never negative. |
| Frontage.LandLengthPositive | src/cleaning.py:446-458 | A land length is strictly positive, since each source counts only when truthy. |
| Frontage.LandLength | src/cleaning.py:429-459 | A truthy panel length wins. Otherwise a truthy description length wins. The answer is absent exactly when none of panel, description and title gives a truthy length. |
| Frontage.PairGivesLongerSide | src/cleaning.py:439-443 | Without a panel length or a "dài" label, an "a x b" pair gives its longer side. |
| Frontage.CollectAlleyWidths | src/cleaning.py:462-476 | The loop collects the panel width, then every captured width that parses. |
| Frontage.ExtractAlleyWidth | src/cleaning.py:461-486 | The collection and the fallbacks compute the specified alley width. |
| Frontage.ParsedWidthsOfTokens | src/cleaning.py:473-476 | A width is collected exactly when some captured token reads as it. |
| Frontage.AlleyWidthIsNarrowest | src/cleaning.py:478-479 | A width read anywhere makes the answer present, at most every width read, panel included. |
| Frontage.VehiclePhrasesInOrder | src/cleaning.py:478-485 | Without any width, the phrases are tried in order. "ô tô tránh" gives 5.0. Otherwise "xe tải tránh" gives 10.0. Otherwise "ô tô vào", "ô tô đỗ cửa" or "oto vào" gives 3.5. With none of them the answer is absent. |
| Frontage.AlleyWidthNonNegative | src/cleaning.py:461-486 | The alley width is never negative. |
| Frontage.ConvertedIsCollected | src/cleaning.py:506-510 | Every pair that converts contributes its distance. |
| Frontage.DistanceToMainRoad | src/cleaning.py:489-511 | The distance is the conversion of one of the captured pairs. It is absent exactly when no pair converts. |
| Frontage.DistanceIsShortest | src/cleaning.py:511 | The distance is present and at most every converted distance. |
| Frontage.KilometresToMetres | src/cleaning.py:490-495 | "km" in any case multiplies by 1000; "m" and no unit do not. |
| Road.SearchEach | test_clean.py:26-28 | One scan over a pattern list answers yes exactly when some pattern matches. |
| Road.IsOnMainRoad | test_clean.py:10-40 | Not a string gives false. Otherwise the answer is no near pattern and some direct pattern, on the lower-cased text. |
| Road.NearPatternMatches | test_clean.py:21 | "cách mặt phố" matches the first near pattern. |
| Road.DirectPatternMatches | test_clean.py:32 | "cách mặt phố" also matches the first direct pattern. |
| Road.NearVetoesDirect | test_clean.py:20-38 | A text with "cách mặt phố" is not on a main road although a direct pattern matches it. |
| Road.MainRoadPhraseAccepted | test_clean.py:31-38 | Without a near pattern, "mặt phố" puts the listing on a main road. |
| RefactoredFloors.DigitsHaveNoUnitContext | test_clean.py:111 | A digit string never matches `exclude_context`. |
| RefactoredFloors.WordsHaveNoUnitContext | test_clean.py:111 | A digit-free token never matches `exclude_context`. |
| RefactoredFloors.CollectRefCandidates | test_clean.py:130-136 | The loop collects the values of the tokens `exclude_context` lets through. |
| RefactoredFloors.ExtractRefNumFloors | test_clean.py:99-152 | The panel, the explicit total, the composite loop, the candidates and the single-storey phrases compute the specified count. |
| RefactoredFloors.ListingTextNonEmpty | test_clean.py:121-122 | The joined text is never empty, so the early `return None` is dead. |
| RefactoredFloors.RefCandidatesOfTokens | test_clean.py:133-136 | A value is a candidate exactly when a token passing `exclude_context` stands for it. |
| RefactoredFloors.ExcludeContextNeverFires | test_clean.py:132-136 | On the tokens the floor pattern can capture, the refactored candidates equal the original ones. |
| RefactoredFloors.PanelThenExplicitTotal | test_clean.py:114-127 | The panel digit wins, then an explicit "gồm/tổng cộng/có tất cả N tầng" total. |
| RefactoredFloors.SumBoundsEach | test_clean.py:142-144 | Each composite count is part of the total. |
| RefactoredFloors.CompositeIsSummed | test_clean.py:138-145 | A composite description gives the sum of its counts, before any candidate. |
| RefactoredFloors.LargestMentionWins | test_clean.py:147 | Otherwise the answer is the largest candidate: at least each passing token's value and equal to one of them. |
| RefactoredFloors.SingleStoreyIsLastResort | test_clean.py:149-152 | An answer of 1 with no other source comes only from "nhà cấp 4"/"nhà trệt". |
| RefactoredSize.PanelText | test_clean.py:168-169 | A panel value is used exactly when it is a non-empty string. |
| RefactoredSize.PairSides | test_clean.py:178-182 | Both sides of a pair are non-negative. |
| RefactoredSize.Smaller | test_clean.py:182 | `min` of two readings: one of them and at most both. |
| RefactoredSize.FindRefWidth | test_clean.py:160-164 | A width found in a text is the capture read by `parse_and_clean_width` as written (a comma-only reading above 20 is reread as thousands), and never negative. |
| RefactoredSize.RefFacadeWidth | test_clean.py:155-184 | The refactored facade width, with panel and text read by `parse_and_clean_width` as written, is never negative. |
| RefactoredSize.PanelCommaWidthAsWritten | test_clean.py:167-169 | A comma-only panel width "a,b" gives round(a.b, 2), or the integer ab when a.b exceeds 20 ("21,5" gives 215.0, "5,500" gives 5.5). |
| RefactoredSize.FindRefLength | test_clean.py:192-203 | A length found in a text is never negative. |
| RefactoredSize.PanelWidthDecides | test_clean.py:167-169 | A panel width that `parse_and_clean_width` as written reads decides, as that reading. |
| RefactoredSize.RefLandLengthPositive | test_clean.py:205-215 | A refactored land length is strictly positive. |
| RefactoredSize.RefLandLength | test_clean.py:187-215 | A truthy panel length wins. Otherwise a truthy description length wins. The answer is absent exactly when none of the three sources gives a truthy length. |
| RefactoredSize.UnparsableLabelHidesPair | test_clean.py:195-196 | A "dài" label whose number does not parse hides a size pair in the same field. |
| RefactoredSize.SizePairOrdersSides | test_clean.py:176-202 | When both extractors fall back on the same pair of the description, the width is its smaller side and the length its larger one, so width ≤ length. |
| RefactoredRoad.PanelAccess | test_clean.py:228-230 | The panel access width, read by `parse_and_clean_width` as written, is never negative. |
| RefactoredRoad.PanelAccessCommaAsWritten | test_clean.py:228-230 | A comma-only access width "a,b" gives round(a.b, 2), or the integer ab when a.b exceeds 20 ("25,5" gives 255.0). |
| RefactoredRoad.CollectRefWidths | test_clean.py:243-248 | The nested loop collects every captured number that `parse_and_clean_width` as written reads, in order. |
| RefactoredRoad.KeepNarrow | test_clean.py:257 | The comprehension keeps exactly the widths below 15 m, in order. |
| RefactoredRoad.ExtractRefAlleyWidth | test_clean.py:218-261 | The blank check, the panel, the main-road rule and the filter over the as-written readings compute the specified width. |
| RefactoredRoad.NarrowKeeps | test_clean.py:257 | A width is kept exactly when it was read and is below 15 m. |
| RefactoredRoad.ReadWidthIsCaptured | test_clean.py:244-248 | Every width read is the as-written reading of a captured number. |
| RefactoredRoad.CapturedWidthIsRead | test_clean.py:244-248 | The as-written reading of every captured number that parses is collected. |
| RefactoredRoad.CommaCaptureReadAsDecimal | test_clean.py:244-248 | A captured "a,b" whose decimal reading is at most 20 is collected as round(a.b, 2) ("5,500" as 5.5). |
| RefactoredRoad.PanelAccessBeatsMainRoad | test_clean.py:228-230 | A truthy as-written panel reading wins even on a main road. |
| RefactoredRoad.MainRoadHasNoAlley | test_clean.py:252-253 | Otherwise a listing on a main road gets 0.0, whatever widths were read. |
| RefactoredRoad.RefAlleyIsNarrowestPlausible | test_clean.py:255-259 | Off a main road the answer is below 15 m, the as-written reading of a captured number, and at most every such reading below 15 m. |
| RefactoredRoad.WideReadingsIgnored | test_clean.py:255-261 | When every as-written reading is 15 m or more, the answer is absent. |
| RefactoredRoad.RefConvert | test_clean.py:290-293 | A converted distance is never negative. |
| RefactoredRoad.CollectRefDistances | test_clean.py:287-295 | The nested loop collects the plausible conversions in order. |
| RefactoredRoad.ExtractRefDistance | test_clean.py:264-299 | The blank check, the main-road rule and the minimum compute the specified distance. |
| RefactoredRoad.CollectedDistanceIsRead | test_clean.py:289-295 | Every collected distance is a plausible reading of some pair. |
| RefactoredRoad.PlausibleReadingIsCollected | test_clean.py:289-295 | Every plausible reading is collected. |
| RefactoredRoad.MainRoadIsAtZero | test_clean.py:272 | A listing on a main road is at 0.0, whatever distances the text gives. |
| RefactoredRoad.RefDistanceInRange | test_clean.py:269-299 | The distance is 0.0, or strictly between 0 and 1000 m and the reading of some pair. |
| RefactoredRoad.RefDistanceIsShortest | test_clean.py:297 | Off a main road, the distance is at most every plausible reading. |
| RefactoredRoad.KilometreAndBeyondDropped | test_clean.py:293-294 | A reading of one kilometre or more never survives the filter. |
| RefactoredRoad.KilometresWithDecimalComma | test_clean.py:290-293 | "a,b km" reads as round(a.b, 2) × 1000 m. |
| RefactoredRoad.KilometresReading | test_clean.py:290-293 | Whatever number the refactored parser reads as v, a "km" unit in any case converts it to v × 1000 m. |
| Address.Unique | src/address_standardizer.py:50 | `unique()` keeps exactly the names that occur, each once. They come in the order of their first occurrence in the input. |
| Address.BuildReverseMap | src/address_standardizer.py:48-58 | The comprehension's loop builds the specified reverse map. |
| Address.AddressStandardizer.constructor | src/address_standardizer.py:10-59 | The province map comes from the province names and the manual entry, and the district map from the district names. |
| Address.AddressStandardizer.StandardizeProvince | src/address_standardizer.py:61-68 | A non-string is returned as it is, and a string never yields absent. An unknown name is returned unchanged. |
| Address.AddressStandardizer.StandardizeDistrict | src/address_standardizer.py:70-94 | A non-string is returned as it is, a string never yields absent, and an unprefixed name that is neither a manual correction nor a key comes back unchanged. |
| Address.ReverseMapEntries | src/address_standardizer.py:48-51 | Every entry files a loaded name under that name's own key. |
| Address.LastNameWins | src/address_standardizer.py:48-51 | A name is found under its key unless a later name has the same key. |
| Address.LaterProvinceOverwrites | src/address_standardizer.py:48-51 | Of two names with the same key, the later one is kept. |
| Address.ProvinceFound | src/address_standardizer.py:48-68 | A loaded province looked up by its stripped name gives the province, unless a later one shares the key. |
| Address.ManualProvinceWins | src/address_standardizer.py:53 | 'Bà Rịa Vũng Tàu' gives 'Tỉnh Bà Rịa - Vũng Tàu', whatever was loaded. |
| Address.ProvinceResultIsOfficial | src/address_standardizer.py:48-68 | Any other lookup hit is a loaded province that strips back to the input. |
| Address.PrefixedDistrictKept | src/address_standardizer.py:79-81 | A name holding a prefix anywhere is returned verbatim, so standardising is idempotent on it. |
| Address.CityAndTownArePrefixed | src/address_standardizer.py:79 | "Thành phố …" and "Thị xã …" carry a prefix. |
| Address.PleiKuUnprefixed | src/address_standardizer.py:79-84 | 'Plei Ku' holds none of the five prefixes, so its manual correction is reached. |
| Address.TuyHoaUnprefixed | src/address_standardizer.py:79-86 | 'Tuy Hòa' holds none of the five prefixes, so its manual correction is reached. |
| Address.PhuQuyUnprefixed | src/address_standardizer.py:79-88 | 'Đảo Phú Quý' holds none of the five prefixes, so its manual correction is reached. |
| Address.VietYenUnprefixed | src/address_standardizer.py:79-90 | 'Việt Yên' holds none of the five prefixes, so its manual correction is reached. |
| Address.PleiKuCorrected | src/address_standardizer.py:84-85 | 'Plei Ku' gives 'Thành phố Pleiku', a fixpoint. |
| Address.TuyHoaCorrected | src/address_standardizer.py:86-87 | 'Tuy Hòa' gives 'Thành phố Tuy Hòa', a fixpoint. |
| Address.PhuQuyCorrected | src/address_standardizer.py:88-89 | 'Đảo Phú Quý' gives 'Thành phố Phan Thiết', a fixpoint. |
| Address.VietYenCorrected | src/address_standardizer.py:90-91 | 'Việt Yên' gives 'Thị xã Việt Yên', a fixpoint. |
| Address.DistrictFound | src/address_standardizer.py:55-94 | An unprefixed, non-manual stripped district name gives its loaded district, unless a later one shares the key. |
| Address.DistrictResultIsOfficial | src/address_standardizer.py:94 | A looked-up district is a loaded name that strips back to the input. |
| Features.LocationCategoryDefinedness | src/feature_engineering.py:12-38 | The category is absent exactly when the distance is, or when the distance is non-zero and the alley width is missing. |
| Features.LocationCategory | src/feature_engineering.py:12-38 | VT1 exactly at distance 0. Any other category needs an alley width, and it is VT2 exactly when that width is at least 3.5 m. |
| Features.CategoryFollowsAlley | src/feature_engineering.py:24-36 | Distance 0 gives VT1. Off the road the width gives VT2 from 3.5 m, VT3 from 2 m and VT4 below, monotone in the width. |
| Features.AdvantageTable | src/feature_engineering.py:52-63 | VT1: Tốt or Khá; VT2: Tốt or Trung bình; VT3: Trung bình; VT4: Kém (urban district first). |
| Features.BusinessAdvantage | src/feature_engineering.py:40-63 | Any label other than "Kém" needs a category and a district. "Tốt" means VT1 or VT2 in a "quận" district. "Khá" means distance 0 in another district. |
| Features.AdvantageMonotoneInPosition | src/feature_engineering.py:55-63 | A better position never gives a worse label. |
| Features.UrbanNeverWorse | src/feature_engineering.py:52-63 | An urban ("quận") district never gives a worse label. |
| Features.MissingDataIsPoor | src/feature_engineering.py:49-50 | A missing category or district gives "Kém". |
| Features.LandUnitPriceGuards | src/feature_engineering.py:81-98 | A price exactly when all five inputs are present, area and floors are positive, and the building is worth less than the asking price. |
| Features.LandUnitPrice | src/feature_engineering.py:65-103 | A price needs a price and a positive area. With a non-negative unit cost and quality, it never exceeds the rounded asking price per m². |
| Features.LandUnitPricePositive | src/feature_engineering.py:100-103 | The unrounded land price is positive and the rounded one non-negative. |
| Features.WornOutBuildingIsIgnored | src/feature_engineering.py:91-103 | With quality 0 the land price is the asking price per m², rounded. |
| Chunks.UtilsChunks | src/utils.py:50-57 | n = 0 raises, n < 0 yields nothing, and n > 0 yields n slices. |
| Chunks.MainChunks | main.py:64-72 | The running-start loop yields exactly what `utils.chunks` yields. |
| Chunks.ChunksCoverList | src/utils.py:50-57 | Joining the slices gives the list back. |
| Chunks.FlattenPrefix | src/utils.py:54-57 | The first i slices join into the first `i*k + min(i, m)` elements. |
| Chunks.ChunkSizes | src/utils.py:53-57 | Slice i has k + 1 elements for i < m and k otherwise, so lengths differ by at most one. |
| Chunks.NoEmptyChunk | src/utils.py:53-57 | With at least n elements, no slice is empty. |
| Pipeline.UtilsSave | src/utils.py:19-28 | Nothing is saved exactly when the data is empty. |
| Pipeline.MainSave | main.py:35-47 | Nothing is saved exactly when the details are empty. |
| Pipeline.HeaderIffOverwrite | src/utils.py:27-28 | The header is written exactly when the file is overwritten. Appending happens exactly in append mode on an existing file, never for a URL list. |
| Pipeline.SaversAgreeOnDetails | main.py:46-47 | For details the two savers decide alike. |
| Pipeline.Workers | main.py:125-128 | At most `MAX_WORKERS` (2) and at most the URLs; zero exactly without URLs. |
| Pipeline.SelectionIsWindow | main.py:121-123 | A start inside the list and a positive count select the URLs from start up to start + count, clamped to the list. |
| Pipeline.WorkPlanCoversSelection | main.py:121-130 | The chunks join back into the selection, with at most 2 of them and none empty. |

## Left out

- The regular-expression engine. Captures and `findall` results of the value-extracting
  patterns are parameters or input sequences. The selection logic over them is modelled:
  first match, min, max, sum, filters and precedence. Only the patterns used as yes/no
  tests are modelled exactly (`is_on_main_road`, `FACADE_COUNT_MAP`, the address-detail
  frontage test).
- Lower-casing is ASCII-only. Vietnamese capitals are left as they are.
- Character classes beyond ASCII. White space is Python's `str.isspace()` set, the
  no-break space included. Every other character above ASCII is a letter for `\w`, `\b`
  and `str.isalpha()`, except the general punctuation U+2010 to U+2027 (dashes, quotes,
  the ellipsis). Other non-ASCII symbols and punctuation (such as '×' or '«') therefore
  count as letters, and Unicode digits other than 0-9 are not digits.
- `unicodedata.normalize('NFC', …)` (test_clean.py:225) is the identity.
- `str.title()` and `str.capitalize()` are parameters.
- Floats are exact reals. `round(x, 2)` rounds half up on the exact value, and binary
  floating-point error is not modelled.
- Python's `float()` is modelled for an optional sign, digits with at most one dot, and
  surrounding white space. Exponents, `inf`, `nan` and underscores are not modelled.
- JSON decoding: panels are given decoded. A panel that is missing or not valid JSON is
  the empty one, which is how the extractors treat it.
- Panels of the wrong JSON shape. A `main_info` that decodes to an object, or an
  `other_info` that decodes to a list, makes `item.get` or `.get` raise AttributeError,
  which the extractors do not catch (src/cleaning.py:233-240 and 244-249,
  test_clean.py:167-170 and 228-231). The decoded panel types cannot hold such a panel,
  so that raise is not modelled.
- `CONSTRUCTION_COST_MAP`, `DEFAULT_QUALITY`, `FEATURE_KEYWORDS`, `STREET_PREFIXES` and
  `DETAIL_PREFIXES` are imported at src/cleaning.py:10-19 but are not in src/config.py.
  They are parameters.
- Loading the administrative names from SQL files (src/address_standardizer.py:18-45).
  The constructor takes the two name lists.
- Scraping (src/scraping.py, src/selenium_manager.py, src/tasks.py), `scrape_worker`, the
  thread pool, file and CSV I/O, printing, and the orchestration in `run_cleaning_pipeline`
  and `run_feature_engineering`. `drop_mixed_listings` and
  `FeatureEngineer.calculate_estimated_price` are not part of this model.
- RefactoredFloors.ExtractRefNumFloors: the composite counts and the candidate tokens
  are independent inputs. That both come from the same text is not modelled.
- Location.AddressPartsStreet: states only where the street comes from. The regex match
  and its five-word test act on a capture that is a parameter.
- Location.TitleStreet: states only where the street comes from, for the same reason.

## Findings

| source | as written | input that shows it | evidently intended | confidence | as-written member | corrected member |
|---|---|---|---|---|---|---|
| src/config.py:113-114 | A missing comma joins 'tặng nhà' and 'có nhà nhưng không đáng giá' into one keyword | the description "có nhà nhưng không đáng giá" gets `DEFAULT_QUALITY` | the phrase is a tier-0.0 keyword | not executed | Classify.OrphanPhraseIgnoredAsWritten | Classify.OrphanPhraseScoresZero |
| test_clean.py:68 | A comma-only number is reread as thousands when its decimal reading exceeds 20 | "1,234" reads 1.23 and "5,500" reads 5.5 | the documented "1,234" → 1234.0, without reading "5,500" as 5.5 | not executed | Numbers.WidthAsWrittenMisreadsThousands | Numbers.WidthDocumentedExamples |

=== FILE: address.dfy ===
/** `AddressStandardizer`: reverse lookup maps from a province or district name with its
    administrative prefix removed to the official name, built once from the official
    name lists, then used to standardise free-text names. Reading the lists out of the
    SQL scripts is not modelled: the constructor takes the `name` columns as they come
    out of the two tables. */
module Address {
  import opened Wrappers
  import opened Text

  /** Which reverse map a name belongs to; each strips its own prefixes. */
  datatype Level = ProvinceLevel | DistrictLevel

  /** The key a name is filed under: for provinces "Thành phố " and "Tỉnh " removed,
      for districts "Thành phố ", "Thành Phố ", "Huyện ", "Quận " and "Thị xã " removed,
      each everywhere in the name and in that order. */
  function KeyOf(level: Level, name: string): string {
    match level
    case ProvinceLevel => ReplaceAll(ReplaceAll(name, "Thành phố ", ""), "Tỉnh ", "")
    case DistrictLevel =>
      ReplaceAll(ReplaceAll(ReplaceAll(ReplaceAll(ReplaceAll(name, "Thành phố ", ""), "Thành Phố ", ""),
                                       "Huyện ", ""), "Quận ", ""), "Thị xã ", "")
  }

  /** The position of the first occurrence of `x` in `s`. */
  function IndexOf(s: seq<string>, x: string): (i: nat)
    requires x in s
    ensures i < |s| && s[i] == x && x !in s[..i]
  {
    if s[0] == x then 0
    else
      var i := IndexOf(s[1..], x);
      assert s[..1 + i] == [s[0]] + s[1..][..i];
      1 + i
  }

  /** Appending an element moves no first occurrence of an element already present. */
  lemma IndexOfAppend(s: seq<string>, y: string, x: string)
    requires x in s
    ensures IndexOf(s + [y], x) == IndexOf(s, x)
  {
    if s[0] != x {
      assert (s + [y])[1..] == s[1..] + [y];
      IndexOfAppend(s[1..], y, x);
    }
  }

  /** `Series.unique()`: each name once, in the order of first occurrence. */
  function Unique(names: seq<string>): (u: seq<string>)
    ensures forall x :: x in u <==> x in names
    ensures forall i, j | 0 <= i < j < |u| :: u[i] != u[j]
    ensures forall i, j | 0 <= i < j < |u| :: IndexOf(names, u[i]) < IndexOf(names, u[j])
  {
    if |names| == 0 then []
    else
      var init := names[..|names| - 1];
      var last := names[|names| - 1];
      assert names == init + [last];
      var u := Unique(init);
      UniqueStep(init, last, u);
      if last in u then u else u + [last]
  }

  /** The order of first occurrences in `init` carries over to `init + [last]`, with a
      new `last` after all of them. */
  lemma UniqueStep(init: seq<string>, last: string, u: seq<string>)
    requires forall x :: x in u <==> x in init
    requires forall i, j | 0 <= i < j < |u| :: IndexOf(init, u[i]) < IndexOf(init, u[j])
    ensures forall k | 0 <= k < |u| :: IndexOf(init + [last], u[k]) == IndexOf(init, u[k])
    ensures last !in u ==> IndexOf(init + [last], last) == |init|
  {
    forall k | 0 <= k < |u|
      ensures IndexOf(init + [last], u[k]) == IndexOf(init, u[k])
    {
      IndexOfAppend(init, last, u[k]);
    }
  }

  /** The dict comprehension `{key(n): n for n in names}`: a later name filed under the
      same key overwrites an earlier one. */
  function ReverseMap(names: seq<string>, level: Level): map<string, string> {
    if |names| == 0 then map[]
    else
      var last := names[|names| - 1];
      ReverseMap(names[..|names| - 1], level)[KeyOf(level, last) := last]
  }

  /** The manual province correction added after the map is built. */
  const ManualProvinceKey := "Bà Rịa Vũng Tàu"
  const ManualProvince := "Tỉnh Bà Rịa - Vũng Tàu"

  /** `reverse_province_map`. */
  function ProvinceMap(provinceNames: seq<string>): map<string, string> {
    ReverseMap(Unique(provinceNames), ProvinceLevel)[ManualProvinceKey := ManualProvince]
  }

  /** `reverse_district_map`. */
  function DistrictMap(districtNames: seq<string>): map<string, string> {
    ReverseMap(Unique(districtNames), DistrictLevel)
  }

  /** The loop of the dict comprehension. */
  method BuildReverseMap(names: seq<string>, level: Level) returns (m: map<string, string>)
    ensures m == ReverseMap(names, level)
  {
    m := map[];
    var i := 0;
    while i < |names|
      invariant 0 <= i <= |names|
      invariant m == ReverseMap(names[..i], level)
    {
      ReverseMapStep(names, level, i);
      m := m[KeyOf(level, names[i]) := names[i]];
      i := i + 1;
    }
    assert names[..|names|] == names;
  }

  /** One more name of the comprehension overwrites its key. */
  lemma ReverseMapStep(names: seq<string>, level: Level, i: nat)
    requires i < |names|
    ensures ReverseMap(names[..i + 1], level) == ReverseMap(names[..i], level)[KeyOf(level, names[i]) := names[i]]
  {
    assert names[..i + 1][..i] == names[..i];
  }

  /** The prefixes that mark a district name as already standard. */
  const DistrictPrefixes: seq<string> := ["Thành phố", "Thành Phố", "Quận", "Huyện", "Thị xã"]

  /** `any(prefix in name for prefix in prefixes)`: a prefix anywhere in the name. */
  predicate HasDistrictPrefix(name: string) {
    exists k | 0 <= k < |DistrictPrefixes| :: Contains(name, DistrictPrefixes[k])
  }

  /** The manual district corrections, tried before the map. */
  function ManualDistrict(name: string): Option<string> {
    if name == "Plei Ku" then Some("Thành phố Pleiku")
    else if name == "Tuy Hòa" then Some("Thành phố Tuy Hòa")
    else if name == "Đảo Phú Quý" then Some("Thành phố Phan Thiết")
    else if name == "Việt Yên" then Some("Thị xã Việt Yên")
    else None
  }

  class AddressStandardizer {
    var reverseProvinceMap: map<string, string>
    var reverseDistrictMap: map<string, string>

    /** `__init__` with `_load_data`, from the `name` columns of the two tables. */
    constructor (provinceNames: seq<string>, districtNames: seq<string>)
      ensures reverseProvinceMap == ProvinceMap(provinceNames)
      ensures reverseDistrictMap == DistrictMap(districtNames)
    {
      var provinces := BuildReverseMap(Unique(provinceNames), ProvinceLevel);
      var districts := BuildReverseMap(Unique(districtNames), DistrictLevel);
      reverseProvinceMap := provinces[ManualProvinceKey := ManualProvince];
      reverseDistrictMap := districts;
    }

    /** `standardize_province`: a non-string is returned as it is; a string is looked up
        and returned unchanged when it is not a key. */
    function StandardizeProvince(name: Option<string>): (r: Option<string>)
      reads this
      ensures r.Some? <==> name.Some?
      ensures name.Some? && name.value !in reverseProvinceMap ==> r == name
    {
      match name
      case None => None
      case Some(n) => Some(if n in reverseProvinceMap then reverseProvinceMap[n] else n)
    }

    /** `standardize_district`: a non-string is returned as it is; a name with a prefix is
        kept; the manual corrections come next; then the lookup, and a name that is not a
        key comes back unchanged. */
    function StandardizeDistrict(name: Option<string>): (r: Option<string>)
      reads this
      ensures r.Some? <==> name.Some?
      ensures name.Some? && !HasDistrictPrefix(name.value) && ManualDistrict(name.value).None? &&
                name.value !in reverseDistrictMap
              ==> r == name
    {
      match name
      case None => None
      case Some(n) =>
        if HasDistrictPrefix(n) then name
        else if ManualDistrict(n).Some? then ManualDistrict(n)
        else Some(if n in reverseDistrictMap then reverseDistrictMap[n] else n)
    }
  }

  // ----- the reverse maps -----

  /** Every entry files a loaded name under its own key. */
  lemma {:induction false} ReverseMapEntries(names: seq<string>, level: Level, key: string)
    requires key in ReverseMap(names, level)
    ensures ReverseMap(names, level)[key] in names
    ensures KeyOf(level, ReverseMap(names, level)[key]) == key
  {
    var init := names[..|names| - 1];
    var last := names[|names| - 1];
    assert names == init + [last];
    if key != KeyOf(level, last) {
      ReverseMapEntries(init, level, key);
    }
  }

  /** A name is found under its key unless a later name has the same key. */
  lemma {:induction false} LastNameWins(names: seq<string>, level: Level, k: nat)
    requires k < |names|
    requires forall j | k < j < |names| :: KeyOf(level, names[j]) != KeyOf(level, names[k])
    ensures KeyOf(level, names[k]) in ReverseMap(names, level)
    ensures ReverseMap(names, level)[KeyOf(level, names[k])] == names[k]
  {
    var init := names[..|names| - 1];
    if k < |init| {
      assert forall j | k < j < |init| :: init[j] == names[j];
      LastNameWins(init, level, k);
    }
  }

  /** Two province names that strip to the same key: the later one is kept. */
  lemma LaterProvinceOverwrites(a: string, b: string)
    requires KeyOf(ProvinceLevel, a) == KeyOf(ProvinceLevel, b)
    ensures ReverseMap([a, b], ProvinceLevel)[KeyOf(ProvinceLevel, a)] == b
  {
    assert [a, b][..1] == [a];
  }

  // ----- standardize_province -----

  /** A loaded province, looked up by its stripped name, gives its official name when no
      later loaded province strips to the same key and the key is not the manual one. */
  lemma ProvinceFound(s: AddressStandardizer, provinceNames: seq<string>, k: nat)
    requires s.reverseProvinceMap == ProvinceMap(provinceNames)
    requires k < |Unique(provinceNames)|
    requires var u := Unique(provinceNames);
      forall j | k < j < |u| :: KeyOf(ProvinceLevel, u[j]) != KeyOf(ProvinceLevel, u[k])
    requires KeyOf(ProvinceLevel, Unique(provinceNames)[k]) != ManualProvinceKey
    ensures var p := Unique(provinceNames)[k];
      s.StandardizeProvince(Some(KeyOf(ProvinceLevel, p))) == Some(p) && p in provinceNames
  {
    LastNameWins(Unique(provinceNames), ProvinceLevel, k);
  }

  /** The manual entry beats whatever the loaded names put under its key. */
  lemma ManualProvinceWins(s: AddressStandardizer, provinceNames: seq<string>)
    requires s.reverseProvinceMap == ProvinceMap(provinceNames)
    ensures s.StandardizeProvince(Some(ManualProvinceKey)) == Some(ManualProvince)
  {
  }

  /** Any other result of a lookup is a loaded province filed under the input. */
  lemma ProvinceResultIsOfficial(s: AddressStandardizer, provinceNames: seq<string>, name: string)
    requires s.reverseProvinceMap == ProvinceMap(provinceNames)
    requires name != ManualProvinceKey && name in s.reverseProvinceMap
    ensures var r := s.StandardizeProvince(Some(name)).value;
      r in provinceNames && KeyOf(ProvinceLevel, r) == name
  {
    ReverseMapEntries(Unique(provinceNames), ProvinceLevel, name);
  }

  // ----- standardize_district -----

  /** A name that does not hold `c` does not contain any string that does. */
  lemma MissingCharRulesOut(s: string, sub: string, c: char)
    requires c in sub && c !in s
    ensures !Contains(s, sub)
  {
    forall i | 0 <= i <= |s|
      ensures !OccursAt(s, sub, i)
    {
      if i + |sub| <= |s| {
        var j :| 0 <= j < |sub| && sub[j] == c;
        assert s[i..i + |sub|][j] == s[i + j];
      }
    }
  }

  /** A prefixed name is kept as it is, so standardising it again changes nothing. */
  lemma PrefixedDistrictKept(s: AddressStandardizer, name: string)
    requires HasDistrictPrefix(name)
    ensures s.StandardizeDistrict(Some(name)) == Some(name)
    ensures s.StandardizeDistrict(s.StandardizeDistrict(Some(name))) == Some(name)
  {
  }

  /** "Thành phố …" and "Thị xã …" carry a prefix. */
  lemma CityAndTownArePrefixed(rest: string)
    ensures HasDistrictPrefix("Thành phố " + rest) && HasDistrictPrefix("Thị xã " + rest)
  {
    assert OccursAt("Thành phố " + rest, DistrictPrefixes[0], 0);
    assert OccursAt("Thị xã " + rest, DistrictPrefixes[4], 0);
  }

  lemma PleiKuUnprefixed()
    ensures !HasDistrictPrefix("Plei Ku")
  {
    MissingCharRulesOut("Plei Ku", DistrictPrefixes[0], 'T');
    MissingCharRulesOut("Plei Ku", DistrictPrefixes[1], 'T');
    MissingCharRulesOut("Plei Ku", DistrictPrefixes[2], 'Q');
    MissingCharRulesOut("Plei Ku", DistrictPrefixes[3], 'H');
    MissingCharRulesOut("Plei Ku", DistrictPrefixes[4], 'T');
  }

  lemma TuyHoaUnprefixed()
    ensures !HasDistrictPrefix("Tuy Hòa")
  {
    MissingCharRulesOut("Tuy Hòa", DistrictPrefixes[0], 'n');
    MissingCharRulesOut("Tuy Hòa", DistrictPrefixes[1], 'n');
    MissingCharRulesOut("Tuy Hòa", DistrictPrefixes[2], 'Q');
    MissingCharRulesOut("Tuy Hòa", DistrictPrefixes[3], 'n');
    MissingCharRulesOut("Tuy Hòa", DistrictPrefixes[4], 'x');
  }

  lemma PhuQuyUnprefixed()
    ensures !HasDistrictPrefix("Đảo Phú Quý")
  {
    MissingCharRulesOut("Đảo Phú Quý", DistrictPrefixes[0], 'T');
    MissingCharRulesOut("Đảo Phú Quý", DistrictPrefixes[1], 'T');
    MissingCharRulesOut("Đảo Phú Quý", DistrictPrefixes[2], 'n');
    MissingCharRulesOut("Đảo Phú Quý", DistrictPrefixes[3], 'H');
    MissingCharRulesOut("Đảo Phú Quý", DistrictPrefixes[4], 'T');
  }

  lemma VietYenUnprefixed()
    ensures !HasDistrictPrefix("Việt Yên")
  {
    MissingCharRulesOut("Việt Yên", DistrictPrefixes[0], 'T');
    MissingCharRulesOut("Việt Yên", DistrictPrefixes[1], 'T');
    MissingCharRulesOut("Việt Yên", DistrictPrefixes[2], 'Q');
    MissingCharRulesOut("Việt Yên", DistrictPrefixes[3], 'H');
    MissingCharRulesOut("Việt Yên", DistrictPrefixes[4], 'T');
  }

  // The four manual corrections win over the loaded districts, and what they give is
  // prefixed, hence left alone when standardised again.

  lemma PleiKuCorrected(s: AddressStandardizer)
    ensures s.StandardizeDistrict(Some("Plei Ku")) == Some("Thành phố Pleiku")
    ensures s.StandardizeDistrict(Some("Thành phố Pleiku")) == Some("Thành phố Pleiku")
  {
    PleiKuUnprefixed();
    CityAndTownArePrefixed("Pleiku");
    assert "Thành phố " + "Pleiku" == "Thành phố Pleiku";
  }

  lemma TuyHoaCorrected(s: AddressStandardizer)
    ensures s.StandardizeDistrict(Some("Tuy Hòa")) == Some("Thành phố Tuy Hòa")
    ensures s.StandardizeDistrict(Some("Thành phố Tuy Hòa")) == Some("Thành phố Tuy Hòa")
  {
    TuyHoaUnprefixed();
    CityAndTownArePrefixed("Tuy Hòa");
    assert "Thành phố " + "Tuy Hòa" == "Thành phố Tuy Hòa";
  }

  lemma PhuQuyCorrected(s: AddressStandardizer)
    ensures s.StandardizeDistrict(Some("Đảo Phú Quý")) == Some("Thành phố Phan Thiết")
    ensures s.StandardizeDistrict(Some("Thành phố Phan Thiết")) == Some("Thành phố Phan Thiết")
  {
    PhuQuyUnprefixed();
    CityAndTownArePrefixed("Phan Thiết");
    assert "Thành phố " + "Phan Thiết" == "Thành phố Phan Thiết";
  }

  lemma VietYenCorrected(s: AddressStandardizer)
    ensures s.StandardizeDistrict(Some("Việt Yên")) == Some("Thị xã Việt Yên")
    ensures s.StandardizeDistrict(Some("Thị xã Việt Yên")) == Some("Thị xã Việt Yên")
  {
    VietYenUnprefixed();
    CityAndTownArePrefixed("Việt Yên");
    assert "Thị xã " + "Việt Yên" == "Thị xã Việt Yên";
  }

  /** A bare district name that is neither prefixed nor manual is looked up: a loaded
      district filed under it is returned when no later one shares the key. */
  lemma DistrictFound(s: AddressStandardizer, districtNames: seq<string>, k: nat)
    requires s.reverseDistrictMap == DistrictMap(districtNames)
    requires k < |Unique(districtNames)|
    requires var u := Unique(districtNames);
      forall j | k < j < |u| :: KeyOf(DistrictLevel, u[j]) != KeyOf(DistrictLevel, u[k])
    requires var key := KeyOf(DistrictLevel, Unique(districtNames)[k]);
      !HasDistrictPrefix(key) && ManualDistrict(key).None?
    ensures var d := Unique(districtNames)[k];
      s.StandardizeDistrict(Some(KeyOf(DistrictLevel, d))) == Some(d) && d in districtNames
  {
    LastNameWins(Unique(districtNames), DistrictLevel, k);
  }

  /** A looked-up district is a loaded name that strips back to the input. */
  lemma DistrictResultIsOfficial(s: AddressStandardizer, districtNames: seq<string>, name: string)
    requires s.reverseDistrictMap == DistrictMap(districtNames)
    requires !HasDistrictPrefix(name) && ManualDistrict(name).None? && name in s.reverseDistrictMap
    ensures var r := s.StandardizeDistrict(Some(name)).value;
      r in districtNames && KeyOf(DistrictLevel, r) == name
  {
    ReverseMapEntries(Unique(districtNames), DistrictLevel, name);
  }
}

=== FILE: area.dfy ===
/** `extract_total_area`: the plot area in square metres, looked up in the `main_info`
    panel, then in `other_info`, then in the description. The two description patterns
    are left to the regex engine; their first capture groups are parameters (none when
    the pattern finds nothing, or when the description is NaN). */
module Area {
  import opened Wrappers
  import opened Text
  import opened Numbers
  import opened Listing

  const AreaTitle := "Diện tích"

  /** A `main_info` entry the scan stops at: titled "Diện tích", with a value the number
      parser reads. Entries with a `null` or digit-free value are passed over. */
  predicate IsAreaItem(item: InfoItem) {
    item.title == AreaTitle && ParseNumber(Value(item)).Some?
  }

  /** The reading of the first area entry of `main_info`, none when there is none. */
  function MainInfoArea(items: seq<InfoItem>): (r: Option<real>)
    ensures r.Some? <==> exists k | 0 <= k < |items| :: IsAreaItem(items[k])
  {
    var i := FirstWhere(items, IsAreaItem);
    if i < |items| then ParseNumber(Value(items[i])) else None
  }

  /** The area the extractor settles on. `labelled` is the capture of
      `(?i)(?:diện tích|dt)[:\s]*([\d\.,]+)\s*m[²2]` in the description and `bare` that
      of `([\d\.,]+)\s*m[²2]`. */
  function TotalArea(row: Row, labelled: Option<string>, bare: Option<string>): (r: Option<real>)
    ensures r.Some? ==> r.value >= 0.0
  {
    var fromMain := MainInfoArea(row.mainInfo);
    if fromMain.Some? then fromMain
    else
      var fromOther := ParseNumber(OtherValue(row, AreaTitle));
      if fromOther.Some? then fromOther
      else
        var fromLabel := ParseNumber(labelled);
        if fromLabel.Some? then fromLabel else ParseNumber(bare)
  }

  /** `extract_total_area`: the loop over `main_info` returns at the first entry that
      parses; the panel and the two patterns are tried after it. */
  method ExtractTotalArea(row: Row, labelled: Option<string>, bare: Option<string>)
    returns (area: Option<real>)
    ensures area == TotalArea(row, labelled, bare)
  {
    var i := 0;
    while i < |row.mainInfo|
      invariant 0 <= i <= |row.mainInfo|
      invariant forall j | 0 <= j < i :: !IsAreaItem(row.mainInfo[j])
    {
      var item := row.mainInfo[i];
      if item.title == AreaTitle {
        area := ParseNumber(Value(item));
        if area.Some? {
          assert FirstWhere(row.mainInfo, IsAreaItem) == i;
          return;
        }
      }
      i := i + 1;
    }
    area := ParseNumber(OtherValue(row, AreaTitle));
    if area.Some? {
      return;
    }
    area := ParseNumber(labelled);
    if area.Some? {
      return;
    }
    area := ParseNumber(bare);
  }

  /** The first area entry of `main_info` decides, whatever `other_info` and the
      description say. */
  lemma MainInfoAreaWins(row: Row, labelled: Option<string>, bare: Option<string>, k: nat)
    requires k < |row.mainInfo| && IsAreaItem(row.mainInfo[k])
    requires forall j | 0 <= j < k :: !IsAreaItem(row.mainInfo[j])
    ensures TotalArea(row, labelled, bare) == ParseNumber(Value(row.mainInfo[k]))
  {
    assert FirstWhere(row.mainInfo, IsAreaItem) == k;
  }

  /** Without a usable `main_info` entry, an `other_info` area with a digit decides,
      whatever the description says. */
  lemma OtherInfoAreaNext(row: Row, labelled: Option<string>, bare: Option<string>)
    requires forall k | 0 <= k < |row.mainInfo| :: !IsAreaItem(row.mainInfo[k])
    requires AreaTitle in row.otherInfo && HasDigit(row.otherInfo[AreaTitle])
    ensures TotalArea(row, labelled, bare) == ParseNumber(Some(row.otherInfo[AreaTitle]))
  {
  }

  /** Without a panel reading, the labelled pattern beats the bare one. */
  lemma LabelledPatternBeatsBare(row: Row, labelled: Option<string>, bare: Option<string>)
    requires forall k | 0 <= k < |row.mainInfo| :: !IsAreaItem(row.mainInfo[k])
    requires AreaTitle !in row.otherInfo || !HasDigit(row.otherInfo[AreaTitle])
    requires labelled.Some? && HasDigit(labelled.value)
    ensures TotalArea(row, labelled, bare) == ParseNumber(labelled)
  {
  }

  /** The area is NaN exactly when none of the four sources holds a digit. */
  lemma AreaAbsentIffNothingParses(row: Row, labelled: Option<string>, bare: Option<string>)
    ensures TotalArea(row, labelled, bare).None? <==>
      (forall k | 0 <= k < |row.mainInfo| :: !IsAreaItem(row.mainInfo[k])) &&
      (AreaTitle !in row.otherInfo || !HasDigit(row.otherInfo[AreaTitle])) &&
      (labelled.None? || !HasDigit(labelled.value)) &&
      (bare.None? || !HasDigit(bare.value))
  {
  }
}

=== FILE: chunks.dfy ===
/** `chunks(iterable, n)`: the list cut into `n` consecutive slices whose lengths differ
    by at most one, the first `len % n` slices one longer. The project has two
    implementations: the one in `src/utils.py` computes each slice's bounds directly and
    the one in `main.py` advances a running `start`; both are modelled and shown equal. */
module Chunks {

  /** What consuming the generator gives: its slices, or the `ZeroDivisionError` that
      `divmod(len, 0)` raises. */
  datatype Slices<T> = Yields(slices: seq<seq<T>>) | RaisesZeroDivision

  function Min(a: int, b: int): int {
    if a <= b then a else b
  }

  /** Where slice `i` starts: `i * k + min(i, m)`. */
  function Bound(i: int, k: int, m: int): int {
    i * k + Min(i, m)
  }

  /** One more slice adds `k`, plus one while `i < m`. */
  lemma BoundStep(i: int, k: int, m: int)
    ensures Bound(i + 1, k, m) == Bound(i, k, m) + k + (if i < m then 1 else 0)
  {
    assert (i + 1) * k == i * k + k;
  }

  /** Scaling by a non-negative factor keeps the order. */
  lemma MulMono(a: int, b: int, k: int)
    requires 0 <= a <= b && k >= 0
    ensures 0 <= a * k <= b * k
  {
    assert b * k == a * k + (b - a) * k;
  }

  /** `divmod(len, n)` for a positive `n`. */
  lemma DivMod(len: nat, n: int)
    requires n > 0
    ensures len / n >= 0 && 0 <= len % n < n && len == n * (len / n) + len % n
  {
  }

  /** The bounds climb from 0 to the length of the list. */
  lemma BoundsInRange(len: nat, n: int, i: int)
    requires n > 0 && 0 <= i < n
    ensures var k, m := len / n, len % n;
      0 <= Bound(i, k, m) <= Bound(i + 1, k, m) <= len
  {
    var k, m := len / n, len % n;
    DivMod(len, n);
    BoundStep(i, k, m);
    MulMono(i, i + 1, k);
    MulMono(i + 1, n, k);
    assert n * k == k * n;
  }

  /** The last bound is the length of the list. */
  lemma LastBound(len: nat, n: int)
    requires n > 0
    ensures Bound(n, len / n, len % n) == len
  {
  }

  /** Slice `i` of `utils.chunks`: `lst[start:end]`. */
  function SliceAt<T>(lst: seq<T>, n: int, i: int): seq<T>
    requires n > 0 && 0 <= i < n
  {
    var k, m := |lst| / n, |lst| % n;
    BoundsInRange(|lst|, n, i);
    lst[Bound(i, k, m)..Bound(i + 1, k, m)]
  }

  /** `list(utils.chunks(lst, n))`: nothing for a negative `n` (`range(n)` is empty). */
  function UtilsChunks<T>(lst: seq<T>, n: int): (r: Slices<T>)
    ensures n == 0 <==> r.RaisesZeroDivision?
    ensures n < 0 ==> r == Yields([])
    ensures n > 0 ==> r.Yields? && |r.slices| == n
  {
    if n == 0 then RaisesZeroDivision
    else if n < 0 then Yields([])
    else Yields(seq(n, i requires 0 <= i < n => SliceAt(lst, n, i)))
  }

  /** `list(main.chunks(lst, n))`: the loop that advances `start` slice by slice. */
  method MainChunks<T>(lst: seq<T>, n: int) returns (r: Slices<T>)
    ensures r == UtilsChunks(lst, n)
  {
    if n == 0 {
      return RaisesZeroDivision;
    }
    if n < 0 {
      return Yields([]);
    }
    var k, m := |lst| / n, |lst| % n;
    var start := 0;
    var slices: seq<seq<T>> := [];
    for i := 0 to n
      invariant start == Bound(i, k, m)
      invariant |slices| == i
      invariant forall j | 0 <= j < i :: slices[j] == SliceAt(lst, n, j)
    {
      var end := start + k + (if i < m then 1 else 0);
      BoundStep(i, k, m);
      BoundsInRange(|lst|, n, i);
      slices := slices + [lst[start..end]];
      start := end;
    }
    LastBound(|lst|, n);
    assert start == |lst|;
    return Yields(slices);
  }

  /** The slices joined back together. */
  function Flatten<T>(ss: seq<seq<T>>): seq<T> {
    if |ss| == 0 then [] else Flatten(ss[..|ss| - 1]) + ss[|ss| - 1]
  }

  /** The first `i` slices join into the first `Bound(i)` elements. */
  lemma {:induction false} FlattenPrefix<T>(lst: seq<T>, n: int, i: nat)
    requires n > 0 && i <= n
    ensures var k, m := |lst| / n, |lst| % n;
      0 <= Bound(i, k, m) <= |lst| &&
      Flatten(UtilsChunks(lst, n).slices[..i]) == lst[..Bound(i, k, m)]
  {
    var k, m := |lst| / n, |lst| % n;
    var ss := UtilsChunks(lst, n).slices;
    if i == 0 {
      assert ss[..0] == [];
    } else {
      FlattenPrefix(lst, n, i - 1);
      BoundsInRange(|lst|, n, i - 1);
      assert ss[i - 1] == SliceAt(lst, n, i - 1);
      FlattenStep(ss, i, lst, Bound(i - 1, k, m), Bound(i, k, m));
    }
  }

  /** One more slice, the next stretch of the list, extends the joined prefix. */
  lemma FlattenStep<T>(ss: seq<seq<T>>, i: nat, lst: seq<T>, p: nat, q: nat)
    requires 0 < i <= |ss| && p <= q <= |lst|
    requires Flatten(ss[..i - 1]) == lst[..p] && ss[i - 1] == lst[p..q]
    ensures Flatten(ss[..i]) == lst[..q]
  {
    assert ss[..i][..i - 1] == ss[..i - 1];
    assert lst[..p] + lst[p..q] == lst[..q];
  }

  /** Joining the slices in order gives back the list. */
  lemma ChunksCoverList<T>(lst: seq<T>, n: int)
    requires n > 0
    ensures Flatten(UtilsChunks(lst, n).slices) == lst
  {
    FlattenPrefix(lst, n, n);
    LastBound(|lst|, n);
    var ss := UtilsChunks(lst, n).slices;
    assert ss[..n] == ss;
    assert lst[..|lst|] == lst;
  }

  /** Slice `i` holds `k + 1` elements for `i < m` and `k` otherwise, so any two slice
      lengths differ by at most one. */
  lemma ChunkSizes<T>(lst: seq<T>, n: int, i: nat, j: nat)
    requires n > 0 && i < n && j < n
    ensures var ss := UtilsChunks(lst, n).slices;
      |ss[i]| == |lst| / n + (if i < |lst| % n then 1 else 0) &&
      -1 <= |ss[i]| - |ss[j]| <= 1
  {
    var k, m := |lst| / n, |lst| % n;
    BoundStep(i, k, m);
    BoundStep(j, k, m);
    BoundsInRange(|lst|, n, i);
    BoundsInRange(|lst|, n, j);
  }

  /** With at least as many elements as slices, no slice is empty. */
  lemma NoEmptyChunk<T>(lst: seq<T>, n: int, i: nat)
    requires 0 < n <= |lst| && i < n
    ensures |UtilsChunks(lst, n).slices[i]| >= 1
  {
    ChunkSizes(lst, n, i, i);
    assert |lst| / n >= 1;
  }
}

=== FILE: classify.dfy ===
/** The first-match classifiers of the cleaner: remaining structural quality, land
    shape, number of facades and the feature sentences. Each scans a static table in
    order and stops at the first entry with a hit in the lower-cased listing text. */
module Classify {
  import opened Wrappers
  import opened Text
  import opened Numbers
  import opened Pattern
  import opened Config
  import opened Listing

  // ----- keyword tables -----

  /** Some keyword of the list is a whole word of `text` (`any(re.search(rf"\b{kw}\b", text) …)`). */
  predicate KeywordHit(text: string, keywords: seq<string>) {
    exists k | 0 <= k < |keywords| :: ContainsWord(text, keywords[k])
  }

  /** The index of the first table entry with a keyword hit, or `|table|`. */
  function FirstHit<T>(table: seq<(T, seq<string>)>, text: string): (i: nat)
    ensures i <= |table|
    ensures forall j | 0 <= j < i :: !KeywordHit(text, table[j].1)
    ensures i < |table| ==> KeywordHit(text, table[i].1)
  {
    if |table| == 0 || KeywordHit(text, table[0].1) then 0
    else
      var i := FirstHit(table[1..], text);
      assert forall j | 1 <= j < 1 + i :: table[j] == table[1..][j - 1];
      1 + i
  }

  /** The scan over a keyword table, `for value, keywords in table: for kw in keywords:
      if re.search(kw, text)`: the index of the first entry with a hit. */
  method ScanHits<T>(table: seq<(T, seq<string>)>, text: string) returns (i: nat)
    ensures i == FirstHit(table, text)
  {
    i := 0;
    while i < |table|
      invariant 0 <= i <= |table|
      invariant forall j | 0 <= j < i :: !KeywordHit(text, table[j].1)
    {
      var keywords := table[i].1;
      var k := 0;
      while k < |keywords|
        invariant 0 <= k <= |keywords|
        invariant forall m | 0 <= m < k :: !ContainsWord(text, keywords[m])
      {
        if ContainsWord(text, keywords[k]) {
          FirstHitAt(table, text, i);
          return;
        }
        k := k + 1;
      }
      i := i + 1;
    }
    FirstHitAt(table, text, i);
  }

  /** The first entry with a hit, found by a scan that saw no hit before it. */
  lemma FirstHitAt<T>(table: seq<(T, seq<string>)>, text: string, i: nat)
    requires i <= |table|
    requires forall j | 0 <= j < i :: !KeywordHit(text, table[j].1)
    requires i < |table| ==> KeywordHit(text, table[i].1)
    ensures FirstHit(table, text) == i
  {
  }

  /** An entry with a hit stops the scan at or before it. */
  lemma HitBoundsFirstHit<T>(table: seq<(T, seq<string>)>, text: string, k: nat, kw: nat)
    requires k < |table| && kw < |table[k].1| && ContainsWord(text, table[k].1[kw])
    ensures FirstHit(table, text) <= k
  {
  }

  // ----- estimate_remaining_quality -----

  /** The share of the building's value that remains: the fraction of the first tier
      with a keyword hit, `default` (`DEFAULT_QUALITY`) when none has one. */
  function RemainingQuality(text: string, levels: seq<(real, seq<string>)>, default: real): real {
    var i := FirstHit(levels, text);
    if i < |levels| then levels[i].0 else default
  }

  /** The quality over the table with the comma restored: the evidently intended
      partner of `QualityAsWritten`. */
  function Quality(text: string, default: real): real {
    RemainingQuality(text, QualityLevels, default)
  }

  /** The quality over `QUALITY_LEVELS` exactly as written, which
      `estimate_remaining_quality` computes. */
  function QualityAsWritten(text: string, default: real): real {
    RemainingQuality(text, QualityLevelsAsWritten, default)
  }

  /** `estimate_remaining_quality`: the nested scan over the tiers of `QUALITY_LEVELS`
      as written and their keywords. */
  method EstimateRemainingQuality(row: Row, default: real) returns (quality: real)
    ensures quality == QualityAsWritten(ListingText(row), default)
  {
    var text := ListingText(row);
    var t := ScanHits(QualityLevelsAsWritten, text);
    if t < |QualityLevelsAsWritten| {
      return QualityLevelsAsWritten[t].0;
    }
    return default;
  }

  /** The quality is always one of the four tier fractions or the default, so it lies in
      [0, 1] when the default does; the same holds with the comma restored. */
  lemma QualityIsATier(text: string, default: real)
    ensures QualityAsWritten(text, default) in {0.0, 0.5, 0.85, 1.0, default}
    ensures 0.0 <= default <= 1.0 ==> 0.0 <= QualityAsWritten(text, default) <= 1.0
    ensures Quality(text, default) in {0.0, 0.5, 0.85, 1.0, default}
    ensures 0.0 <= default <= 1.0 ==> 0.0 <= Quality(text, default) <= 1.0
  {
    QualityTiersOrdered();
    MissingCommaJoinsKeywords();
    assert QualityLevelsAsWritten[0].0 == 0.0;
  }

  /** A land sale scores 0.0 even when the text also says the house is newly built, in
      the table as written and with the comma restored. */
  lemma LandSaleOutranksNewBuild(text: string, default: real)
    requires ContainsWord(text, "bán đất") || ContainsWord(text, "đất nền")
    ensures QualityAsWritten(text, default) == 0.0
    ensures Quality(text, default) == 0.0
  {
    if ContainsWord(text, "bán đất") {
      HitBoundsFirstHit(QualityLevelsAsWritten, text, 0, 11);
      HitBoundsFirstHit(QualityLevels, text, 0, 12);
    } else {
      HitBoundsFirstHit(QualityLevelsAsWritten, text, 0, 3);
      HitBoundsFirstHit(QualityLevels, text, 0, 3);
    }
  }

  /** With the comma restored, a listing that says its house is worthless ("có nhà nhưng
      không đáng giá") scores 0.0, whatever else the text says. */
  lemma OrphanPhraseScoresZero(text: string, default: real)
    requires ContainsWord(text, Orphan)
    ensures Quality(text, default) == 0.0
  {
    HitBoundsFirstHit(QualityLevels, text, 0, 7);
  }

  /** A character of `kw` outside the alphabet of `s` rules out every occurrence of `kw`. */
  lemma ForeignCharMisses(s: string, chars: set<char>, kw: string, j: nat)
    requires forall i | 0 <= i < |s| :: s[i] in chars
    requires j < |kw| && kw[j] !in chars
    ensures !ContainsWord(s, kw)
  {
  }

  /** The missing comma of `QUALITY_LEVELS`: the phrase "có nhà nhưng không đáng giá" on
      its own hits no tier of the table as written and gets the default, while with the
      comma restored it is a no-value keyword and scores 0.0. */
  lemma OrphanPhraseIgnoredAsWritten(default: real)
    ensures QualityAsWritten(Orphan, default) == default
    ensures Quality(Orphan, default) == 0.0
  {
    OrphanMissesLandTier();
    OrphanMissesHalfTier();
    OrphanMissesGoodTier();
    OrphanMissesNewTier();
    assert FirstHit(QualityLevelsAsWritten, Orphan) == 4;
    assert WordOccursAt(Orphan, Orphan, 0);
    HitBoundsFirstHit(QualityLevels, Orphan, 0, 7);
  }

  // ----- extract_land_shape -----

  /** The shape of the first `SHAPE_KEYWORDS` entry with a hit, the rectangle when none
      has one. */
  function LandShape(text: string): string {
    var i := FirstHit(ShapeKeywords, text);
    if i < |ShapeKeywords| then ShapeKeywords[i].0 else RectangleShape
  }

  /** `extract_land_shape`. */
  method ExtractLandShape(row: Row) returns (shape: string)
    ensures shape == LandShape(ListingText(row))
  {
    var text := ListingText(row);
    var s := ScanHits(ShapeKeywords, text);
    if s < |ShapeKeywords| {
      return ShapeKeywords[s].0;
    }
    return RectangleShape;
  }

  /** A keyword of any specific shape beats the rectangle keywords, and the rectangle is
      also the answer when nothing hits. */
  lemma SpecificShapeBeatsRectangle(text: string, k: nat, kw: nat)
    requires k < |ShapeKeywords| - 1 && kw < |ShapeKeywords[k].1|
    requires ContainsWord(text, ShapeKeywords[k].1[kw])
    ensures LandShape(text) != RectangleShape
  {
    HitBoundsFirstHit(ShapeKeywords, text, k, kw);
    RectangleIsLast();
  }

  /** Each keyword of the narrow and wide L shapes is the 'Chữ L' keyword at the same
      position followed by a space. */
  lemma ExtendsLKeyword(i: nat, k: nat)
    requires (i == 4 || i == 5) && k < |ShapeKeywords[i].1|
    ensures k < |ShapeKeywords[3].1|
    ensures var short, kw := ShapeKeywords[3].1[k], ShapeKeywords[i].1[k];
      |short| > 0 && IsWordChar(short[|short| - 1]) &&
      |kw| > |short| && kw[..|short|] == short && !IsWordChar(kw[|short|])
  {
  }

  /** 'Chữ L' comes first, and every keyword of the narrow and wide L shapes extends a
      keyword of 'Chữ L' by a space; so those two shapes are never the answer. */
  lemma NarrowAndWideLNeverReturned(text: string)
    ensures LandShape(text) != "Chữ L hẹp ngang"
    ensures LandShape(text) != "Chữ L rộng ngang"
  {
    var i := FirstHit(ShapeKeywords, text);
    if i == 4 || i == 5 {
      var k :| 0 <= k < |ShapeKeywords[i].1| && ContainsWord(text, ShapeKeywords[i].1[k]);
      ExtendsLKeyword(i, k);
      WordHitOfExtension(text, ShapeKeywords[3].1[k], ShapeKeywords[i].1[k]);
      assert false;
    }
  }

  // ----- extract_facade_count -----

  /** The index of the first `FACADE_COUNT_MAP` pattern found in `text`, or the table's
      length. */
  function FirstPattern(table: seq<(Regex, int)>, text: string): (i: nat)
    ensures i <= |table|
    ensures forall j | 0 <= j < i :: !Search(table[j].0, text)
    ensures i < |table| ==> Search(table[i].0, text)
  {
    if |table| == 0 || Search(table[0].0, text) then 0
    else
      var i := FirstPattern(table[1..], text);
      assert forall j | 1 <= j < 1 + i :: table[j] == table[1..][j - 1];
      1 + i
  }

  /** The loop `for pattern, val in table: if re.search(pattern, text)`: the index of
      the first pattern found. */
  method ScanPatterns(table: seq<(Regex, int)>, text: string) returns (i: nat)
    ensures i == FirstPattern(table, text)
  {
    i := 0;
    while i < |table|
      invariant 0 <= i <= |table|
      invariant forall j | 0 <= j < i :: !Search(table[j].0, text)
    {
      if Search(table[i].0, text) {
        FirstPatternAt(table, text, i);
        return;
      }
      i := i + 1;
    }
    FirstPatternAt(table, text, i);
  }

  /** The first pattern found, by a scan that found none before it. */
  lemma FirstPatternAt(table: seq<(Regex, int)>, text: string, i: nat)
    requires i <= |table|
    requires forall j | 0 <= j < i :: !Search(table[j].0, text)
    requires i < |table| ==> Search(table[i].0, text)
    ensures FirstPattern(table, text) == i
  {
  }

  /** The count from the text: the first matching pattern's, one when none matches. */
  function TextFacadeCount(text: string): int {
    var i := FirstPattern(FacadeCountMap, text);
    if i < |FacadeCountMap| then FacadeCountMap[i].1 else 1
  }

  const FacadeCountTitle := "Số mặt tiền"

  /** `extract_facade_count`: a digit in the `other_info` entry wins; otherwise the
      table decides. */
  function FacadeCount(row: Row): int {
    var panel := OtherValue(row, FacadeCountTitle);
    if panel.Some? && |panel.value| > 0 && HasDigit(panel.value) then FirstInteger(panel.value).value
    else TextFacadeCount(ListingText(row))
  }

  /** `extract_facade_count`, with its scan over `FACADE_COUNT_MAP`. */
  method ExtractFacadeCount(row: Row) returns (count: int)
    ensures count == FacadeCount(row)
  {
    var panel := OtherValue(row, FacadeCountTitle);
    if panel.Some? && |panel.value| > 0 {
      var n := FirstInteger(panel.value);
      if n.Some? {
        return n.value;
      }
    }
    var text := ListingText(row);
    var p := ScanPatterns(FacadeCountMap, text);
    if p < |FacadeCountMap| {
      return FacadeCountMap[p].1;
    }
    return 1;
  }

  /** Without a panel digit the count is 1, 2 or 3, and a pattern found in the text
      gives at least its own count: more facades always win. */
  lemma TextFacadeCountBounds(text: string, k: nat)
    requires k < |FacadeCountMap| && Search(FacadeCountMap[k].0, text)
    ensures FacadeCountMap[k].1 <= TextFacadeCount(text) <= 3
  {
    FacadeCountsOrdered();
  }

  /** Any count the text yields is 1, 2 or 3. */
  lemma TextFacadeCountInRange(text: string)
    ensures 1 <= TextFacadeCount(text) <= 3
  {
    FacadeCountsOrdered();
  }

  /** A digit in the panel entry decides whatever the text says; without one the count
      is 1, 2 or 3. */
  lemma PanelFacadeCountWins(row: Row)
    ensures var panel := OtherValue(row, FacadeCountTitle);
      panel.Some? && HasDigit(panel.value) ==>
        FacadeCount(row) == FirstInteger(panel.value).value && FacadeCount(row) >= 0
    ensures var panel := OtherValue(row, FacadeCountTitle);
      !(panel.Some? && HasDigit(panel.value)) ==> 1 <= FacadeCount(row) <= 3
  {
    TextFacadeCountInRange(ListingText(row));
  }

  // ----- extract_direct_features -----

  predicate IsSentenceBreak(c: char) { c == '.' || c == '\n' || c == '!' || c == '?' }

  predicate NotBreak(c: char) { !IsSentenceBreak(c) }

  /** `filter(None, re.split(r"[.\n!?]+", s))`: the maximal runs without a sentence
      break, in order. */
  function Sentences(s: string): seq<string>
    decreases |s|
  {
    var i := FirstWhere(s, NotBreak);
    if i == |s| then []
    else
      var rest := s[i..];
      var n := RunLength(rest, NotBreak);
      [rest[..n]] + Sentences(rest[n..])
  }

  /** A sentence: non-empty, without a break character. */
  predicate IsSentence(w: string) {
    |w| > 0 && forall j | 0 <= j < |w| :: NotBreak(w[j])
  }

  lemma {:induction false} SentencesAreUnbroken(s: string)
    ensures forall k | 0 <= k < |Sentences(s)| :: IsSentence(Sentences(s)[k])
    decreases |s|
  {
    var i := FirstWhere(s, NotBreak);
    if i < |s| {
      var rest := s[i..];
      var n := RunLength(rest, NotBreak);
      assert rest[0] == s[i];
      var w := rest[..n];
      assert forall j | 0 <= j < |w| :: w[j] == rest[j];
      SentencesAreUnbroken(rest[n..]);
      var tail := Sentences(rest[n..]);
      forall k | 0 <= k < |Sentences(s)| ensures IsSentence(Sentences(s)[k]) {
        if k > 0 {
          assert Sentences(s)[k] == tail[k - 1];
        }
      }
    }
  }

  /** The sentence has a whole-word hit of some feature keyword. */
  predicate MentionsFeature(sentence: string, keywords: seq<string>) {
    exists k | 0 <= k < |keywords| :: ContainsWord(sentence, keywords[k])
  }

  /** The stripped sentences that mention a feature. */
  function FeatureSentences(sentences: seq<string>, keywords: seq<string>): set<string> {
    set k | 0 <= k < |sentences| && MentionsFeature(sentences[k], keywords) :: Strip(sentences[k])
  }

  /** `f"{title}. {description}".lower()`. */
  function FeatureText(row: Row): string {
    Lower(row.title + ". " + row.description)
  }

  lemma FeatureSentencesAppend(sentences: seq<string>, s: string, keywords: seq<string>)
    ensures FeatureSentences(sentences + [s], keywords) ==
      FeatureSentences(sentences, keywords) + (if MentionsFeature(s, keywords) then {Strip(s)} else {})
  {
    var all := sentences + [s];
    forall x | x in FeatureSentences(all, keywords)
      ensures x in FeatureSentences(sentences, keywords) + (if MentionsFeature(s, keywords) then {Strip(s)} else {})
    {
      var k :| 0 <= k < |all| && MentionsFeature(all[k], keywords) && Strip(all[k]) == x;
      if k < |sentences| {
        assert all[k] == sentences[k];
      }
    }
    forall x | x in FeatureSentences(sentences, keywords)
      ensures x in FeatureSentences(all, keywords)
    {
      var k :| 0 <= k < |sentences| && MentionsFeature(sentences[k], keywords) && Strip(sentences[k]) == x;
      assert all[k] == sentences[k];
    }
    if MentionsFeature(s, keywords) {
      assert all[|sentences|] == s;
    }
  }

  /** The inner loop of `extract_direct_features`: does some keyword hit the sentence?
      The source breaks out of it at the first hit. */
  method MentionsAnyFeature(sentence: string, keywords: seq<string>) returns (hit: bool)
    ensures hit == MentionsFeature(sentence, keywords)
  {
    var k := 0;
    while k < |keywords|
      invariant 0 <= k <= |keywords|
      invariant forall m | 0 <= m < k :: !ContainsWord(sentence, keywords[m])
    {
      if ContainsWord(sentence, keywords[k]) {
        return true;
      }
      k := k + 1;
    }
    return false;
  }

  /** `extract_direct_features`, with `keywords` standing for `FEATURE_KEYWORDS`; the
      list it builds from a set is returned as the set. */
  method ExtractDirectFeatures(row: Row, keywords: seq<string>) returns (found: set<string>)
    ensures found == FeatureSentences(Sentences(FeatureText(row)), keywords)
  {
    var sentences := Sentences(FeatureText(row));
    found := CollectFeatures(sentences, keywords);
  }

  /** The loop of `extract_direct_features` over the sentences: each one that names a
      feature is added, stripped. */
  method CollectFeatures(sentences: seq<string>, keywords: seq<string>) returns (found: set<string>)
    ensures found == FeatureSentences(sentences, keywords)
  {
    found := {};
    var i := 0;
    while i < |sentences|
      invariant 0 <= i <= |sentences|
      invariant found == FeatureSentences(sentences[..i], keywords)
    {
      var sentence := sentences[i];
      var hit := MentionsAnyFeature(sentence, keywords);
      if hit {
        found := found + {Strip(sentence)};
      }
      assert sentences[..i + 1] == sentences[..i] + [sentence];
      FeatureSentencesAppend(sentences[..i], sentence, keywords);
      i := i + 1;
    }
    assert sentences[..|sentences|] == sentences;
  }

  /** Every feature is a stripped sentence: it holds no '.', '\n', '!' or '?'. */
  lemma FeaturesHaveNoBreaks(text: string, keywords: seq<string>, x: string, c: char)
    requires x in FeatureSentences(Sentences(text), keywords) && IsSentenceBreak(c)
    ensures c !in x
  {
    var sentences := Sentences(text);
    SentencesAreUnbroken(text);
    var k :| 0 <= k < |sentences| && MentionsFeature(sentences[k], keywords) && Strip(sentences[k]) == x;
    assert IsSentence(sentences[k]);
    StripKeepsAbsent(sentences[k], c);
  }

  /** A sentence that names a feature is reported. */
  lemma FeatureSentenceReported(text: string, keywords: seq<string>, k: nat, kw: nat)
    requires k < |Sentences(text)| && kw < |keywords| && ContainsWord(Sentences(text)[k], keywords[kw])
    ensures Strip(Sentences(text)[k]) in FeatureSentences(Sentences(text), keywords)
  {
  }

  // ----- the as-written quality table misses the orphaned phrase -----

  /** The characters of the orphaned phrase. */
  const OrphanChars: set<char> := {' ', 'c', 'g', 'h', 'i', 'k', 'n', 'à', 'á', 'ó', 'ô', 'đ', 'ư'}

  lemma OrphanAlphabet()
    ensures forall i | 0 <= i < |Orphan| :: Orphan[i] in OrphanChars
  {
    forall i | 0 <= i < |Orphan| ensures Orphan[i] in OrphanChars {
      if i == 0 { assert Orphan[0] == 'c'; }
      else if i == 1 { assert Orphan[1] == 'ó'; }
      else if i == 2 { assert Orphan[2] == ' '; }
      else if i == 3 { assert Orphan[3] == 'n'; }
      else if i == 4 { assert Orphan[4] == 'h'; }
      else if i == 5 { assert Orphan[5] == 'à'; }
      else if i == 6 { assert Orphan[6] == ' '; }
      else if i == 7 { assert Orphan[7] == 'n'; }
      else if i == 8 { assert Orphan[8] == 'h'; }
      else if i == 9 { assert Orphan[9] == 'ư'; }
      else if i == 10 { assert Orphan[10] == 'n'; }
      else if i == 11 { assert Orphan[11] == 'g'; }
      else if i == 12 { assert Orphan[12] == ' '; }
      else if i == 13 { assert Orphan[13] == 'k'; }
      else if i == 14 { assert Orphan[14] == 'h'; }
      else if i == 15 { assert Orphan[15] == 'ô'; }
      else if i == 16 { assert Orphan[16] == 'n'; }
      else if i == 17 { assert Orphan[17] == 'g'; }
      else if i == 18 { assert Orphan[18] == ' '; }
      else if i == 19 { assert Orphan[19] == 'đ'; }
      else if i == 20 { assert Orphan[20] == 'á'; }
      else if i == 21 { assert Orphan[21] == 'n'; }
      else if i == 22 { assert Orphan[22] == 'g'; }
      else if i == 23 { assert Orphan[23] == ' '; }
      else if i == 24 { assert Orphan[24] == 'g'; }
      else if i == 25 { assert Orphan[25] == 'i'; }
      else { assert Orphan[26] == 'á'; }
    }
  }

  lemma OrphanMissesLandTier()
    ensures forall k | 0 <= k < |QualityLevelsAsWritten[0].1| :: !ContainsWord(Orphan, QualityLevelsAsWritten[0].1[k])
  {
    OrphanAlphabet();
    var kws := QualityLevelsAsWritten[0].1;
    forall k | 0 <= k < |kws| ensures !ContainsWord(Orphan, kws[k]) {
      if k == 0 { ForeignCharMisses(Orphan, OrphanChars, kws[0], 0); }
      else if k == 1 { ForeignCharMisses(Orphan, OrphanChars, kws[1], 0); }
      else if k == 2 { ForeignCharMisses(Orphan, OrphanChars, kws[2], 2); }
      else if k == 3 { ForeignCharMisses(Orphan, OrphanChars, kws[3], 1); }
      else if k == 4 { ForeignCharMisses(Orphan, OrphanChars, kws[4], 4); }
      else if k == 5 { ForeignCharMisses(Orphan, OrphanChars, kws[5], 2); }
      else if k == 6 { ForeignCharMisses(Orphan, OrphanChars, kws[6], 0); }
      else if k == 7 { ForeignCharMisses(Orphan, OrphanChars, kws[7], 6); }
      else if k == 8 { ForeignCharMisses(Orphan, OrphanChars, kws[8], 5); }
      else if k == 9 { ForeignCharMisses(Orphan, OrphanChars, kws[9], 4); }
      else if k == 10 { ForeignCharMisses(Orphan, OrphanChars, kws[10], 4); }
      else { ForeignCharMisses(Orphan, OrphanChars, kws[11], 0); }
    }
  }

  lemma OrphanMissesHalfTier()
    ensures forall k | 0 <= k < |QualityHalf| :: !ContainsWord(Orphan, QualityHalf[k])
  {
    OrphanAlphabet();
    var kws := QualityHalf;
    forall k | 0 <= k < |kws| ensures !ContainsWord(Orphan, kws[k]) {
      if k == 0 { ForeignCharMisses(Orphan, OrphanChars, kws[0], 5); }
      else if k == 1 { ForeignCharMisses(Orphan, OrphanChars, kws[1], 6); }
      else if k == 2 { ForeignCharMisses(Orphan, OrphanChars, kws[2], 1); }
      else if k == 3 { ForeignCharMisses(Orphan, OrphanChars, kws[3], 0); }
      else if k == 4 { ForeignCharMisses(Orphan, OrphanChars, kws[4], 0); }
      else if k == 5 { ForeignCharMisses(Orphan, OrphanChars, kws[5], 0); }
      else if k == 6 { ForeignCharMisses(Orphan, OrphanChars, kws[6], 1); }
      else if k == 7 { ForeignCharMisses(Orphan, OrphanChars, kws[7], 1); }
      else if k == 8 { ForeignCharMisses(Orphan, OrphanChars, kws[8], 3); }
      else if k == 9 { ForeignCharMisses(Orphan, OrphanChars, kws[9], 1); }
      else if k == 10 { ForeignCharMisses(Orphan, OrphanChars, kws[10], 1); }
      else if k == 11 { ForeignCharMisses(Orphan, OrphanChars, kws[11], 0); }
      else if k == 12 { ForeignCharMisses(Orphan, OrphanChars, kws[12], 1); }
      else { ForeignCharMisses(Orphan, OrphanChars, kws[13], 13); }
    }
  }

  lemma OrphanMissesGoodTier()
    ensures forall k | 0 <= k < |QualityGood| :: !ContainsWord(Orphan, QualityGood[k])
  {
    OrphanAlphabet();
    var kws := QualityGood;
    forall k | 0 <= k < |kws| ensures !ContainsWord(Orphan, kws[k]) {
      if k == 0 { ForeignCharMisses(Orphan, OrphanChars, kws[0], 5); }
      else if k == 1 { ForeignCharMisses(Orphan, OrphanChars, kws[1], 1); }
      else if k == 2 { ForeignCharMisses(Orphan, OrphanChars, kws[2], 2); }
      else if k == 3 { ForeignCharMisses(Orphan, OrphanChars, kws[3], 0); }
      else if k == 4 { ForeignCharMisses(Orphan, OrphanChars, kws[4], 0); }
      else if k == 5 { ForeignCharMisses(Orphan, OrphanChars, kws[5], 4); }
      else if k == 6 { ForeignCharMisses(Orphan, OrphanChars, kws[6], 0); }
      else if k == 7 { ForeignCharMisses(Orphan, OrphanChars, kws[7], 5); }
      else if k == 8 { ForeignCharMisses(Orphan, OrphanChars, kws[8], 1); }
      else if k == 9 { ForeignCharMisses(Orphan, OrphanChars, kws[9], 7); }
      else if k == 10 { ForeignCharMisses(Orphan, OrphanChars, kws[10], 1); }
      else if k == 11 { ForeignCharMisses(Orphan, OrphanChars, kws[11], 0); }
      else if k == 12 { ForeignCharMisses(Orphan, OrphanChars, kws[12], 1); }
      else if k == 13 { ForeignCharMisses(Orphan, OrphanChars, kws[13], 0); }
      else if k == 14 { ForeignCharMisses(Orphan, OrphanChars, kws[14], 10); }
      else if k == 15 { ForeignCharMisses(Orphan, OrphanChars, kws[15], 1); }
      else { ForeignCharMisses(Orphan, OrphanChars, kws[16], 6); }
    }
  }

  lemma OrphanMissesNewTier()
    ensures forall k | 0 <= k < |QualityNew| :: !ContainsWord(Orphan, QualityNew[k])
  {
    OrphanAlphabet();
    var kws := QualityNew;
    forall k | 0 <= k < |kws| ensures !ContainsWord(Orphan, kws[k]) {
      if k == 0 { ForeignCharMisses(Orphan, OrphanChars, kws[0], 0); }
      else if k == 1 { ForeignCharMisses(Orphan, OrphanChars, kws[1], 0); }
      else if k == 2 { ForeignCharMisses(Orphan, OrphanChars, kws[2], 0); }
      else if k == 3 { ForeignCharMisses(Orphan, OrphanChars, kws[3], 4); }
      else if k == 4 { ForeignCharMisses(Orphan, OrphanChars, kws[4], 0); }
      else if k == 5 { ForeignCharMisses(Orphan, OrphanChars, kws[5], 0); }
      else if k == 6 { ForeignCharMisses(Orphan, OrphanChars, kws[6], 0); }
      else if k == 7 { ForeignCharMisses(Orphan, OrphanChars, kws[7], 4); }
      else if k == 8 { ForeignCharMisses(Orphan, OrphanChars, kws[8], 3); }
      else if k == 9 { ForeignCharMisses(Orphan, OrphanChars, kws[9], 4); }
      else if k == 10 { ForeignCharMisses(Orphan, OrphanChars, kws[10], 4); }
      else if k == 11 { ForeignCharMisses(Orphan, OrphanChars, kws[11], 4); }
      else if k == 12 { ForeignCharMisses(Orphan, OrphanChars, kws[12], 0); }
      else if k == 13 { ForeignCharMisses(Orphan, OrphanChars, kws[13], 1); }
      else if k == 14 { ForeignCharMisses(Orphan, OrphanChars, kws[14], 0); }
      else if k == 15 { ForeignCharMisses(Orphan, OrphanChars, kws[15], 4); }
      else { ForeignCharMisses(Orphan, OrphanChars, kws[16], 1); }
    }
  }

}

=== FILE: config.dfy ===
/** The static keyword tables of `src/config.py` that the classifiers scan in order:
    the facade-count patterns, the land-shape keywords, the remaining-quality tiers
    and the alley-width phrases. Python dictionaries keep insertion order, so the
    ordered tables are sequences of pairs. */
module Config {
  import opened Text
  import opened Pattern

  /** `\b w1\s+w2\s+…\b`. */
  function WordPhrase(ws: seq<string>): Regex
    requires |ws| > 0
  {
    Cat(WordBoundary, Cat(Phrase(ws), WordBoundary))
  }

  // ----- FACADE_COUNT_MAP -----

  /** `FACADE_COUNT_MAP`: (pattern, number of facades), scanned in order. */
  const FacadeCountMap: seq<(Regex, int)> := [
    (WordPhrase(["3", "mặt", "tiền"]), 3),
    (WordPhrase(["ba", "mặt", "tiền"]), 3),
    (WordPhrase(["lô", "góc", "3", "mặt"]), 3),
    (WordPhrase(["3", "mặt", "thoáng"]), 3),
    (WordPhrase(["lô", "góc", "2", "mặt", "tiền"]), 2),
    (WordPhrase(["2", "mặt", "tiền"]), 2),
    (WordPhrase(["hai", "mặt", "tiền"]), 2),
    (WordPhrase(["lô", "góc"]), 2),
    (WordPhrase(["căn", "góc"]), 2),
    (WordPhrase(["2", "mặt", "thoáng"]), 2),
    (WordPhrase(["1", "mặt", "tiền"]), 1),
    (WordPhrase(["một", "mặt", "tiền"]), 1)
  ]

  /** Every facade count is 1, 2 or 3, and the table lists the three-facade patterns
      first, then the two-facade ones, then the explicit single facade. */
  lemma FacadeCountsOrdered()
    ensures forall k | 0 <= k < |FacadeCountMap| :: 1 <= FacadeCountMap[k].1 <= 3
    ensures forall i, j | 0 <= i < j < |FacadeCountMap| :: FacadeCountMap[i].1 >= FacadeCountMap[j].1
  {
  }

  // ----- SHAPE_KEYWORDS -----

  const RectangleShape := "Chữ nhật"

  /** `SHAPE_KEYWORDS`: (shape, keywords), scanned in order. */
  const ShapeKeywords: seq<(string, seq<string>)> := [
    ("Nở hậu", ["nở hậu", "hậu nở", "đuôi nở", "phía sau nở"]),
    ("Thóp hậu", ["thóp hậu", "tóp hậu", "hậu tóp", "đuôi tóp"]),
    ("Chữ nhật vát góc", ["vát góc", "cắt góc", "bo góc", "xéo góc"]),
    ("Chữ L", ["chữ l", "hình l"]),
    ("Chữ L hẹp ngang", ["chữ l hẹp", "hình l hẹp"]),
    ("Chữ L rộng ngang", ["chữ l rộng", "hình l rộng"]),
    ("Chữ T", ["chữ t", "hình t", "thông ngang"]),
    ("Chữ U", ["chữ u", "hình u", "móng ngựa"]),
    ("Tam giác", ["tam giác"]),
    ("Hình quạt", ["hình quạt", "nan quạt", "xòe quạt"]),
    ("Đa giác từ 5 cạnh, méo mó", ["méo mó", "méo", "móp méo"]),
    ("Phức tạp, nhiều góc nhọn/tù", ["nhiều góc nhọn", "hình dáng phức tạp"]),
    (RectangleShape, ["vuông vức", "vuông vắn", "vuông đẹp", "vuông như", "hình chữ nhật", "đều chằn chặn"])
  ]

  /** The rectangle is the last entry and the only one of that name, so every other
      shape is tried before it. */
  lemma RectangleIsLast()
    ensures |ShapeKeywords| == 13
    ensures ShapeKeywords[|ShapeKeywords| - 1].0 == RectangleShape
    ensures forall k | 0 <= k < |ShapeKeywords| - 1 :: ShapeKeywords[k].0 != RectangleShape
  {
  }

  // ----- QUALITY_LEVELS -----

  /** `QUALITY_LEVELS` exactly as written: lines 113-114 have no comma between
      'tặng nhà' and 'có nhà nhưng không đáng giá', so Python joins the two literals
      into one keyword. */
  const QualityLevelsAsWritten: seq<(real, seq<string>)> := [
    (0.0, ["tặng nhà", "bán đất tặng nhà", "chỉ tính tiền đất",
           "đất nền", "nhà tạm", "chủ yếu lấy đất", "tặng nhàcó nhà nhưng không đáng giá",
           "không tính giá trị nhà", "nhà cấp 4 cũ", "nhà xuống cấp", "giá trị đất là chính",
           "bán đất"]),
    (0.5, QualityHalf),
    (0.85, QualityGood),
    (1.0, QualityNew)
  ]

  /** `QUALITY_LEVELS` with the comma restored: 'có nhà nhưng không đáng giá' is a
      keyword of its own. It is the corrected partner of the table as written. */
  const QualityLevels: seq<(real, seq<string>)> := [
    (0.0, ["tặng nhà", "bán đất tặng nhà", "chỉ tính tiền đất",
           "đất nền", "nhà tạm", "chủ yếu lấy đất", "tặng nhà",
           "có nhà nhưng không đáng giá", "không tính giá trị nhà",
           "nhà cấp 4 cũ", "nhà xuống cấp", "giá trị đất là chính",
           "bán đất"]),
    (0.5, QualityHalf),
    (0.85, QualityGood),
    (1.0, QualityNew)
  ]

  const QualityHalf: seq<string> := [
    "nhà cũ", "nhà nát", "cần sửa chữa", "tiện xây mới",
    "xây lâu năm", "xuống cấp", "cũ nhưng ở tạm được",
    "cũ kỹ", "nhiều năm chưa sửa", "cần cải tạo",
    "nền móng yếu", "sắp sập", "cần xây lại",
    "không có giá trị sử dụng"
  ]

  const QualityGood: seq<string> := [
    "nhà đẹp", "còn mới", "giữ gìn", "full nội thất", "thiết kế hiện đại",
    "nhà sạch sẽ", "ở ngay", "nhà gọn gàng", "nội thất cao cấp",
    "không cần sửa", "đẹp như hình", "vào ở liền",
    "nội thất đầy đủ", "tiện nghi", "nhà không lỗi phong thủy",
    "còn bảo hành", "nhà chất lượng tốt"
  ]

  const QualityNew: seq<string> := [
    "mới xây", "mới hoàn thiện", "mới 100%", "nhà mới keng",
    "vừa xây xong", "mới bàn giao", "mới nhận nhà", "nhà rất mới",
    "chưa ở lần nào", "nhà mới tinh", "nhà mới toanh",
    "nhà xây mới", "vừa hoàn thiện", "còn thơm mùi sơn",
    "mới hoàn công", "nhà xây kiên cố", "đảm bảo kết cấu mới"
  ]

  /** The four tiers, from no structural value to brand new, all fractions in [0, 1]. */
  lemma QualityTiersOrdered()
    ensures |QualityLevels| == 4
    ensures QualityLevels[0].0 == 0.0 && QualityLevels[1].0 == 0.5
    ensures QualityLevels[2].0 == 0.85 && QualityLevels[3].0 == 1.0
    ensures forall i, j | 0 <= i < j < |QualityLevels| :: QualityLevels[i].0 < QualityLevels[j].0
    ensures forall k | 0 <= k < |QualityLevels| :: 0.0 <= QualityLevels[k].0 <= 1.0
  {
  }

  const Orphan := "có nhà nhưng không đáng giá"

  /** The missing comma: as written, 'có nhà nhưng không đáng giá' is a keyword of no
      tier and only the joined literal is; with the comma it is a tier-0.0 keyword. The
      two tables differ in that tier alone. */
  lemma MissingCommaJoinsKeywords()
    ensures "tặng nhàcó nhà nhưng không đáng giá" in QualityLevelsAsWritten[0].1
    ensures forall k | 0 <= k < |QualityLevelsAsWritten| :: Orphan !in QualityLevelsAsWritten[k].1
    ensures Orphan in QualityLevels[0].1
    ensures |QualityLevels| == |QualityLevelsAsWritten|
    ensures forall k | 1 <= k < |QualityLevels| :: QualityLevels[k] == QualityLevelsAsWritten[k]
  {
    assert QualityLevelsAsWritten[0].1[6] == "tặng nhàcó nhà nhưng không đáng giá";
    assert QualityLevels[0].1[7] == Orphan;
    forall k | 0 <= k < |QualityLevelsAsWritten| ensures Orphan !in QualityLevelsAsWritten[k].1 {
      OrphanInNoTier(k);
    }
  }

  lemma OrphanInNoTier(k: nat)
    requires k < |QualityLevelsAsWritten|
    ensures Orphan !in QualityLevelsAsWritten[k].1
  {
    if k == 0 {
      OrphanNotAmong(QualityLevelsAsWritten[0].1);
    } else if k == 1 {
      OrphanNotAmong(QualityHalf);
    } else if k == 2 {
      OrphanNotAmong(QualityGood);
    } else {
      OrphanNotAmong(QualityNew);
    }
  }

  /** A keyword list without the orphan phrase: every entry differs from it in length
      or in its first two characters. */
  lemma OrphanNotAmong(ws: seq<string>)
    requires forall i | 0 <= i < |ws| :: |ws[i]| != |Orphan| || ws[i][..2] != Orphan[..2]
    ensures Orphan !in ws
  {
  }

  // ----- ALLEY_WIDTH -----

  /** `ALLEY_WIDTH`: the usual width, in metres, of an alley described by a vehicle phrase. */
  const AlleyWidth: map<string, real> := map[
    "ngõ xe máy" := 1.5, "hẻm xe máy" := 1.5, "ngách xe máy" := 1.5,
    "ngõ ba gác" := 1.5, "hẻm ba gác" := 1.5,
    "xe máy tránh" := 2.5, "ba gác tránh" := 2.5, "3 gác tránh" := 2.5,
    "ngõ ô tô" := 3.0, "hẻm ô tô" := 3.0,
    "ô tô tránh" := 5.0,
    "hẻm xe tải" := 7.5, "ngõ xe tải" := 7.5,
    "xe tải tránh nhau" := 10.0
  ]

  /** Every alley width lies strictly between 0 and the 15-metre plausibility bound. */
  lemma AlleyWidthsPlausible()
    ensures forall p | p in AlleyWidth :: 0.0 < AlleyWidth[p] < 15.0
  {
  }
}

=== FILE: features.dfy ===
/** `FeatureEngineer`: the valuation features derived from a cleaned record. A missing
    cell (pandas NaN or `None`) is `None`. */
module Features {
  import opened Wrappers
  import opened Text
  import opened Numbers

  // ----- get_location_category -----

  /** The position categories VT1 (on the main road) to VT4 (narrowest alleys). */
  datatype Position = VT1 | VT2 | VT3 | VT4

  /** How good a position is: VT1 highest. */
  function PositionRank(p: Position): nat {
    match p
    case VT1 => 3
    case VT2 => 2
    case VT3 => 1
    case VT4 => 0
  }

  /** `get_location_category` from the distance to the main road and the narrowest
      alley width, both in metres. */
  function LocationCategory(distance: Option<real>, alley: Option<real>): (r: Option<Position>)
    ensures r == Some(VT1) <==> distance == Some(0.0)
    ensures r.Some? && r != Some(VT1) ==> alley.Some? && (r == Some(VT2) <==> alley.value >= 3.5)
  {
    if distance.None? then None
    else if distance.value == 0.0 then Some(VT1)
    else if alley.None? then None
    else if alley.value >= 3.5 then Some(VT2)
    else if 2.0 <= alley.value < 3.5 then Some(VT3)
    else if alley.value < 2.0 then Some(VT4)
    else None
  }

  /** The category is missing exactly when the distance is, or when the listing is off
      the main road and the alley width is missing; the final `return None` is never
      reached. */
  lemma LocationCategoryDefinedness(distance: Option<real>, alley: Option<real>)
    ensures LocationCategory(distance, alley).None? <==>
      distance.None? || (distance.value != 0.0 && alley.None?)
  {
  }

  /** On the main road the alley does not matter; off it, the category follows the alley
      width through the thresholds 3.5 m and 2 m, and a wider alley never gives a worse
      category. */
  lemma CategoryFollowsAlley(d: real, a: real, b: real)
    requires d != 0.0 && a <= b
    ensures LocationCategory(Some(0.0), None) == Some(VT1)
    ensures PositionRank(LocationCategory(Some(d), Some(a)).value) <= PositionRank(LocationCategory(Some(d), Some(b)).value)
    ensures LocationCategory(Some(d), Some(a)) == Some(if a >= 3.5 then VT2 else if a >= 2.0 then VT3 else VT4)
  {
  }

  // ----- calculate_business_advantage -----

  /** The labels "Tốt", "Khá", "Trung bình" and "Kém". */
  datatype Advantage = Good | Fair | Average | Poor

  function Label(a: Advantage): string {
    match a
    case Good => "Tốt"
    case Fair => "Khá"
    case Average => "Trung bình"
    case Poor => "Kém"
  }

  function AdvantageRank(a: Advantage): nat {
    match a
    case Good => 3
    case Fair => 2
    case Average => 1
    case Poor => 0
  }

  /** `"quận" in district.lower()`: an urban district. */
  predicate IsUrban(district: string) {
    Contains(Lower(district), "quận")
  }

  /** The decision on the category and the district column. */
  function AdvantageOf(category: Option<Position>, district: Option<string>): Advantage {
    if category.None? || district.None? then Poor
    else
      var p := category.value;
      var urban := IsUrban(district.value);
      if (p == VT1 || p == VT2) && urban then Good
      else if p == VT1 && !urban then Fair
      else if (p == VT2 && !urban) || p == VT3 then Average
      else Poor
  }

  /** `calculate_business_advantage`. */
  function BusinessAdvantage(distance: Option<real>, alley: Option<real>, district: Option<string>): (r: Advantage)
    ensures r != Poor ==> LocationCategory(distance, alley).Some? && district.Some?
    ensures r == Good <==>
              district.Some? && IsUrban(district.value) &&
              (LocationCategory(distance, alley) == Some(VT1) || LocationCategory(distance, alley) == Some(VT2))
    ensures r == Fair <==> district.Some? && !IsUrban(district.value) && distance == Some(0.0)
  {
    AdvantageOf(LocationCategory(distance, alley), district)
  }

  /** The table of labels: VT1 Tốt / Khá, VT2 Tốt / Trung bình, VT3 Trung bình, VT4 Kém,
      urban district first. */
  lemma AdvantageTable(district: string)
    ensures AdvantageOf(Some(VT1), Some(district)) == (if IsUrban(district) then Good else Fair)
    ensures AdvantageOf(Some(VT2), Some(district)) == (if IsUrban(district) then Good else Average)
    ensures AdvantageOf(Some(VT3), Some(district)) == Average
    ensures AdvantageOf(Some(VT4), Some(district)) == Poor
  {
  }

  /** A better position never gives a worse label in the same district. */
  lemma AdvantageMonotoneInPosition(p: Position, q: Position, district: Option<string>)
    requires PositionRank(p) <= PositionRank(q)
    ensures AdvantageRank(AdvantageOf(Some(p), district)) <= AdvantageRank(AdvantageOf(Some(q), district))
  {
  }

  /** An urban district never gives a worse label than a rural one, position fixed. */
  lemma UrbanNeverWorse(category: Option<Position>, urban: string, rural: string)
    requires IsUrban(urban) && !IsUrban(rural)
    ensures AdvantageRank(AdvantageOf(category, Some(rural))) <= AdvantageRank(AdvantageOf(category, Some(urban)))
  {
  }

  /** Missing data gives "Kém". */
  lemma MissingDataIsPoor(distance: Option<real>, alley: Option<real>, district: Option<string>)
    requires LocationCategory(distance, alley).None? || district.None?
    ensures BusinessAdvantage(distance, alley, district) == Poor
  {
  }

  // ----- calculate_land_unit_price -----

  /** `calculate_land_unit_price`: (price − cost · area · floors · quality) / area, rounded
      to two decimals; none when an input is missing, the area or the floor count is not
      positive, or the building is worth at least the asking price. */
  function LandUnitPrice(price: Option<real>, cost: Option<real>, area: Option<real>,
                         floors: Option<real>, quality: Option<real>): (r: Option<real>)
    ensures r.Some? ==> price.Some? && area.Some? && area.value > 0.0
    ensures r.Some? ==>
              cost.Some? && quality.Some? &&
              (cost.value >= 0.0 && quality.value >= 0.0 ==> r.value <= Round2(price.value / area.value))
  {
    if price.None? || cost.None? || area.None? || floors.None? || quality.None? then None
    else if area.value <= 0.0 || floors.value <= 0.0 then None
    else
      var building := BuildingValue(cost.value, area.value, floors.value, quality.value);
      if building >= price.value then None
      else
        BuildingNonNegative(cost.value, area.value, floors.value, quality.value);
        NoMoreThanAskingPrice(price.value, building, area.value);
        Some(Round2((price.value - building) / area.value))
  }

  /** A building of non-negative unit cost and quality is worth a non-negative amount. */
  lemma BuildingNonNegative(cost: real, area: real, floors: real, quality: real)
    requires area > 0.0 && floors > 0.0
    ensures cost >= 0.0 && quality >= 0.0 ==> BuildingValue(cost, area, floors, quality) >= 0.0
  {
    if cost >= 0.0 && quality >= 0.0 {
      assert area * floors > 0.0;
      assert cost * (area * floors) >= 0.0;
    }
  }

  /** Subtracting a building of non-negative worth never raises the land price above
      the asking price per square metre. */
  lemma NoMoreThanAskingPrice(price: real, building: real, area: real)
    requires area > 0.0
    ensures building >= 0.0 ==> Round2((price - building) / area) <= Round2(price / area)
  {
    if building >= 0.0 {
      QuotientMonotone(price - building, price, area);
      Round2Monotone((price - building) / area, price / area);
    }
  }

  lemma QuotientMonotone(x: real, y: real, a: real)
    requires x <= y && a > 0.0
    ensures x / a <= y / a
  {
    assert y / a - x / a == (y - x) / a;
    if y - x > 0.0 {
      PositiveQuotient(y - x, a);
    }
  }

  /** The building value the formula subtracts. */
  function BuildingValue(cost: real, area: real, floors: real, quality: real): real {
    cost * (area * floors) * quality
  }

  /** The guards, in both directions: a price exactly when every input is present, the
      area and the floor count are positive and the building is worth less than the
      asking price. */
  lemma LandUnitPriceGuards(price: Option<real>, cost: Option<real>, area: Option<real>,
                            floors: Option<real>, quality: Option<real>)
    ensures LandUnitPrice(price, cost, area, floors, quality).Some? <==>
      price.Some? && cost.Some? && area.Some? && floors.Some? && quality.Some? &&
      area.value > 0.0 && floors.value > 0.0 &&
      BuildingValue(cost.value, area.value, floors.value, quality.value) < price.value
  {
  }

  /** Dividing a positive amount by a positive area gives a positive amount. */
  lemma PositiveQuotient(x: real, a: real)
    requires x > 0.0 && a > 0.0
    ensures x / a > 0.0
  {
    assert (x / a) * a == x;
  }

  /** The unrounded land price per square metre is positive whenever there is one, and so
      the rounded one is not negative. */
  lemma LandUnitPricePositive(price: real, cost: real, area: real, floors: real, quality: real)
    requires LandUnitPrice(Some(price), Some(cost), Some(area), Some(floors), Some(quality)).Some?
    ensures (price - BuildingValue(cost, area, floors, quality)) / area > 0.0
    ensures LandUnitPrice(Some(price), Some(cost), Some(area), Some(floors), Some(quality)).value >= 0.0
  {
    PositiveQuotient(price - BuildingValue(cost, area, floors, quality), area);
  }

  /** Without a building worth counting (quality 0), the land price is the asking price per
      square metre. */
  lemma WornOutBuildingIsIgnored(price: real, cost: real, area: real, floors: real)
    requires price > 0.0 && area > 0.0 && floors > 0.0
    ensures LandUnitPrice(Some(price), Some(cost), Some(area), Some(floors), Some(0.0)) == Some(Round2(price / area))
  {
  }
}

=== FILE: floors.dfy ===
/** `extract_num_floors` and `get_construction_cost` of the cleaner. The number of
    floors comes from the `other_info` panel, then from `main_info`, then from the
    listing text; the two `re.findall` scans of the text are parameters: `permit` holds
    the digit groups that follow "cải tạo lên / xây lên / nâng tầng lên / xin phép xây"
    and `tokens` the number groups (digits or a number word) before
    "tầng / lầu / tấm / mê". */
module Floors {
  import opened Wrappers
  import opened Text
  import opened Numbers
  import opened Listing

  /** What a call yields: a value, or the `KeyError` that `item["value"]` raises for a
      `main_info` "Số tầng" entry without a value; nothing in the cleaner catches it. */
  datatype Outcome<+T> = Returned(value: T) | RaisesKeyError

  const FloorsTitle := "Số tầng"

  /** `word_to_num`. */
  const WordToNum: map<string, nat> := map[
    "một" := 1, "hai" := 2, "ba" := 3,
    "bốn" := 4, "năm" := 5, "sáu" := 6,
    "bảy" := 7, "bẩy" := 7, "tám" := 8,
    "chín" := 9, "mười" := 10
  ]

  // ----- the side panels -----

  /** `str(item["value"])` for a present value: JSON `null` prints as "None". */
  function ValueText(v: InfoValue): string
    requires !v.Absent?
  {
    if v.Str? then v.text else "None"
  }

  /** A `main_info` entry the scan stops at: a "Số tầng" entry whose value is missing
      (the lookup raises) or holds a digit (the scan returns). */
  predicate StopsFloorScan(item: InfoItem) {
    item.title == FloorsTitle && (item.value.Absent? || HasDigit(ValueText(item.value)))
  }

  /** The outcome of the `main_info` scan: none when no entry stops it. */
  function MainInfoFloors(items: seq<InfoItem>): Outcome<Option<nat>> {
    var i := FirstWhere(items, StopsFloorScan);
    if i == |items| then Returned(None)
    else if items[i].value.Absent? then RaisesKeyError
    else Returned(FirstInteger(ValueText(items[i].value)))
  }

  /** `int(re.search(r"\d+", str(other_info["Số tầng"])).group(0))`. */
  function PanelFloors(row: Row): Option<nat> {
    if FloorsTitle in row.otherInfo then FirstInteger(row.otherInfo[FloorsTitle]) else None
  }

  // ----- the text -----

  /** The number a token of the floor pattern stands for: digits are read as an integer
      and a number word through `word_to_num`; anything else is no candidate. */
  function TokenValue(t: string): Option<nat> {
    if |t| > 0 && AllDigits(t) then Some(DigitsValue(t))
    else if t in WordToNum then Some(WordToNum[t])
    else None
  }

  /** `candidate_numbers`: the values of the tokens, in order. */
  function Candidates(tokens: seq<string>): seq<nat>
  {
    if |tokens| == 0 then []
    else
      var last := tokens[|tokens| - 1];
      Candidates(tokens[..|tokens| - 1]) + (if TokenValue(last).Some? then [TokenValue(last).value] else [])
  }

  /** `potential_numbers`: the permit figures, as a set. The groups are `\d+`, so every
      one is a digit string. */
  function PermitNumbers(permit: seq<string>): set<nat> {
    set k | 0 <= k < |permit| && AllDigits(permit[k]) :: DigitsValue(permit[k])
  }

  /** `[n for n in candidates if n not in excluded]`. */
  function Remaining(candidates: seq<nat>, excluded: set<nat>): seq<nat> {
    if |candidates| == 0 then []
    else (if candidates[0] in excluded then [] else [candidates[0]]) + Remaining(candidates[1..], excluded)
  }

  /** `("trệt" in text) + ("lửng" in text)`. */
  function GroundAndMezzanine(text: string): nat {
    (if Contains(text, "trệt") then 1 else 0) + (if Contains(text, "lửng") then 1 else 0)
  }

  /** The text rules: the largest candidate that is not a permit figure, plus one for
      each of "trệt" and "lửng" when "lầu" is mentioned; none when every candidate was a
      permit figure; one floor for a single-storey house when there was no candidate. */
  function FloorsFromText(text: string, permit: seq<string>, tokens: seq<string>): Option<nat> {
    var candidates := Candidates(tokens);
    var actual := Remaining(candidates, PermitNumbers(permit));
    var extra := GroundAndMezzanine(text);
    if Contains(text, "lầu") && extra > 0 && |actual| > 0 then Some(MaxOf(actual) + extra)
    else if |actual| > 0 then Some(MaxOf(actual))
    else if |candidates| > 0 then None
    else if Contains(text, "nhà cấp 4") || Contains(text, "nhà trệt") then Some(1)
    else None
  }

  /** `extract_num_floors`. */
  function NumFloors(row: Row, permit: seq<string>, tokens: seq<string>): Outcome<Option<nat>> {
    var panel := PanelFloors(row);
    if panel.Some? then Returned(panel)
    else
      match MainInfoFloors(row.mainInfo)
      case RaisesKeyError => RaisesKeyError
      case Returned(fromMain) =>
        if fromMain.Some? then Returned(fromMain)
        else Returned(FloorsFromText(ListingText(row), permit, tokens))
  }

  /** The loop that fills `candidate_numbers`. */
  method CollectCandidates(tokens: seq<string>) returns (candidates: seq<nat>)
    ensures candidates == Candidates(tokens)
  {
    candidates := [];
    var i := 0;
    while i < |tokens|
      invariant 0 <= i <= |tokens|
      invariant candidates == Candidates(tokens[..i])
    {
      assert tokens[..i + 1][..i] == tokens[..i];
      var v := TokenValue(tokens[i]);
      if v.Some? {
        candidates := candidates + [v.value];
      }
      i := i + 1;
    }
    assert tokens[..|tokens|] == tokens;
  }

  /** `extract_num_floors`: the panel, the `main_info` loop, then the text. */
  method ExtractNumFloors(row: Row, permit: seq<string>, tokens: seq<string>)
    returns (floors: Outcome<Option<nat>>)
    ensures floors == NumFloors(row, permit, tokens)
  {
    var panel := PanelFloors(row);
    if panel.Some? {
      return Returned(panel);
    }
    var i := 0;
    while i < |row.mainInfo|
      invariant 0 <= i <= |row.mainInfo|
      invariant forall j | 0 <= j < i :: !StopsFloorScan(row.mainInfo[j])
    {
      var item := row.mainInfo[i];
      if item.title == FloorsTitle {
        if item.value.Absent? {
          assert FirstWhere(row.mainInfo, StopsFloorScan) == i;
          return RaisesKeyError;
        }
        var n := FirstInteger(ValueText(item.value));
        if n.Some? {
          assert FirstWhere(row.mainInfo, StopsFloorScan) == i;
          return Returned(n);
        }
      }
      i := i + 1;
    }
    var text := ListingText(row);
    var excluded := PermitNumbers(permit);
    var candidates := CollectCandidates(tokens);
    var actual := Remaining(candidates, excluded);
    var extra := GroundAndMezzanine(text);
    if Contains(text, "lầu") && extra > 0 && |actual| > 0 {
      return Returned(Some(MaxOf(actual) + extra));
    }
    if |actual| > 0 {
      return Returned(Some(MaxOf(actual)));
    }
    if |candidates| > 0 {
      return Returned(None);
    }
    if Contains(text, "nhà cấp 4") || Contains(text, "nhà trệt") {
      return Returned(Some(1));
    }
    return Returned(None);
  }

  // ----- properties -----

  /** A value is a candidate exactly when some token stands for it. */
  lemma {:induction false} CandidatesOfTokens(tokens: seq<string>, v: nat)
    ensures v in Candidates(tokens) <==> exists k | 0 <= k < |tokens| :: TokenValue(tokens[k]) == Some(v)
  {
    if |tokens| > 0 {
      var init := tokens[..|tokens| - 1];
      CandidatesOfTokens(init, v);
      assert forall k | 0 <= k < |init| :: init[k] == tokens[k];
    }
  }

  /** A value survives the exclusion exactly when it is a candidate and no permit figure. */
  lemma {:induction false} RemainingIsFilter(candidates: seq<nat>, excluded: set<nat>, v: nat)
    ensures v in Remaining(candidates, excluded) <==> v in candidates && v !in excluded
  {
    if |candidates| > 0 {
      RemainingIsFilter(candidates[1..], excluded, v);
      assert candidates == [candidates[0]] + candidates[1..];
    }
  }

  /** The `other_info` figure wins over `main_info` (even over an entry whose lookup
      would raise) and over the text. */
  lemma PanelFloorsWin(row: Row, permit: seq<string>, tokens: seq<string>)
    requires FloorsTitle in row.otherInfo && HasDigit(row.otherInfo[FloorsTitle])
    ensures NumFloors(row, permit, tokens) == Returned(FirstInteger(row.otherInfo[FloorsTitle]))
  {
  }

  /** Without a panel figure, a `main_info` "Số tầng" entry with a digit beats the text. */
  lemma MainInfoFloorsBeatText(row: Row, permit: seq<string>, tokens: seq<string>, k: nat)
    requires !(FloorsTitle in row.otherInfo && HasDigit(row.otherInfo[FloorsTitle]))
    requires k < |row.mainInfo| && row.mainInfo[k].title == FloorsTitle
    requires row.mainInfo[k].value.Str? && HasDigit(row.mainInfo[k].value.text)
    requires forall j | 0 <= j < k :: !StopsFloorScan(row.mainInfo[j])
    ensures NumFloors(row, permit, tokens) == Returned(FirstInteger(row.mainInfo[k].value.text))
  {
    assert StopsFloorScan(row.mainInfo[k]);
    assert FirstWhere(row.mainInfo, StopsFloorScan) == k;
  }

  /** When the text has candidates but every one is a permit figure, the answer is
      absent, even for a text that says "nhà cấp 4". */
  lemma AllPermitFiguresGiveNone(text: string, permit: seq<string>, tokens: seq<string>)
    requires |Candidates(tokens)| > 0
    requires forall k | 0 <= k < |Candidates(tokens)| :: Candidates(tokens)[k] in PermitNumbers(permit)
    ensures FloorsFromText(text, permit, tokens).None?
  {
    var candidates := Candidates(tokens);
    var actual := Remaining(candidates, PermitNumbers(permit));
    if |actual| > 0 {
      RemainingIsFilter(candidates, PermitNumbers(permit), actual[0]);
      assert false;
    }
  }

  /** With candidates left after the exclusion, the answer is the largest of them, plus
      the ground-floor and mezzanine bonus when "lầu" is mentioned; a permit figure is
      never the base of the answer. */
  lemma FloorsAreLargestRemaining(text: string, permit: seq<string>, tokens: seq<string>)
    requires exists k | 0 <= k < |tokens| :: TokenValue(tokens[k]).Some? && TokenValue(tokens[k]).value !in PermitNumbers(permit)
    ensures FloorsFromText(text, permit, tokens).Some?
    ensures var n := FloorsFromText(text, permit, tokens).value;
            var bonus := if Contains(text, "lầu") then GroundAndMezzanine(text) else 0;
            bonus <= 2 && n - bonus !in PermitNumbers(permit) &&
            (exists k | 0 <= k < |tokens| :: TokenValue(tokens[k]) == Some(n - bonus)) &&
            forall k | 0 <= k < |tokens| && TokenValue(tokens[k]).Some? && TokenValue(tokens[k]).value !in PermitNumbers(permit) ::
              TokenValue(tokens[k]).value + bonus <= n
  {
    LargestRemaining(tokens, PermitNumbers(permit));
    var m := MaxOf(Remaining(Candidates(tokens), PermitNumbers(permit)));
    var bonus := if Contains(text, "lầu") then GroundAndMezzanine(text) else 0;
    assert FloorsFromText(text, permit, tokens) == Some(m + bonus);
  }

  /** With a candidate outside `excluded`, the largest remaining candidate is a token's
      value outside `excluded` and at least every such value. */
  lemma LargestRemaining(tokens: seq<string>, excluded: set<nat>)
    requires exists k | 0 <= k < |tokens| :: TokenValue(tokens[k]).Some? && TokenValue(tokens[k]).value !in excluded
    ensures var actual := Remaining(Candidates(tokens), excluded);
            |actual| > 0 && MaxOf(actual) !in excluded &&
            (exists k | 0 <= k < |tokens| :: TokenValue(tokens[k]) == Some(MaxOf(actual))) &&
            forall k | 0 <= k < |tokens| && TokenValue(tokens[k]).Some? && TokenValue(tokens[k]).value !in excluded ::
              TokenValue(tokens[k]).value <= MaxOf(actual)
  {
    var candidates := Candidates(tokens);
    var actual := Remaining(candidates, excluded);
    var k :| 0 <= k < |tokens| && TokenValue(tokens[k]).Some? && TokenValue(tokens[k]).value !in excluded;
    CandidatesOfTokens(tokens, TokenValue(tokens[k]).value);
    RemainingIsFilter(candidates, excluded, TokenValue(tokens[k]).value);
    var m := MaxOf(actual);
    RemainingIsFilter(candidates, excluded, m);
    CandidatesOfTokens(tokens, m);
    forall j | 0 <= j < |tokens| && TokenValue(tokens[j]).Some? && TokenValue(tokens[j]).value !in excluded
      ensures TokenValue(tokens[j]).value <= m
    {
      CandidatesOfTokens(tokens, TokenValue(tokens[j]).value);
      RemainingIsFilter(candidates, excluded, TokenValue(tokens[j]).value);
    }
  }

  /** Only a text without any candidate falls back to the single-storey keywords. */
  lemma SingleStoreyOnlyWithoutCandidates(text: string, permit: seq<string>, tokens: seq<string>)
    requires forall k | 0 <= k < |tokens| :: TokenValue(tokens[k]).None?
    ensures FloorsFromText(text, permit, tokens) ==
      (if Contains(text, "nhà cấp 4") || Contains(text, "nhà trệt") then Some(1) else None)
  {
    var candidates := Candidates(tokens);
    if |candidates| > 0 {
      CandidatesOfTokens(tokens, candidates[0]);
      assert false;
    }
    assert |Remaining(candidates, PermitNumbers(permit))| == 0;
  }

  // ----- get_construction_cost -----

  /** The six rows of `CONSTRUCTION_COST_MAP` the decision chain can pick. */
  datatype CostKind =
    | VillaWithBasement        // "biệt_thự_có_hầm"
    | Villa                    // "biệt_thự"
    | LevelFourHouse           // "nhà_cấp_4"
    | OneStorey                // "nhà_1_tầng_btct"
    | MultiStoreyWithBasement  // "nhà_gte_2_tầng_có_hầm"
    | MultiStorey              // "nhà_gte_2_tầng_không_hầm"

  /** The decision chain: a villa first, then a level-4 house, then the floor count; a
      basement is a whole-word "hầm". Zero floors picks no row. */
  function CostKindOf(text: string, floors: Option<nat>): (r: Option<CostKind>)
    ensures r == Some(VillaWithBasement) || r == Some(MultiStoreyWithBasement) ==> ContainsWord(text, "hầm")
    ensures r == Some(Villa) || r == Some(MultiStorey) ==> !ContainsWord(text, "hầm")
    ensures r == Some(OneStorey) ==>
              !Contains(text, "biệt thự") && !Contains(text, "nhà cấp 4") && (floors.None? || floors == Some(1))
  {
    var basement := ContainsWord(text, "hầm");
    if Contains(text, "biệt thự") then Some(if basement then VillaWithBasement else Villa)
    else if Contains(text, "nhà cấp 4") then Some(LevelFourHouse)
    else if floors.None? || floors.value == 1 then Some(OneStorey)
    else if floors.value >= 2 then Some(if basement then MultiStoreyWithBasement else MultiStorey)
    else None
  }

  /** `get_construction_cost`, the unit cost per square metre; `cost` stands for
      `CONSTRUCTION_COST_MAP`. The floor count is computed before the chain, so its
      `KeyError` escapes even for a villa. */
  function ConstructionCost(row: Row, permit: seq<string>, tokens: seq<string>, cost: CostKind -> int)
    : (r: Outcome<Option<int>>)
    ensures r == Returned(None) ==> NumFloors(row, permit, tokens) == Returned(Some(0))
    ensures Contains(ListingText(row), "biệt thự") && NumFloors(row, permit, tokens).Returned? ==>
              r == Returned(Some(cost(Villa))) || r == Returned(Some(cost(VillaWithBasement)))
  {
    match NumFloors(row, permit, tokens)
    case RaisesKeyError => RaisesKeyError
    case Returned(floors) =>
      match CostKindOf(ListingText(row), floors)
      case None => Returned(None)
      case Some(kind) => Returned(Some(cost(kind)))
  }

  /** A villa is priced as a villa whatever its floor count, and a level-4 house as a
      level-4 house. */
  lemma HouseTypeBeatsFloors(text: string, floors: Option<nat>, other: Option<nat>)
    requires Contains(text, "biệt thự") || Contains(text, "nhà cấp 4")
    ensures CostKindOf(text, floors) == CostKindOf(text, other)
    ensures CostKindOf(text, floors) in {Some(VillaWithBasement), Some(Villa), Some(LevelFourHouse)}
  {
  }

  /** No row is picked exactly when the house is neither a villa nor level 4 and the
      floor count is zero. */
  lemma NoCostOnlyForZeroFloors(text: string, floors: Option<nat>)
    ensures CostKindOf(text, floors).None? <==>
      !Contains(text, "biệt thự") && !Contains(text, "nhà cấp 4") && floors == Some(0)
  {
  }

  /** An ordinary house of two or more floors is priced by whether it has a basement. */
  lemma MultiStoreyByBasement(text: string, n: nat)
    requires !Contains(text, "biệt thự") && !Contains(text, "nhà cấp 4") && n >= 2
    ensures CostKindOf(text, Some(n)) ==
      Some(if ContainsWord(text, "hầm") then MultiStoreyWithBasement else MultiStorey)
  {
  }

  /** The cost raises exactly when the floor count does. */
  lemma CostRaisesWithFloors(row: Row, permit: seq<string>, tokens: seq<string>, cost: CostKind -> int)
    ensures ConstructionCost(row, permit, tokens, cost).RaisesKeyError? <==>
      NumFloors(row, permit, tokens).RaisesKeyError?
  {
  }
}

=== FILE: frontage.dfy ===
/** The frontage and access measurements of the cleaner: facade width, land length,
    alley width and distance to the main road. The regex searches are left to the
    engine: a `capture` parameter stands for the first group of a fixed pattern searched
    in a lower-cased text (none when it does not match), and a sequence parameter for
    the groups `re.findall` returns, in order. */
module Frontage {
  import opened Wrappers
  import opened Text
  import opened Numbers
  import opened Listing

  /** Python's truth test on an optional float: present and non-zero. */
  predicate Truthy(x: Option<real>) {
    x.Some? && x.value != 0.0
  }

  // ----- extract_facade_width -----

  const WidthTitle := "Mặt tiền"
  const AreaTitle := "Diện tích"

  /** `_find` of `extract_facade_width`: none for an empty text, otherwise the number
      parser on the capture of
      `(?:mặt tiền|mt|ngang|rộng|chiều ngang)\s*:?\s*([\d.,m]+)` in the lower-cased
      text. */
  function FindWidth(text: string, capture: string -> Option<string>): (r: Option<real>)
    ensures r.Some? ==> r.value >= 0.0
  {
    if |text| == 0 then None else ParseNumber(capture(Lower(text)))
  }

  /** A `main_info` entry the scan stops at: an area entry with a non-empty note in
      which a width is found. */
  predicate IsWidthNote(item: InfoItem, capture: string -> Option<string>) {
    item.title == AreaTitle && |item.ext| > 0 && FindWidth(item.ext, capture).Some?
  }

  /** The index of the first width note, or the panel's length. */
  function FirstWidthNote(items: seq<InfoItem>, capture: string -> Option<string>): (i: nat)
    ensures i <= |items|
    ensures forall j | 0 <= j < i :: !IsWidthNote(items[j], capture)
    ensures i < |items| ==> IsWidthNote(items[i], capture)
  {
    if |items| == 0 || IsWidthNote(items[0], capture) then 0
    else
      var i := FirstWidthNote(items[1..], capture);
      assert forall j | 1 <= j < 1 + i :: items[j] == items[1..][j - 1];
      1 + i
  }

  /** The width the `main_info` notes give, none when no note has one. */
  function NoteWidth(items: seq<InfoItem>, capture: string -> Option<string>): Option<real> {
    var i := FirstWidthNote(items, capture);
    if i < |items| then FindWidth(items[i].ext, capture) else None
  }

  /** `extract_facade_width`: the `other_info` width, the notes of the area entries, the
      description, then the title. A missing description or title prints as "None" or
      "nan", in which the pattern finds nothing, so it reads as the empty text. */
  function FacadeWidth(row: Row, capture: string -> Option<string>): (r: Option<real>)
    ensures r.Some? ==> r.value >= 0.0
  {
    var fromPanel := ParseNumber(OtherValue(row, WidthTitle));
    if fromPanel.Some? then fromPanel
    else
      var fromNotes := NoteWidth(row.mainInfo, capture);
      if fromNotes.Some? then fromNotes
      else
        var fromDescription := FindWidth(row.description, capture);
        if fromDescription.Some? then fromDescription else FindWidth(row.title, capture)
  }

  /** `extract_facade_width`, with its loop over `main_info`. */
  method ExtractFacadeWidth(row: Row, capture: string -> Option<string>) returns (width: Option<real>)
    ensures width == FacadeWidth(row, capture)
  {
    width := ParseNumber(OtherValue(row, WidthTitle));
    if width.Some? {
      return;
    }
    var i := 0;
    while i < |row.mainInfo|
      invariant 0 <= i <= |row.mainInfo|
      invariant forall j | 0 <= j < i :: !IsWidthNote(row.mainInfo[j], capture)
    {
      var item := row.mainInfo[i];
      if item.title == AreaTitle && |item.ext| > 0 {
        width := FindWidth(item.ext, capture);
        if width.Some? {
          assert FirstWidthNote(row.mainInfo, capture) == i;
          return;
        }
      }
      i := i + 1;
    }
    width := FindWidth(row.description, capture);
    if width.Some? {
      return;
    }
    width := FindWidth(row.title, capture);
  }

  /** A width in `other_info` wins over every text source. */
  lemma PanelWidthWins(row: Row, capture: string -> Option<string>)
    requires WidthTitle in row.otherInfo && HasDigit(row.otherInfo[WidthTitle])
    ensures FacadeWidth(row, capture) == ParseNumber(Some(row.otherInfo[WidthTitle]))
  {
  }

  /** Without a panel width, the first area note with a width beats the description and
      the title. */
  lemma NoteWidthBeatsText(row: Row, capture: string -> Option<string>, k: nat)
    requires !(WidthTitle in row.otherInfo && HasDigit(row.otherInfo[WidthTitle]))
    requires k < |row.mainInfo| && IsWidthNote(row.mainInfo[k], capture)
    requires forall j | 0 <= j < k :: !IsWidthNote(row.mainInfo[j], capture)
    ensures FacadeWidth(row, capture) == FindWidth(row.mainInfo[k].ext, capture)
  {
    assert FirstWidthNote(row.mainInfo, capture) == k;
  }

  // ----- extract_land_length -----

  const LengthTitle := "Chiều dài"

  /** The larger of two readings. */
  function Larger(x: real, y: real): (r: real)
    ensures r >= x && r >= y && (r == x || r == y)
  {
    if x >= y then x else y
  }

  /** `_find` of `extract_land_length`. `lengthCapture` stands for the group of
      `(?:dài|chiều\s+dài)\s*:?\s*([\d.,m]+)` and `pairCapture` for the two groups of
      `(\d+[\.,m]?\d*)\s*(?:m|mét)?\s*[xX*]\s*(\d+[\.,m]?\d*)`. A "dài" capture is
      answered even when it does not parse; a pair gives the larger side when both
      sides parse. */
  function FindLength(text: string, lengthCapture: string -> Option<string>,
                      pairCapture: string -> Option<(string, string)>): (r: Option<real>)
    ensures r.Some? ==> r.value >= 0.0
  {
    if |text| == 0 then None
    else
      var lower := Lower(text);
      match lengthCapture(lower)
      case Some(g) => ParseNumber(Some(g))
      case None =>
        match pairCapture(lower)
        case None => None
        case Some((a, b)) =>
          var x, y := ParseNumber(Some(a)), ParseNumber(Some(b));
          if x.Some? && y.Some? then Some(Larger(x.value, y.value)) else None
  }

  /** `extract_land_length`: the `other_info` length, then the description, then the
      title; each source counts only when its reading is truthy, so a zero length falls
      through to the next one. */
  function LandLength(row: Row, lengthCapture: string -> Option<string>,
                      pairCapture: string -> Option<(string, string)>): (r: Option<real>)
    ensures Truthy(ParseNumber(OtherValue(row, LengthTitle))) ==> r == ParseNumber(OtherValue(row, LengthTitle))
    ensures !Truthy(ParseNumber(OtherValue(row, LengthTitle))) && Truthy(FindLength(row.description, lengthCapture, pairCapture)) ==>
              r == FindLength(row.description, lengthCapture, pairCapture)
    ensures r.None? <==>
              !Truthy(ParseNumber(OtherValue(row, LengthTitle))) &&
              !Truthy(FindLength(row.description, lengthCapture, pairCapture)) &&
              !Truthy(FindLength(row.title, lengthCapture, pairCapture))
  {
    var fromPanel := ParseNumber(OtherValue(row, LengthTitle));
    if Truthy(fromPanel) then fromPanel
    else
      var fromDescription := FindLength(row.description, lengthCapture, pairCapture);
      if Truthy(fromDescription) then fromDescription
      else
        var fromTitle := FindLength(row.title, lengthCapture, pairCapture);
        if Truthy(fromTitle) then fromTitle else None
  }

  /** A land length, when there is one, is strictly positive. */
  lemma LandLengthPositive(row: Row, lengthCapture: string -> Option<string>,
                           pairCapture: string -> Option<(string, string)>)
    ensures var r := LandLength(row, lengthCapture, pairCapture); r.Some? ==> r.value > 0.0
  {
  }

  /** A length pair in the description yields its longer side, when the panel gives
      nothing truthy and no "dài" label is found. */
  lemma PairGivesLongerSide(row: Row, lengthCapture: string -> Option<string>,
                            pairCapture: string -> Option<(string, string)>, a: string, b: string)
    requires !Truthy(ParseNumber(OtherValue(row, LengthTitle)))
    requires |row.description| > 0
    requires lengthCapture(Lower(row.description)).None?
    requires pairCapture(Lower(row.description)) == Some((a, b))
    requires HasDigit(a) && HasDigit(b)
    requires Truthy(ParseNumber(Some(a))) || Truthy(ParseNumber(Some(b)))
    ensures LandLength(row, lengthCapture, pairCapture).Some?
    ensures var r := LandLength(row, lengthCapture, pairCapture).value;
      r >= ParseNumber(Some(a)).value && r >= ParseNumber(Some(b)).value
  {
  }

  // ----- extract_alley_width -----

  const AccessTitle := "Đường vào"

  /** The readings of the captured widths that parse, in order. */
  function ParsedWidths(tokens: seq<string>): seq<real> {
    if |tokens| == 0 then []
    else
      var w := ParseNumber(Some(tokens[|tokens| - 1]));
      ParsedWidths(tokens[..|tokens| - 1]) + (if w.Some? then [w.value] else [])
  }

  /** `widths`: the `other_info` access width, if it parses, then the widths found after
      "ngõ / hẻm / ngách / kiệt / đường vào / đường trước nhà" (`tokens`). */
  function AlleyWidths(row: Row, tokens: seq<string>): seq<real> {
    var w := ParseNumber(OtherValue(row, AccessTitle));
    (if w.Some? then [w.value] else []) + ParsedWidths(tokens)
  }

  /** A car reaches the door: "ô tô vào", "ô tô đỗ cửa" or "oto vào". */
  predicate CarReachesDoor(text: string) {
    Contains(text, "ô tô vào") || Contains(text, "ô tô đỗ cửa") || Contains(text, "oto vào")
  }

  /** `extract_alley_width`: the narrowest width found; without any, the vehicle phrases
      in order: two cars passing 5.0, two lorries passing 10.0, a car reaching the door
      3.5. */
  function AlleyWidth(row: Row, tokens: seq<string>): Option<real> {
    var widths := AlleyWidths(row, tokens);
    var text := ListingText(row);
    if |widths| > 0 then Some(MinOf(widths))
    else if Contains(text, "ô tô tránh") then Some(5.0)
    else if Contains(text, "xe tải tránh") then Some(10.0)
    else if CarReachesDoor(text) then Some(3.5)
    else None
  }

  /** The loop that fills `widths`. */
  method CollectAlleyWidths(row: Row, tokens: seq<string>) returns (widths: seq<real>)
    ensures widths == AlleyWidths(row, tokens)
  {
    widths := [];
    var w := ParseNumber(OtherValue(row, AccessTitle));
    if w.Some? {
      widths := widths + [w.value];
    }
    var i := 0;
    while i < |tokens|
      invariant 0 <= i <= |tokens|
      invariant widths == (if w.Some? then [w.value] else []) + ParsedWidths(tokens[..i])
    {
      assert tokens[..i + 1][..i] == tokens[..i];
      var v := ParseNumber(Some(tokens[i]));
      if v.Some? {
        widths := widths + [v.value];
      }
      i := i + 1;
    }
    assert tokens[..|tokens|] == tokens;
  }

  /** `extract_alley_width`. */
  method ExtractAlleyWidth(row: Row, tokens: seq<string>) returns (width: Option<real>)
    ensures width == AlleyWidth(row, tokens)
  {
    var widths := CollectAlleyWidths(row, tokens);
    var text := ListingText(row);
    if |widths| > 0 {
      return Some(MinOf(widths));
    }
    if Contains(text, "ô tô tránh") {
      return Some(5.0);
    }
    if Contains(text, "xe tải tránh") {
      return Some(10.0);
    }
    if CarReachesDoor(text) {
      return Some(3.5);
    }
    return None;
  }

  /** Every token that holds a digit contributes its width. */
  lemma {:induction false} ParsedWidthOfToken(tokens: seq<string>, k: nat)
    requires k < |tokens| && ParseNumber(Some(tokens[k])).Some?
    ensures ParseNumber(Some(tokens[k])).value in ParsedWidths(tokens)
  {
    var init := tokens[..|tokens| - 1];
    var last := ParseNumber(Some(tokens[|tokens| - 1]));
    assert ParsedWidths(tokens) == ParsedWidths(init) + (if last.Some? then [last.value] else []);
    if k < |tokens| - 1 {
      assert init[k] == tokens[k];
      ParsedWidthOfToken(init, k);
    }
  }

  /** Every collected width comes from a token. */
  lemma {:induction false} ParsedWidthHasToken(tokens: seq<string>, x: real)
    requires x in ParsedWidths(tokens)
    ensures exists k | 0 <= k < |tokens| :: ParseNumber(Some(tokens[k])) == Some(x)
  {
    var init := tokens[..|tokens| - 1];
    var last := ParseNumber(Some(tokens[|tokens| - 1]));
    assert ParsedWidths(tokens) == ParsedWidths(init) + (if last.Some? then [last.value] else []);
    if x in ParsedWidths(init) {
      ParsedWidthHasToken(init, x);
      var k :| 0 <= k < |init| && ParseNumber(Some(init[k])) == Some(x);
      assert init[k] == tokens[k];
    } else {
      assert ParseNumber(Some(tokens[|tokens| - 1])) == Some(x);
    }
  }

  /** A width is collected exactly when a captured token holds a digit. */
  lemma ParsedWidthsOfTokens(tokens: seq<string>, x: real)
    ensures x in ParsedWidths(tokens) <==> exists k | 0 <= k < |tokens| :: ParseNumber(Some(tokens[k])) == Some(x)
  {
    if x in ParsedWidths(tokens) {
      ParsedWidthHasToken(tokens, x);
    }
    if exists k | 0 <= k < |tokens| :: ParseNumber(Some(tokens[k])) == Some(x) {
      var k :| 0 <= k < |tokens| && ParseNumber(Some(tokens[k])) == Some(x);
      ParsedWidthOfToken(tokens, k);
    }
  }

  /** The alley width is at most every width that was read, panel or text, and the
      vehicle phrases are then never consulted. */
  lemma AlleyWidthIsNarrowest(row: Row, tokens: seq<string>, k: nat)
    requires k < |tokens| && HasDigit(tokens[k])
    ensures AlleyWidth(row, tokens).Some?
    ensures AlleyWidth(row, tokens).value <= ParseNumber(Some(tokens[k])).value
    ensures AccessTitle in row.otherInfo && HasDigit(row.otherInfo[AccessTitle]) ==>
      AlleyWidth(row, tokens).value <= ParseNumber(Some(row.otherInfo[AccessTitle])).value
  {
    var x := ParseNumber(Some(tokens[k])).value;
    ParsedWidthOfToken(tokens, k);
    var parsed := ParsedWidths(tokens);
    var panel := ParseNumber(OtherValue(row, AccessTitle));
    var prefix := if panel.Some? then [panel.value] else [];
    var widths := prefix + parsed;
    assert AlleyWidths(row, tokens) == widths;
    var j :| 0 <= j < |parsed| && parsed[j] == x;
    assert widths[|prefix| + j] == x;
    WidthsGiveNarrowest(row, tokens);
    if panel.Some? {
      assert widths[0] == panel.value;
    }
  }

  /** Once a width was read, the alley width is the narrowest of them. */
  lemma WidthsGiveNarrowest(row: Row, tokens: seq<string>)
    requires |AlleyWidths(row, tokens)| > 0
    ensures AlleyWidth(row, tokens) == Some(MinOf(AlleyWidths(row, tokens)))
  {
  }

  /** The vehicle phrases apply only when no width was read, and then in their order. */
  lemma VehiclePhrasesInOrder(row: Row, tokens: seq<string>)
    requires |AlleyWidths(row, tokens)| == 0
    ensures Contains(ListingText(row), "ô tô tránh") ==> AlleyWidth(row, tokens) == Some(5.0)
    ensures !Contains(ListingText(row), "ô tô tránh") && Contains(ListingText(row), "xe tải tránh") ==>
              AlleyWidth(row, tokens) == Some(10.0)
    ensures !Contains(ListingText(row), "ô tô tránh") && !Contains(ListingText(row), "xe tải tránh") &&
              CarReachesDoor(ListingText(row)) ==>
              AlleyWidth(row, tokens) == Some(3.5)
    ensures AlleyWidth(row, tokens).None? <==>
              (!Contains(ListingText(row), "ô tô tránh") && !Contains(ListingText(row), "xe tải tránh") &&
               !CarReachesDoor(ListingText(row)))
  {
  }

  /** Every alley width is non-negative: the parser reads no sign. */
  lemma AlleyWidthNonNegative(row: Row, tokens: seq<string>)
    ensures var r := AlleyWidth(row, tokens); r.Some? ==> r.value >= 0.0
  {
    var widths := AlleyWidths(row, tokens);
    if |widths| > 0 {
      WidthsGiveNarrowest(row, tokens);
      var parsed := ParsedWidths(tokens);
      var panel := ParseNumber(OtherValue(row, AccessTitle));
      var prefix := if panel.Some? then [panel.value] else [];
      assert widths == prefix + parsed;
      ParsedWidthsNonNegative(tokens);
      assert forall i | 0 <= i < |widths| :: widths[i] >= 0.0 by {
        forall i | 0 <= i < |widths| ensures widths[i] >= 0.0 {
          if i >= |prefix| {
            assert widths[i] == parsed[i - |prefix|];
          }
        }
      }
    }
  }

  /** No parsed width is negative. */
  lemma {:induction false} ParsedWidthsNonNegative(tokens: seq<string>)
    ensures forall i | 0 <= i < |ParsedWidths(tokens)| :: ParsedWidths(tokens)[i] >= 0.0
  {
    if |tokens| > 0 {
      var init := tokens[..|tokens| - 1];
      var last := ParseNumber(Some(tokens[|tokens| - 1]));
      assert ParsedWidths(tokens) == ParsedWidths(init) + (if last.Some? then [last.value] else []);
      ParsedWidthsNonNegative(init);
    }
  }

  // ----- extract_distance_to_main_road -----

  /** `_convert(num, unit or "m")`: `float(num.replace(",", "."))`, times 1000 for
      kilometres; none when `float` raises. */
  function ConvertDistance(num: string, unit: string): Option<real> {
    var u := if |unit| == 0 then "m" else unit;
    match PyFloat(ReplaceChar(num, ',', '.'))
    case None => None
    case Some(v) => Some(if Lower(u) == "km" then v * 1000.0 else v)
  }

  /** `dists`: the conversions of the captured (number, unit) pairs of both patterns,
      skipping the pairs `float` rejects. */
  function Distances(pairs: seq<(string, string)>): seq<real> {
    if |pairs| == 0 then []
    else
      var d := ConvertDistance(pairs[0].0, pairs[0].1);
      (if d.Some? then [d.value] else []) + Distances(pairs[1..])
  }

  /** Every collected distance is the conversion of some pair, and nothing is collected
      only when no pair converts. */
  lemma {:induction false} DistancesFromPairs(pairs: seq<(string, string)>)
    ensures forall d | d in Distances(pairs) :: exists k | 0 <= k < |pairs| :: ConvertDistance(pairs[k].0, pairs[k].1) == Some(d)
    ensures |Distances(pairs)| == 0 ==> forall k | 0 <= k < |pairs| :: ConvertDistance(pairs[k].0, pairs[k].1).None?
  {
    if |pairs| > 0 {
      DistancesFromPairs(pairs[1..]);
      assert forall k | 1 <= k < |pairs| :: pairs[k] == pairs[1..][k - 1];
    }
  }

  /** `extract_distance_to_main_road`: the shortest distance found, none without one. */
  function DistanceToMainRoad(pairs: seq<(string, string)>): (r: Option<real>)
    ensures r.None? <==> forall k | 0 <= k < |pairs| :: ConvertDistance(pairs[k].0, pairs[k].1).None?
    ensures r.Some? ==> exists k | 0 <= k < |pairs| :: ConvertDistance(pairs[k].0, pairs[k].1) == r
  {
    var dists := Distances(pairs);
    DistancesFromPairs(pairs);
    if |dists| > 0 then
      assert dists[0] in dists;
      Some(MinOf(dists))
    else None
  }

  /** A converted distance is among the collected ones. */
  lemma {:induction false} ConvertedIsCollected(pairs: seq<(string, string)>, k: nat)
    requires k < |pairs| && ConvertDistance(pairs[k].0, pairs[k].1).Some?
    ensures ConvertDistance(pairs[k].0, pairs[k].1).value in Distances(pairs)
  {
    var d := ConvertDistance(pairs[0].0, pairs[0].1);
    var head := if d.Some? then [d.value] else [];
    assert Distances(pairs) == head + Distances(pairs[1..]);
    if k > 0 {
      assert pairs[1..][k - 1] == pairs[k];
      ConvertedIsCollected(pairs[1..], k - 1);
    } else {
      assert head == [d.value];
    }
  }

  /** The distance is at most every distance that converts. */
  lemma DistanceIsShortest(pairs: seq<(string, string)>, k: nat)
    requires k < |pairs| && ConvertDistance(pairs[k].0, pairs[k].1).Some?
    ensures DistanceToMainRoad(pairs).Some?
    ensures DistanceToMainRoad(pairs).value <= ConvertDistance(pairs[k].0, pairs[k].1).value
  {
    ConvertedIsCollected(pairs, k);
  }

  /** Kilometres are converted to metres, in any capitalisation the text used. */
  lemma KilometresToMetres(num: string, v: real)
    requires PyFloat(ReplaceChar(num, ',', '.')) == Some(v)
    ensures ConvertDistance(num, "km") == Some(v * 1000.0)
    ensures ConvertDistance(num, "KM") == Some(v * 1000.0)
    ensures ConvertDistance(num, "") == Some(v)
    ensures ConvertDistance(num, "m") == Some(v)
  {
  }
}

=== FILE: listing.dfy ===
/** A scraped listing as the cleaner reads it. The JSON side panels arrive already
    decoded: `main_info` is a list of titled items and `other_info` a dictionary. A
    panel that is missing or not valid JSON is read by the extractors as an empty one,
    so it is modelled as empty. A panel of the other shape (an object for `main_info`,
    a list for `other_info`) makes the extractors raise; it has no value here. */
module Listing {
  import opened Wrappers
  import opened Text

  /** The `value` of a `main_info` entry: no such key, JSON `null`, or a string. */
  datatype InfoValue = Absent | Null | Str(text: string)

  /** One entry of the `main_info` panel: its title, its value and the `ext` note
      ("" when it has none). */
  datatype InfoItem = InfoItem(title: string, value: InfoValue, ext: string)

  /** `item.get("value")`. */
  function Value(item: InfoItem): (r: Option<string>)
    ensures r.Some? <==> item.value.Str?
  {
    if item.value.Str? then Some(item.value.text) else None
  }

  datatype Row = Row(
    title: string,                   // "" when the column is missing
    description: string,             // "" when the column is missing
    shortAddress: Option<string>,    // none when pandas holds NaN
    addressParts: seq<string>,       // the decoded `address_parts` list
    mainInfo: seq<InfoItem>,
    otherInfo: map<string, string>,
    streetColumn: string             // the 'Đường phố' column, "" when missing
  )

  /** `f"{title} {description}".lower()`, the text most extractors search. */
  function ListingText(row: Row): string {
    Lower(row.title + " " + row.description)
  }

  /** `json.loads(other_info).get(key)`. */
  function OtherValue(row: Row, key: string): (r: Option<string>)
    ensures r.Some? <==> key in row.otherInfo
  {
    if key in row.otherInfo then Some(row.otherInfo[key]) else None
  }

  /** `str(x)` of an optional column: pandas' NaN prints as "nan". */
  function Shown(x: Option<string>): string {
    match x
    case Some(s) => s
    case None => "nan"
  }
}

=== FILE: location.dfy ===
/** The location extractors of `DataCleaner`: city, district, ward, street and the
    address detail. Each reads the decoded `address_parts` list and the comma-separated
    `short_address`, in an order of its own, and returns none rather than failing.
    Regular-expression captures whose only role is to cut a name out of a string, and
    Python's `str.title()`/`str.capitalize()`, are parameters. */
module Location {
  import opened Wrappers
  import opened Text
  import opened Pattern
  import opened Listing

  /** `[p.strip() for p in s.split(",")]`. */
  function AddressComponents(s: string): (parts: seq<string>)
    ensures |parts| == |Split(s, ',')| >= 1
    ensures forall k | 0 <= k < |parts| :: ',' !in parts[k]
  {
    SplitHasNoSeparator(s, ',');
    StripAllKeepsAbsent(Split(s, ','), ',');
    StripAll(Split(s, ','))
  }

  // ----- city and district -----

  /** `extract_city`: the second entry of `address_parts`, else the last component of
      the short address. */
  function ExtractCity(row: Row): (r: Option<string>)
    ensures |row.addressParts| > 1 ==> r == Some(row.addressParts[1])
    ensures |row.addressParts| <= 1 ==> (r.Some? <==> row.shortAddress.Some?)
    ensures |row.addressParts| <= 1 && r.Some? ==> ',' !in r.value
    ensures |row.addressParts| <= 1 && row.shortAddress.Some? && ',' !in row.shortAddress.value
            ==> r == Some(Strip(row.shortAddress.value))
  {
    if |row.addressParts| > 1 then Some(row.addressParts[1])
    else
      match row.shortAddress
      case None => None
      case Some(sa) =>
        assert ',' !in sa ==> Split(sa, ',') == [sa] by {
          if ',' !in sa { SplitWithout(sa, ','); }
        }
        var parts := AddressComponents(sa);
        Some(parts[|parts| - 1])
  }

  /** `extract_district`: the third entry of `address_parts`, else the last-but-one
      component of the short address, which exists exactly when it holds a comma. */
  function ExtractDistrict(row: Row): (r: Option<string>)
    ensures |row.addressParts| > 2 ==> r == Some(row.addressParts[2])
    ensures |row.addressParts| <= 2 ==> (r.Some? <==> row.shortAddress.Some? && ',' in row.shortAddress.value)
    ensures |row.addressParts| <= 2 && r.Some? ==> ',' !in r.value
  {
    if |row.addressParts| > 2 then Some(row.addressParts[2])
    else
      match row.shortAddress
      case None => None
      case Some(sa) =>
        SplitInTwo(sa, ',');
        var parts := AddressComponents(sa);
        if |parts| >= 2 then Some(parts[|parts| - 2]) else None
  }

  /** For a short address "ward, district, city" the district and the city are its last
      two components. */
  lemma CityAndDistrictOfShortAddress(row: Row, w: string, d: string, c: string)
    requires |row.addressParts| <= 1 && row.shortAddress == Some(w + "," + d + "," + c)
    requires ',' !in d && ',' !in c
    ensures ExtractCity(row) == Some(Strip(c))
    ensures ExtractDistrict(row) == Some(Strip(d))
  {
    var sa := w + "," + d + "," + c;
    var pieces := Split(sa, ',');
    LastTwoPieces(w, d, c);
    assert pieces[|pieces| - 1] == c && pieces[|pieces| - 2] == d;
    CityIsLastComponent(row, sa);
    DistrictIsLastButOne(row, sa);
  }

  lemma CityIsLastComponent(row: Row, sa: string)
    requires |row.addressParts| <= 1 && row.shortAddress == Some(sa)
    ensures var pieces := Split(sa, ',');
            ExtractCity(row) == Some(Strip(pieces[|pieces| - 1]))
  {
    var parts := AddressComponents(sa);
    assert parts[|parts| - 1] == Strip(Split(sa, ',')[|parts| - 1]);
  }

  lemma DistrictIsLastButOne(row: Row, sa: string)
    requires |row.addressParts| <= 1 && row.shortAddress == Some(sa) && |Split(sa, ',')| >= 2
    ensures var pieces := Split(sa, ',');
            ExtractDistrict(row) == Some(Strip(pieces[|pieces| - 2]))
  {
    var parts := AddressComponents(sa);
    assert parts[|parts| - 2] == Strip(Split(sa, ',')[|parts| - 2]);
  }

  lemma LastTwoPieces(w: string, d: string, c: string)
    requires ',' !in d && ',' !in c
    ensures var pieces := Split(w + "," + d + "," + c, ',');
            |pieces| >= 2 && pieces[|pieces| - 1] == c && pieces[|pieces| - 2] == d
  {
    assert w + "," + d + "," + c == (w + [','] + d) + [','] + c;
    SplitAt(w + [','] + d, ',', c);
    SplitAt(w, ',', d);
    SplitWithout(d, ',');
    SplitWithout(c, ',');
  }

  // ----- ward -----

  const WardPrefixes: seq<string> := ["phường ", "xã ", "thị trấn "]

  predicate IsWardComponent(part: string) {
    StartsWithAny(Lower(part), WardPrefixes)
  }

  /** The first short-address component that names a ward ("phường …", "xã …",
      "thị trấn …"). */
  function WardComponent(row: Row): (r: Option<string>)
    ensures r.Some? ==> row.shortAddress.Some? && IsWardComponent(r.value)
    ensures r.Some? ==> exists k | 0 <= k < |AddressComponents(row.shortAddress.value)| ::
              AddressComponents(row.shortAddress.value)[k] == r.value &&
              forall j | 0 <= j < k :: !IsWardComponent(AddressComponents(row.shortAddress.value)[j])
    ensures r.None? && row.shortAddress.Some? ==>
              forall k | 0 <= k < |AddressComponents(row.shortAddress.value)| ::
                !IsWardComponent(AddressComponents(row.shortAddress.value)[k])
  {
    match row.shortAddress
    case None => None
    case Some(sa) =>
      var parts := AddressComponents(sa);
      var i := FirstWhere(parts, IsWardComponent);
      if i < |parts| then Some(parts[i]) else None
  }

  /** `extract_ward`: a ward component of the short address wins; otherwise the ward
      that `wardAfterTai` (the capture of `tại\s+((?:phường|xã|thị trấn)\s+[\w\s\d\-()]+)`,
      case-insensitive) finds in the last `address_parts` entry, stripped. */
  function ExtractWard(row: Row, wardAfterTai: string -> Option<string>): (r: Option<string>)
    ensures WardComponent(row).Some? ==> r == WardComponent(row)
    ensures WardComponent(row).None? && |row.addressParts| == 0 ==> r.None?
    ensures WardComponent(row).None? && |row.addressParts| > 0 ==>
              (r.Some? <==> wardAfterTai(row.addressParts[|row.addressParts| - 1]).Some?)
    ensures WardComponent(row).None? && |row.addressParts| > 0 &&
            wardAfterTai(row.addressParts[|row.addressParts| - 1]).Some? ==>
              r == Some(Strip(wardAfterTai(row.addressParts[|row.addressParts| - 1]).value))
  {
    var fromShort := WardComponent(row);
    if fromShort.Some? then fromShort
    else if |row.addressParts| == 0 then None
    else
      match wardAfterTai(row.addressParts[|row.addressParts| - 1])
      case Some(g) => Some(Strip(g))
      case None => None
  }

  // ----- street -----

  /** The regular-expression searches of `extract_street`, given by their captures, and
      the casing functions it applies. */
  datatype StreetSearches = StreetSearches(
    // re.search(r'\b(đường|phố)\s+[^\d,]+', part): group(0)
    prefixed: string -> Option<string>,
    // re.search(r"tại (đường|phố)\s+([^,]+)", item, re.IGNORECASE): groups 0, 1, 2
    afterTai: string -> Option<(string, string, string)>,
    // re.search(r"(đường|phố)\s+([\w\s\d\-]+?)(?:,|$|\s-|\s--|\()", title, re.IGNORECASE): groups 0, 1, 2
    inTitle: string -> Option<(string, string, string)>,
    titleCase: string -> string,     // str.title()
    capitalize: string -> string     // str.capitalize()
  )

  const NonStreetPrefixes: seq<string> :=
    ["phường", "xã", "dự án", "quận", "huyện", "thị trấn", "số", "thôn", "xóm", "hẻm", "kiệt"]

  /** A component with an explicit "đường"/"phố" street of at most five words. */
  predicate PrefixedStreet(s: StreetSearches, part: string) {
    var m := s.prefixed(Lower(part));
    m.Some? && WordCount(m.value) <= 5
  }

  /** A first component that can stand for a street name without a prefix. */
  predicate BareStreetName(first: string) {
    !StartsWithAny(Lower(first), NonStreetPrefixes) && HasAlpha(first) && WordCount(first) <= 5
  }

  /** The index of the first component with an explicit street, `|parts|` if none. */
  function FirstPrefixed(s: StreetSearches, parts: seq<string>): (i: nat)
    ensures i <= |parts|
    ensures forall k | 0 <= k < i :: !PrefixedStreet(s, parts[k])
    ensures i < |parts| ==> PrefixedStreet(s, parts[i])
    decreases |parts|
  {
    if |parts| == 0 || PrefixedStreet(s, parts[0]) then 0
    else
      var i := FirstPrefixed(s, parts[1..]);
      assert forall k | 1 <= k < 1 + i :: parts[k] == parts[1..][k - 1];
      1 + i
  }

  /** The title-cased explicit street of the first component that has one. */
  function FirstPrefixedStreet(s: StreetSearches, parts: seq<string>): (r: Option<string>)
    ensures r.None? <==> forall k | 0 <= k < |parts| :: !PrefixedStreet(s, parts[k])
  {
    var i := FirstPrefixed(s, parts);
    if i < |parts| then Some(s.titleCase(Strip(s.prefixed(Lower(parts[i])).value))) else None
  }

  /** The street read from the short address (`str()` of NaN is "nan"): the first
      component with an explicit street, title-cased; else a bare first component. */
  function ShortAddressStreet(row: Row, s: StreetSearches): (r: Option<string>)
    ensures r.Some? ==> |Strip(Shown(row.shortAddress))| > 0
    ensures |Strip(Shown(row.shortAddress))| > 0 ==>
              var parts := AddressComponents(Strip(Shown(row.shortAddress)));
              FirstPrefixedStreet(s, parts).None? ==>
                (r.Some? <==> BareStreetName(parts[0])) && (r.Some? ==> r.value == parts[0])
  {
    var sa := Strip(Shown(row.shortAddress));
    if |sa| == 0 then None
    else
      var parts := AddressComponents(sa);
      var street := FirstPrefixedStreet(s, parts);
      if street.Some? then street
      else if BareStreetName(parts[0]) then Some(parts[0])
      else None
  }

  /** The street after "tại đường/phố" in the last `address_parts` entry. */
  function AddressPartsStreet(row: Row, s: StreetSearches): (r: Option<string>)
    ensures r.Some? ==> |row.addressParts| > 0
  {
    if |row.addressParts| == 0 then None
    else
      match s.afterTai(row.addressParts[|row.addressParts| - 1])
      case None => None
      case Some((whole, kind, name)) =>
        if WordCount(whole) <= 5 then Some(s.capitalize(kind) + " " + Strip(name)) else None
  }

  /** The street named in the title, each word capitalised. */
  function TitleStreet(row: Row, s: StreetSearches): (r: Option<string>)
    ensures r.Some? ==> |Strip(row.title)| > 0
  {
    var t := Strip(row.title);
    if |t| == 0 then None
    else
      match s.inTitle(t)
      case None => None
      case Some((whole, kind, name)) =>
        if WordCount(whole) <= 5 then
          var ws := SplitWords(Strip(name));
          Some(s.capitalize(kind) + " " + Join(seq(|ws|, i requires 0 <= i < |ws| => s.capitalize(ws[i])), " "))
        else None
  }

  /** `extract_street`: the short address beats `address_parts`, which beats the title. */
  function ExtractStreet(row: Row, s: StreetSearches): (r: Option<string>)
    ensures ShortAddressStreet(row, s).Some? ==> r == ShortAddressStreet(row, s)
    ensures ShortAddressStreet(row, s).None? && AddressPartsStreet(row, s).Some? ==> r == AddressPartsStreet(row, s)
    ensures ShortAddressStreet(row, s).None? && AddressPartsStreet(row, s).None? ==> r == TitleStreet(row, s)
    ensures r.Some? ==> |Strip(Shown(row.shortAddress))| > 0 || |row.addressParts| > 0 || |Strip(row.title)| > 0
  {
    var fromShort := ShortAddressStreet(row, s);
    if fromShort.Some? then fromShort
    else
      var fromParts := AddressPartsStreet(row, s);
      if fromParts.Some? then fromParts else TitleStreet(row, s)
  }

  /** A listing whose short address is NaN gets the street "nan": `str()` of NaN is a
      one-word name that no non-street prefix excludes. */
  lemma MissingShortAddressReadsNan(row: Row, s: StreetSearches)
    requires row.shortAddress.None?
    requires s.prefixed("nan").None?
    ensures ExtractStreet(row, s) == Some("nan")
  {
    assert Shown(row.shortAddress) == "nan";
    NanComponents();
    NanIsBareStreetName();
    NanHasNoPrefixedStreet(s);
    assert ShortAddressStreet(row, s) == Some("nan");
  }

  lemma NanHasNoPrefixedStreet(s: StreetSearches)
    requires s.prefixed("nan").None?
    ensures FirstPrefixedStreet(s, ["nan"]).None?
  {
    NanIsLower();
    assert !PrefixedStreet(s, ["nan"][0]);
  }

  lemma NanIsLower()
    ensures Lower("nan") == "nan"
  {
    assert NoUpper("nan");
    LowerOfNoUpper("nan");
  }

  lemma NanComponents()
    ensures Strip("nan") == "nan" && AddressComponents("nan") == ["nan"]
  {
    NanStripped();
    NanHasNoComma();
    SplitWithout("nan", ',');
    assert StripAll(["nan"]) == [Strip("nan")];
  }

  lemma NanHasNoComma()
    ensures ',' !in "nan"
  {
    assert forall k | 0 <= k < |"nan"| :: "nan"[k] != ',';
  }

  lemma NanStripped()
    ensures Strip("nan") == "nan"
  {
    assert "nan"[0] == 'n' && "nan"[2] == 'n';
    StripNoSpaces("nan");
  }

  lemma NanIsBareStreetName()
    ensures BareStreetName("nan")
  {
    NanIsLower();
    NanHasAlpha();
    NanWordCount();
    NanHasNoNonStreetPrefix();
  }

  lemma NanHasAlpha()
    ensures HasAlpha("nan")
  {
    assert IsAlpha("nan"[0]);
  }

  lemma NanWordCount()
    ensures WordCount("nan") == 1
  {
    NanIsOneWord();
  }

  lemma NanHasNoNonStreetPrefix()
    ensures !StartsWithAny("nan", NonStreetPrefixes)
  {
    forall k | 0 <= k < |NonStreetPrefixes| ensures !StartsWith("nan", NonStreetPrefixes[k]) {
      var p := NonStreetPrefixes[k];
      assert p[0] != 'n';
      if |p| <= 3 {
        assert "nan"[..|p|][0] == 'n';
      }
    }
  }

  lemma NanIsOneWord()
    ensures SplitWords("nan") == ["nan"]
  {
    assert FirstWhere("nan", NotSpace) == 0;
    RunLengthOf("nan", [], NotSpace);
    assert "nan" + [] == "nan";
    assert "nan"[3..] == [];
  }

  // ----- address detail -----

  /** A component that carries detail: a detail prefix (house number, lane…) or a digit. */
  predicate IsDetailComponent(part: string, detailPrefixes: seq<string>) {
    StartsWithAny(Lower(part), detailPrefixes) || HasDigit(part)
  }

  /** The leading components that carry detail, up to the first that does not. */
  function LeadingDetails(parts: seq<string>, detailPrefixes: seq<string>): (d: seq<string>)
    ensures |d| <= |parts| && d == parts[..|d|]
    ensures forall k | 0 <= k < |d| :: IsDetailComponent(d[k], detailPrefixes)
    ensures |d| < |parts| ==> !IsDetailComponent(parts[|d|], detailPrefixes)
  {
    parts[..RunLength(parts, p => IsDetailComponent(p, detailPrefixes))]
  }

  /** The loop of `extract_address_detail` that collects detail components and stops
      at the first other one. */
  method CollectDetailParts(parts: seq<string>, detailPrefixes: seq<string>) returns (detail: seq<string>)
    ensures detail == LeadingDetails(parts, detailPrefixes)
  {
    detail := [];
    var i := 0;
    while i < |parts|
      invariant 0 <= i <= |parts| && detail == parts[..i]
      invariant forall k | 0 <= k < i :: IsDetailComponent(parts[k], detailPrefixes)
    {
      if IsDetailComponent(parts[i], detailPrefixes) {
        detail := detail + [parts[i]];
        i := i + 1;
      } else {
        break;
      }
    }
    RunLengthOf(parts[..i], parts[i..], p => IsDetailComponent(p, detailPrefixes));
    assert parts[..i] + parts[i..] == parts;
  }

  /** `\b(mặt\s+phố|mặt\s+đường)\b`. */
  const FrontagePattern: Regex :=
    Cat(WordBoundary, Cat(Alt(Phrase(["mặt", "phố"]), Phrase(["mặt", "đường"])), WordBoundary))

  /** The detail components of the short address, when its first component is not a
      street and carries detail. */
  function ShortAddressDetails(row: Row, streetPrefixes: seq<string>, detailPrefixes: seq<string>): (r: Option<seq<string>>)
    ensures r.Some? ==> |r.value| > 0
    ensures r.Some? ==> forall k | 0 <= k < |r.value| :: IsDetailComponent(r.value[k], detailPrefixes)
  {
    var sa := Shown(row.shortAddress);
    if |sa| == 0 then None
    else
      var parts := AddressComponents(sa);
      var first := Lower(parts[0]);
      if StartsWithAny(first, streetPrefixes) then None
      else if !(StartsWithAny(first, detailPrefixes) || HasDigit(first)) then None
      else
        var d := LeadingDetails(parts, detailPrefixes);
        if |d| == 0 then None else Some(d)
  }

  /** `extract_address_detail`: the detail components joined and lower-cased (the
      'Đường phố' column removed from them and the rest title-cased when it occurs,
      title-cased as a whole when the column is empty); without detail, "Mặt phố" when
      the text mentions a street frontage and "Mặt ngõ" otherwise. */
  function ExtractAddressDetail(row: Row, streetPrefixes: seq<string>, detailPrefixes: seq<string>,
                                titleCase: string -> string): (r: string)
    ensures ShortAddressDetails(row, streetPrefixes, detailPrefixes).None? ==>
              (r == "Mặt phố" <==> Search(FrontagePattern, ListingText(row))) && (r == "Mặt phố" || r == "Mặt ngõ")
    ensures ShortAddressDetails(row, streetPrefixes, detailPrefixes).Some? && |Lower(row.streetColumn)| > 0 &&
            !Contains(Lower(Join(ShortAddressDetails(row, streetPrefixes, detailPrefixes).value, ", ")), Lower(row.streetColumn))
            ==> r == Lower(Join(ShortAddressDetails(row, streetPrefixes, detailPrefixes).value, ", "))
    ensures ShortAddressDetails(row, streetPrefixes, detailPrefixes).Some? && |Lower(row.streetColumn)| == 0
            ==> r == titleCase(Lower(Join(ShortAddressDetails(row, streetPrefixes, detailPrefixes).value, ", ")))
    ensures ShortAddressDetails(row, streetPrefixes, detailPrefixes).Some? && |Lower(row.streetColumn)| > 0 &&
            Contains(Lower(Join(ShortAddressDetails(row, streetPrefixes, detailPrefixes).value, ", ")), Lower(row.streetColumn))
            ==> r == titleCase(ReplaceAll(Lower(Join(ShortAddressDetails(row, streetPrefixes, detailPrefixes).value, ", ")),
                                          Lower(row.streetColumn), ""))
  {
    match ShortAddressDetails(row, streetPrefixes, detailPrefixes)
    case Some(d) =>
      var final := Lower(Join(d, ", "));
      var dp := Lower(row.streetColumn);
      if |dp| == 0 then titleCase(final)
      else if Contains(final, dp) then titleCase(ReplaceAll(final, dp, ""))
      else final
    case None =>
      if Search(FrontagePattern, ListingText(row)) then "Mặt phố" else "Mặt ngõ"
  }
}

=== FILE: numbers.dfy ===
/** The numeric-token parsers. Listings write numbers the Vietnamese way, `.` for
    thousands and `,` for the decimal point, and the parsers differ in how far they
    follow that convention:
    - `ParseNumber` (`DataCleaner._parse_and_clean_number`) reads the first digit run
      with at most one separator, and reads either separator as the decimal point;
    - `ParseWidth` (`parse_and_clean_width`) drops thousands dots when a comma is
      present, and rereads a comma-only token with the comma as a thousands separator:
      as written when the decimal reading exceeds 20 (`ParseWidthAsWritten`), as
      documented when three digits follow the comma (`ParseWidth`);
    - `ParseNumberRefactored` (`RefactoredDataCleaner._parse_and_clean_number`)
      deletes every dot and turns the comma into the decimal point.
    Python's `float()` on the cleaned token is `PyFloat`, and `round(x, 2)` is `Round2`. */
module Numbers {
  import opened Wrappers
  import opened Text

  // ----- values of digit strings -----

  function Pow10(n: nat): (r: nat)
    ensures r >= 1
  {
    if n == 0 then 1 else 10 * Pow10(n - 1)
  }

  function DigitValue(c: char): nat
    requires IsDigit(c)
  {
    c as int - '0' as int
  }

  /** `int(s)` for a string of ASCII digits (0 for the empty string). */
  function DigitsValue(s: string): nat
    requires AllDigits(s)
  {
    if |s| == 0 then 0 else 10 * DigitsValue(s[..|s| - 1]) + DigitValue(s[|s| - 1])
  }

  /** The value of the decimal numeral `intPart.fracPart`. */
  function DecimalValue(intPart: string, fracPart: string): (v: real)
    requires AllDigits(intPart) && AllDigits(fracPart)
    ensures v >= 0.0
  {
    DigitsValue(intPart) as real + DigitsValue(fracPart) as real / Pow10(|fracPart|) as real
  }

  lemma {:induction false} DigitsValueAppend(a: string, b: string)
    requires AllDigits(a) && AllDigits(b)
    ensures AllDigits(a + b)
    ensures DigitsValue(a + b) == DigitsValue(a) * Pow10(|b|) + DigitsValue(b)
  {
    assert AllDigits(a + b) by {
      forall i | 0 <= i < |a + b| ensures IsDigit((a + b)[i]) {
        if i < |a| { assert (a + b)[i] == a[i]; } else { assert (a + b)[i] == b[i - |a|]; }
      }
    }
    if |b| > 0 {
      var b' := b[..|b| - 1];
      var d := DigitValue(b[|b| - 1]);
      assert (a + b)[..|a + b| - 1] == a + b';
      assert (a + b)[|a + b| - 1] == b[|b| - 1];
      DigitsValueAppend(a, b');
      calc {
        DigitsValue(a + b);
        10 * DigitsValue(a + b') + d;
        10 * (DigitsValue(a) * Pow10(|b'|) + DigitsValue(b')) + d;
        { MulAssoc(DigitsValue(a), Pow10(|b'|)); }
        DigitsValue(a) * Pow10(|b|) + (10 * DigitsValue(b') + d);
      }
    } else {
      assert a + b == a;
    }
  }

  lemma MulAssoc(x: nat, y: nat)
    ensures 10 * (x * y) == x * (10 * y)
  {
  }

  lemma DecimalValueNoFraction(a: string)
    requires AllDigits(a)
    ensures DecimalValue(a, "") == DigitsValue(a) as real
  {
  }

  predicate IsNumChar(c: char) { IsDigit(c) || c == '.' || c == ',' }

  predicate IsSeparator(c: char) { c == '.' || c == ',' }

  predicate IsDot(c: char) { c == '.' }

  /** The digit run that starts at the first digit of `s` (`re.search(r"\d+", s).group(0)`). */
  function LeadingDigits(s: string): (d: string)
    ensures AllDigits(d)
    ensures |d| == 0 <==> !HasDigit(s)
  {
    var i := FirstWhere(s, IsDigit);
    var rest := s[i..];
    rest[..RunLength(rest, IsDigit)]
  }

  /** `int(re.search(r"\d+", s).group(0))`, or none when `s` has no digit. */
  function FirstInteger(s: string): (r: Option<nat>)
    ensures r.Some? <==> HasDigit(s)
  {
    var d := LeadingDigits(s);
    if |d| == 0 then None else Some(DigitsValue(d))
  }

  /** `re.search(r"([\d\.,]+)", s).group(1)`, or the empty string when nothing matches. */
  function NumberToken(s: string): (t: string)
    ensures forall k | 0 <= k < |t| :: IsNumChar(t[k])
    ensures |t| == 0 <==> forall k | 0 <= k < |s| :: !IsNumChar(s[k])
  {
    var i := FirstWhere(s, IsNumChar);
    var rest := s[i..];
    rest[..RunLength(rest, IsNumChar)]
  }

  lemma NumberTokenOfNumeral(s: string)
    requires |s| > 0 && forall k | 0 <= k < |s| :: IsNumChar(s[k])
    ensures NumberToken(s) == s
  {
    assert FirstWhere(s, IsNumChar) == 0;
    RunLengthOf(s, [], IsNumChar);
    assert s + [] == s;
  }

  // ----- Python float() and round(x, 2) -----

  /** An unsigned decimal literal: digits with at most one `.`, and at least one digit. */
  function DecimalLiteral(s: string): (r: Option<real>)
    ensures r.Some? ==> r.value >= 0.0
  {
    if exists k | 0 <= k < |s| :: !IsDigit(s[k]) && s[k] != '.' then None
    else
      var dot := FirstWhere(s, IsDot);
      if dot == |s| then
        if |s| == 0 then None else Some(DigitsValue(s) as real)
      else
        var a, b := s[..dot], s[dot + 1..];
        if '.' in b || |a| + |b| == 0 then None
        else
          assert forall k | 0 <= k < |b| :: b[k] == s[dot + 1 + k];
          Some(DecimalValue(a, b))
  }

  /** Python's `float(s)` on the strings the parsers produce: surrounding whitespace,
      an optional sign and an unsigned decimal literal. */
  function PyFloat(s: string): Option<real> {
    var t := Strip(s);
    if |t| > 0 && (t[0] == '-' || t[0] == '+') then
      match DecimalLiteral(t[1..])
      case Some(v) => Some(if t[0] == '-' then -v else v)
      case None => None
    else DecimalLiteral(t)
  }

  lemma PyFloatUnsigned(s: string)
    requires '-' !in s
    ensures PyFloat(s).Some? ==> PyFloat(s).value >= 0.0
  {
    StripIsSlice(s);
    var a, b :| 0 <= a <= b <= |s| && Strip(s) == s[a..b];
    var t := Strip(s);
    if |t| > 0 {
      assert t[0] == s[a];
      assert t[0] != '-';
      if t[0] == '+' {
        assert PyFloat(s) == DecimalLiteral(t[1..]);
      } else {
        assert PyFloat(s) == DecimalLiteral(t);
      }
    }
  }

  /** `float(s)` on a string that starts with a digit and ends without space is the
      value of the unsigned literal. */
  lemma PyFloatOfLiteral(s: string)
    requires |s| > 0 && IsDigit(s[0]) && !IsSpace(s[|s| - 1])
    ensures PyFloat(s) == DecimalLiteral(s)
  {
    StripNoSpaces(s);
  }

  lemma DecimalLiteralOfDigits(a: string)
    requires AllDigits(a) && |a| > 0
    ensures DecimalLiteral(a) == Some(DigitsValue(a) as real)
  {
    assert forall k | 0 <= k < |a| :: !IsDot(a[k]);
    assert FirstWhere(a, IsDot) == |a|;
  }

  /** A literal of digits and one dot, with a digit before the dot, reads as its two
      digit runs. */
  lemma DecimalLiteralAt(s: string, dot: nat)
    requires forall k | 0 <= k < |s| :: IsDigit(s[k]) || s[k] == '.'
    requires 0 < dot < |s| && FirstWhere(s, IsDot) == dot && '.' !in s[dot + 1..]
    ensures DecimalLiteral(s) == Some(DecimalValue(s[..dot], s[dot + 1..]))
  {
  }

  lemma DecimalLiteralOfDecimal(a: string, b: string)
    requires AllDigits(a) && AllDigits(b) && |a| > 0
    ensures DecimalLiteral(a + "." + b) == Some(DecimalValue(a, b))
  {
    var s := a + "." + b;
    assert s == a + ("." + b);
    assert forall k | 0 <= k < |s| :: IsDigit(s[k]) || s[k] == '.' by {
      forall k | 0 <= k < |s| ensures IsDigit(s[k]) || s[k] == '.' {
        if k < |a| { assert s[k] == a[k]; } else if k > |a| { assert s[k] == b[k - |a| - 1]; }
      }
    }
    assert forall k | 0 <= k < |a| :: !IsDot(a[k]);
    FirstWhereAfter(a, "." + b, IsDot);
    assert s[..|a|] == a && s[|a| + 1..] == b;
    assert '.' !in b;
    DecimalLiteralAt(s, |a|);
  }

  lemma PyFloatOfDecimal(a: string, b: string)
    requires AllDigits(a) && AllDigits(b) && |a| > 0
    ensures PyFloat(a + "." + b) == Some(DecimalValue(a, b))
  {
    var s := a + "." + b;
    assert s[0] == a[0];
    assert s[|s| - 1] == if |b| > 0 then b[|b| - 1] else '.';
    PyFloatOfLiteral(s);
    DecimalLiteralOfDecimal(a, b);
  }

  lemma PyFloatOfDigits(a: string)
    requires AllDigits(a) && |a| > 0
    ensures PyFloat(a) == Some(DigitsValue(a) as real)
  {
    PyFloatOfLiteral(a);
    DecimalLiteralOfDigits(a);
  }

  /** `round(x, 2)`, read as rounding half up on the exact value. */
  function Round2(x: real): (r: real)
    ensures x >= 0.0 ==> r >= 0.0
  {
    ((x * 100.0 + 0.5).Floor as real) / 100.0
  }

  /** Rounding never reverses an order. */
  lemma Round2Monotone(x: real, y: real)
    requires x <= y
    ensures Round2(x) <= Round2(y)
  {
    assert x * 100.0 + 0.5 <= y * 100.0 + 0.5;
    assert (x * 100.0 + 0.5).Floor <= (y * 100.0 + 0.5).Floor;
  }

  lemma Round2OfCents(n: int)
    ensures Round2(n as real / 100.0) == n as real / 100.0
  {
    var x := n as real / 100.0;
    assert x * 100.0 == n as real;
    assert (n as real + 0.5).Floor == n;
  }

  lemma Round2OfInteger(n: int)
    ensures Round2(n as real) == n as real
  {
    assert (n as real * 100.0 + 0.5).Floor == n * 100;
  }

  /** A numeral with at most two decimals is already rounded. */
  lemma Round2OfShortDecimal(a: string, b: string)
    requires AllDigits(a) && AllDigits(b) && |b| <= 2
    ensures Round2(DecimalValue(a, b)) == DecimalValue(a, b)
  {
    var n := DigitsValue(a) * 100 + DigitsValue(b) * Pow10(2 - |b|);
    assert Pow10(|b|) * Pow10(2 - |b|) == 100 by {
      if |b| == 0 {} else if |b| == 1 {} else {}
    }
    assert DecimalValue(a, b) == n as real / 100.0;
    Round2OfCents(n);
  }

  // ----- the three parsers -----

  /** `DataCleaner._parse_and_clean_number`: none for a non-string or a string without a
      digit; otherwise the first match of `\d+[\.,]?\d*`, with `,` read as `.`. */
  function ParseNumber(text: Option<string>): (r: Option<real>)
    ensures r.Some? <==> text.Some? && HasDigit(text.value)
    ensures r.Some? ==> r.value >= 0.0
  {
    if text.None? then None
    else
      var i := FirstWhere(text.value, IsDigit);
      if i == |text.value| then None else Some(ReadDecimal(text.value[i..]))
  }

  /** `\d+[\.,]?\d*` read at the start of `rest`, with either separator as the decimal point. */
  function ReadDecimal(rest: string): (v: real)
    ensures v >= 0.0
  {
    var n := RunLength(rest, IsDigit);
    var after := rest[n..];
    var frac := if |after| > 0 && IsSeparator(after[0])
                then after[1..][..RunLength(after[1..], IsDigit)]
                else "";
    DecimalValue(rest[..n], frac)
  }

  /** A token of digits, dots and commas has no minus sign, nor has it once a separator is deleted. */
  lemma NoMinusAfterDeleting(num: string)
    requires forall k | 0 <= k < |num| :: IsNumChar(num[k])
    ensures '-' !in num && '-' !in DeleteChar(num, '.') && '-' !in DeleteChar(num, ',')
  {
    DeleteCharKeepsAbsent(num, '.', '-');
    DeleteCharKeepsAbsent(num, ',', '-');
  }

  /** When a comma-only token is reread with the comma as a thousands separator. */
  datatype CommaRule =
    | ValueAboveTwenty   // as written: the decimal reading exceeds 20
    | ThreeDigitGroup    // as documented: exactly three digits follow the comma

  predicate RereadsComma(rule: CommaRule, num: string, v: real) {
    match rule
    case ValueAboveTwenty => v > 20.0
    case ThreeDigitGroup => |num| >= 4 && num[|num| - 4] == ','
  }

  /** `parse_and_clean_width` under a reread rule: the first run of digits, dots and
      commas; with both separators the dots are dropped and the comma is the decimal
      point; with commas only the comma is the decimal point unless the rule rereads it
      as a thousands separator; the result is rounded to 2 decimals. */
  function ParseWidthUnder(text: Option<string>, rule: CommaRule): (r: Option<real>)
    ensures r.Some? ==> r.value >= 0.0
  {
    if text.None? then None
    else
      var num := NumberToken(text.value);
      if |num| == 0 then None else WidthOfToken(num, rule)
  }

  /** The reading of a token of digits, dots and commas by `parse_and_clean_width`. */
  function WidthOfToken(num: string, rule: CommaRule): (r: Option<real>)
    requires forall k | 0 <= k < |num| :: IsNumChar(num[k])
    ensures r.Some? ==> r.value >= 0.0
  {
    var cleaned := if ',' in num && '.' in num then ReplaceChar(DeleteChar(num, '.'), ',', '.')
                   else if ',' in num then ReplaceChar(num, ',', '.')
                   else num;
    NoMinusAfterDeleting(num);
    PyFloatUnsigned(cleaned);
    match PyFloat(cleaned)
    case None => None
    case Some(v) =>
      if ',' in num && '.' !in num && RereadsComma(rule, num, v) then
        PyFloatUnsigned(DeleteChar(num, ','));
        match PyFloat(DeleteChar(num, ','))
        case None => None
        case Some(w) => Some(Round2(w))
      else Some(Round2(v))
  }

  /** `parse_and_clean_width` as written (test_clean.py:68 rereads when the value exceeds
      20), the reader of the refactored width extractors. */
  function ParseWidthAsWritten(text: Option<string>): (r: Option<real>)
    ensures r.Some? ==> r.value >= 0.0
  {
    ParseWidthUnder(text, ValueAboveTwenty)
  }

  /** `parse_and_clean_width` as its documentation describes it: the evidently intended
      partner of `ParseWidthAsWritten`, which the extractors call. */
  function ParseWidth(text: Option<string>): (r: Option<real>)
    ensures r.Some? ==> r.value >= 0.0
  {
    ParseWidthUnder(text, ThreeDigitGroup)
  }

  /** `RefactoredDataCleaner._parse_and_clean_number`: the first run of digits, dots and
      commas, every dot deleted and the comma made the decimal point, rounded to 2 decimals. */
  function ParseNumberRefactored(text: Option<string>): (r: Option<real>)
    ensures r.Some? ==> r.value >= 0.0
  {
    if text.None? then None
    else
      var num := NumberToken(text.value);
      if |num| == 0 then None else RefactoredOfToken(num)
  }

  /** The reading of a token of digits, dots and commas by the refactored parser. */
  function RefactoredOfToken(num: string): (r: Option<real>)
    requires forall k | 0 <= k < |num| :: IsNumChar(num[k])
    ensures r.Some? ==> r.value >= 0.0
  {
    var cleaned := ReplaceChar(DeleteChar(num, '.'), ',', '.');
    NoMinusAfterDeleting(num);
    PyFloatUnsigned(cleaned);
    match PyFloat(cleaned)
    case None => None
    case Some(v) => Some(Round2(v))
  }

  // ----- what the parsers read -----

  /** `ParseNumber` reads the first digit run and at most one following separator, and
      either separator is a decimal point: "3,5" and "3.5" both give 3.5, and "1.234.567"
      gives 1.234. Text before the number that holds no digit is skipped. */
  lemma ParseNumberReadsDecimal(p: string, a: string, sep: char, b: string, q: string)
    requires !HasDigit(p) && AllDigits(a) && |a| > 0 && IsSeparator(sep) && AllDigits(b)
    requires |q| == 0 || !IsDigit(q[0])
    ensures ParseNumber(Some(p + a + [sep] + b + q)) == Some(DecimalValue(a, b))
  {
    var rest := a + [sep] + b + q;
    assert p + a + [sep] + b + q == p + rest;
    SkipsToFirstDigit(p, rest);
    ReadDecimalOf(a, sep, b, q);
  }

  lemma ReadDecimalOf(a: string, sep: char, b: string, q: string)
    requires AllDigits(a) && |a| > 0 && IsSeparator(sep) && AllDigits(b)
    requires |q| == 0 || !IsDigit(q[0])
    ensures ReadDecimal(a + [sep] + b + q) == DecimalValue(a, b)
  {
    var rest := a + [sep] + b + q;
    assert rest == a + ([sep] + b + q);
    RunLengthOf(a, [sep] + b + q, IsDigit);
    assert RunLength(rest, IsDigit) == |a|;
    assert rest[..|a|] == a;
    var after := rest[|a|..];
    assert after == [sep] + b + q;
    assert after[1..] == b + q;
    RunLengthOf(b, q, IsDigit);
    assert after[1..][..|b|] == b;
  }

  /** A digit run followed by something other than a digit or a separator is read as an integer. */
  lemma ParseNumberReadsInteger(p: string, a: string, q: string)
    requires !HasDigit(p) && AllDigits(a) && |a| > 0
    requires |q| == 0 || (!IsDigit(q[0]) && !IsSeparator(q[0]))
    ensures ParseNumber(Some(p + a + q)) == Some(DigitsValue(a) as real)
  {
    assert p + a + q == p + (a + q);
    SkipsToFirstDigit(p, a + q);
    ReadIntegerOf(a, q);
  }

  lemma ReadIntegerOf(a: string, q: string)
    requires AllDigits(a) && |a| > 0
    requires |q| == 0 || (!IsDigit(q[0]) && !IsSeparator(q[0]))
    ensures ReadDecimal(a + q) == DigitsValue(a) as real
  {
    RunLengthOf(a, q, IsDigit);
    assert RunLength(a + q, IsDigit) == |a|;
    assert (a + q)[..|a|] == a;
    assert (a + q)[|a|..] == q;
    assert !(|q| > 0 && IsSeparator(q[0]));
    DecimalValueNoFraction(a);
  }

  /** Text without a digit in front of the number is skipped. */
  lemma SkipsToFirstDigit(p: string, rest: string)
    requires !HasDigit(p) && |rest| > 0 && IsDigit(rest[0])
    ensures ParseNumber(Some(p + rest)) == Some(ReadDecimal(rest))
  {
    var s := p + rest;
    FirstWhereAfter(p, rest, IsDigit);
    assert FirstWhere(rest, IsDigit) == 0;
    assert s[|p|..] == rest;
  }

  lemma ReplaceCommaInDecimal(a: string, b: string)
    requires ',' !in a && ',' !in b
    ensures ReplaceChar(a + "," + b, ',', '.') == a + "." + b
  {
    var s := a + "," + b;
    var r := ReplaceChar(s, ',', '.');
    forall k | 0 <= k < |s| ensures r[k] == (a + "." + b)[k] {
      if k < |a| { assert s[k] == a[k]; }
      else if k > |a| { assert s[k] == b[k - |a| - 1]; }
    }
  }

  lemma DigitsHaveNoSeparator(a: string)
    requires AllDigits(a)
    ensures ',' !in a && '.' !in a && '-' !in a
  {
  }

  /** `a` separator `b`, for digit strings `a` and `b`, is a numeral token. */
  lemma JoinedIsNumeral(a: string, sep: char, b: string)
    requires AllDigits(a) && AllDigits(b) && IsSeparator(sep)
    ensures forall k | 0 <= k < |a + [sep] + b| :: IsNumChar((a + [sep] + b)[k])
    ensures sep in a + [sep] + b
    ensures DeleteChar(a + [sep] + b, sep) == a + b
  {
    var s := a + [sep] + b;
    forall k | 0 <= k < |s| ensures IsNumChar(s[k]) {
      if k < |a| { assert s[k] == a[k]; } else if k > |a| { assert s[k] == b[k - |a| - 1]; }
    }
    assert s[|a|] == sep;
    DigitsHaveNoSeparator(a);
    DigitsHaveNoSeparator(b);
    DeleteCharOnce(a, sep, b);
  }

  /** "1.234,56" → 1234.56: with both separators the dots are thousands separators. */
  lemma WidthReadsThousandsAndDecimal(a: string, b: string, c: string, rule: CommaRule)
    requires AllDigits(a) && AllDigits(b) && AllDigits(c) && |a| > 0 && |b| > 0
    ensures AllDigits(a + b)
    ensures ParseWidthUnder(Some(a + "." + b + "," + c), rule) == Some(Round2(DecimalValue(a + b, c)))
  {
    DigitsValueAppend(a, b);
    var s := a + "." + b + "," + c;
    var t := b + "," + c;
    JoinedIsNumeral(b, ',', c);
    DigitsHaveNoSeparator(a);
    assert s == a + "." + t;
    assert forall k | 0 <= k < |s| :: IsNumChar(s[k]) by {
      forall k | 0 <= k < |s| ensures IsNumChar(s[k]) {
        if k < |a| { assert s[k] == a[k]; } else if k > |a| { assert s[k] == t[k - |a| - 1]; }
      }
    }
    NumberTokenOfNumeral(s);
    assert s[|a|] == '.' && s[|a| + 1 + |b|] == ',';
    WidthOfBothSeparators(a, b, c, rule);
  }

  lemma WidthOfBothSeparators(a: string, b: string, c: string, rule: CommaRule)
    requires AllDigits(a) && AllDigits(b) && AllDigits(c) && |a| > 0 && |b| > 0
    requires forall k | 0 <= k < |a + "." + b + "," + c| :: IsNumChar((a + "." + b + "," + c)[k])
    requires ',' in a + "." + b + "," + c && '.' in a + "." + b + "," + c
    ensures AllDigits(a + b)
    ensures WidthOfToken(a + "." + b + "," + c, rule) == Some(Round2(DecimalValue(a + b, c)))
  {
    DigitsValueAppend(a, b);
    DigitsHaveNoSeparator(a);
    DigitsHaveNoSeparator(b);
    DigitsHaveNoSeparator(c);
    DeleteDotsBeforeComma(a, b, c);
    DigitsHaveNoSeparator(a + b);
    ReplaceCommaInDecimal(a + b, c);
    PyFloatOfDecimal(a + b, c);
  }

  lemma DeleteDotsBeforeComma(a: string, b: string, c: string)
    requires AllDigits(a) && AllDigits(b) && AllDigits(c)
    ensures DeleteChar(a + "." + b + "," + c, '.') == a + b + "," + c
  {
    var t := b + "," + c;
    assert '.' !in t by {
      forall k | 0 <= k < |t| ensures t[k] != '.' {
        if k < |b| { assert t[k] == b[k]; } else if k > |b| { assert t[k] == c[k - |b| - 1]; }
      }
    }
    DigitsHaveNoSeparator(a);
    DeleteCharOnce(a, '.', t);
    assert a + "." + b + "," + c == a + ['.'] + t;
    assert a + t == a + b + "," + c;
    DeleteCharAbsent(t, '.');
  }

  /** A comma-only token "a,b" is read with the comma as the decimal point, unless the
      rule rereads it, in which case the comma is dropped: under the rule as written a
      decimal reading above 20 is reread; under the documented rule three digits after
      the comma are. */
  lemma WidthReadsCommaOnly(a: string, b: string, rule: CommaRule)
    requires AllDigits(a) && AllDigits(b) && |a| > 0
    ensures AllDigits(a + b)
    ensures ParseWidthUnder(Some(a + "," + b), rule)
         == Some(Round2(if RereadsComma(rule, a + "," + b, DecimalValue(a, b))
                        then DigitsValue(a + b) as real else DecimalValue(a, b)))
  {
    DigitsValueAppend(a, b);
    JoinedIsNumeral(a, ',', b);
    var s := a + "," + b;
    NumberTokenOfNumeral(s);
    WidthOfCommaOnly(a, b, rule, DecimalValue(a, b), DigitsValue(a + b) as real);
  }

  /** How `parse_and_clean_width` reads a token whose only separator is a comma, given
      the two readings of it. */
  lemma WidthOfCommaToken(num: string, rule: CommaRule, v: real, w: real)
    requires forall k | 0 <= k < |num| :: IsNumChar(num[k])
    requires ',' in num && '.' !in num
    requires PyFloat(ReplaceChar(num, ',', '.')) == Some(v)
    requires PyFloat(DeleteChar(num, ',')) == Some(w)
    ensures WidthOfToken(num, rule) == Some(Round2(if RereadsComma(rule, num, v) then w else v))
  {
  }

  lemma WidthOfCommaOnly(a: string, b: string, rule: CommaRule, v: real, w: real)
    requires AllDigits(a) && AllDigits(b) && |a| > 0 && AllDigits(a + b)
    requires forall k | 0 <= k < |a + "," + b| :: IsNumChar((a + "," + b)[k])
    requires ',' in a + "," + b && DeleteChar(a + "," + b, ',') == a + b
    requires v == DecimalValue(a, b) && w == DigitsValue(a + b) as real
    ensures WidthOfToken(a + "," + b, rule) == Some(Round2(if RereadsComma(rule, a + "," + b, v) then w else v))
  {
    CommaReadings(a, b, v, w);
    WidthOfCommaToken(a + "," + b, rule, v, w);
  }

  /** "a,b" has no dot, reads as a.b with the comma made a point, and as the digits of
      `a + b` with the comma deleted. */
  lemma CommaReadings(a: string, b: string, v: real, w: real)
    requires AllDigits(a) && AllDigits(b) && |a| > 0 && AllDigits(a + b)
    requires DeleteChar(a + "," + b, ',') == a + b
    requires v == DecimalValue(a, b) && w == DigitsValue(a + b) as real
    ensures '.' !in a + "," + b
    ensures PyFloat(ReplaceChar(a + "," + b, ',', '.')) == Some(v)
    ensures PyFloat(DeleteChar(a + "," + b, ',')) == Some(w)
  {
    DigitsHaveNoSeparator(a);
    DigitsHaveNoSeparator(b);
    assert a + "," + b == a + ("," + b);
    ReplaceCommaInDecimal(a, b);
    PyFloatOfDecimal(a, b);
    PyFloatOfDigits(a + b);
  }

  lemma SmallValues()
    ensures DigitsValue("1") == 1 && DigitsValue("5") == 5
    ensures DigitsValue("234") == 234 && DigitsValue("500") == 500
    ensures Pow10(1) == 10 && Pow10(2) == 100 && Pow10(3) == 1000
  {
    assert DigitsValue("23") == 23 by { assert "23"[..1] == "2"; }
    assert DigitsValue("234") == 234 by { assert "234"[..2] == "23"; }
    assert DigitsValue("50") == 50 by { assert "50"[..1] == "5"; }
    assert DigitsValue("500") == 500 by { assert "500"[..2] == "50"; }
  }

  /** "1,234" and "5,500" read with the comma as the decimal point: 1.234 and 5.5. */
  lemma CommaDecimalReadings()
    ensures DecimalValue("1", "234") == 1.234
    ensures DecimalValue("5", "500") == 5.5
    ensures DecimalValue("5", "5") == 5.5
  {
    SmallValues();
  }

  /** The same tokens with the comma dropped: 1234 and 5500. */
  lemma CommaDroppedReadings()
    ensures AllDigits("1" + "234") && DigitsValue("1" + "234") == 1234
    ensures AllDigits("5" + "500") && DigitsValue("5" + "500") == 5500
  {
    SmallValues();
    DigitsValueAppend("1", "234");
    DigitsValueAppend("5", "500");
  }

  /** The parser as written misreads the documented thousands example: "1,234" reads as
      1.234 (not above 20) and comes back as 1.23, and "5,500", which its comment says
      must not be read as 5.5, is read as 5.5. */
  lemma WidthAsWrittenMisreadsThousands()
    ensures ParseWidthAsWritten(Some("1,234")) == Some(1.23)
    ensures ParseWidthAsWritten(Some("5,500")) == Some(5.5)
  {
    AsWrittenOneComma234();
    AsWrittenFiveComma500();
  }

  lemma AsWrittenOneComma234()
    ensures ParseWidthAsWritten(Some("1,234")) == Some(1.23)
  {
    var s := "1,234";
    assert s == "1" + "," + "234";
    WidthReadsCommaOnly("1", "234", ValueAboveTwenty);
    CommaDecimalReadings();
    assert Round2(1.234) == 1.23 by { assert (1.234 * 100.0 + 0.5).Floor == 123; }
  }

  lemma AsWrittenFiveComma500()
    ensures ParseWidthAsWritten(Some("5,500")) == Some(5.5)
  {
    var s := "5,500";
    assert s == "5" + "," + "500";
    WidthReadsCommaOnly("5", "500", ValueAboveTwenty);
    CommaDecimalReadings();
    Round2OfCents(550);
  }

  /** The documented examples, which the corrected rule meets: "1.234,56" → 1234.56,
      "5,5" → 5.5, "1,234" → 1234.0, and "5,500" is not read as 5.5. */
  lemma WidthDocumentedExamples()
    ensures ParseWidth(Some("1.234,56")) == Some(1234.56)
    ensures ParseWidth(Some("5,5")) == Some(5.5)
    ensures ParseWidth(Some("1,234")) == Some(1234.0)
    ensures ParseWidth(Some("5,500")) == Some(5500.0)
  {
    WidthOfThousandsExample();
    WidthOfFiveCommaFive();
    WidthOfOneComma234();
    WidthOfFiveComma500();
  }

  lemma WidthOfThousandsExample()
    ensures ParseWidth(Some("1.234,56")) == Some(1234.56)
  {
    var s := "1.234,56";
    assert s == "1" + "." + "234" + "," + "56";
    WidthReadsThousandsAndDecimal("1", "234", "56", ThreeDigitGroup);
    ThousandsExampleValue();
    Round2OfCents(123456);
  }

  lemma ThousandsExampleValue()
    ensures AllDigits("1" + "234") && DecimalValue("1" + "234", "56") == 1234.56
  {
    CommaDroppedReadings();
    assert DigitsValue("56") == 56 by { assert "56"[..1] == "5"; }
    assert Pow10(2) == 100;
  }

  lemma WidthOfFiveCommaFive()
    ensures ParseWidth(Some("5,5")) == Some(5.5)
  {
    var s := "5,5";
    assert s == "5" + "," + "5";
    WidthReadsCommaOnly("5", "5", ThreeDigitGroup);
    CommaDecimalReadings();
    Round2OfCents(550);
  }

  lemma WidthOfOneComma234()
    ensures ParseWidth(Some("1,234")) == Some(1234.0)
  {
    var s := "1,234";
    assert s == "1" + "," + "234";
    WidthReadsCommaOnly("1", "234", ThreeDigitGroup);
    CommaDroppedReadings();
    Round2OfInteger(1234);
  }

  lemma WidthOfFiveComma500()
    ensures ParseWidth(Some("5,500")) == Some(5500.0)
  {
    var s := "5,500";
    assert s == "5" + "," + "500";
    WidthReadsCommaOnly("5", "500", ThreeDigitGroup);
    CommaDroppedReadings();
    Round2OfInteger(5500);
  }

  /** "1.234" → 1234.0: the refactored parser deletes every dot. */
  lemma RefactoredDeletesDots(a: string, b: string)
    requires AllDigits(a) && AllDigits(b) && |a| > 0
    ensures AllDigits(a + b)
    ensures ParseNumberRefactored(Some(a + "." + b)) == Some(DigitsValue(a + b) as real)
  {
    DigitsValueAppend(a, b);
    JoinedIsNumeral(a, '.', b);
    NumberTokenOfNumeral(a + "." + b);
    RefactoredOfDottedDigits(a, b);
  }

  lemma RefactoredOfDottedDigits(a: string, b: string)
    requires AllDigits(a) && AllDigits(b) && |a| > 0
    requires forall k | 0 <= k < |a + "." + b| :: IsNumChar((a + "." + b)[k])
    requires DeleteChar(a + "." + b, '.') == a + b
    ensures AllDigits(a + b)
    ensures RefactoredOfToken(a + "." + b) == Some(DigitsValue(a + b) as real)
  {
    DigitsValueAppend(a, b);
    DigitsHaveNoSeparator(a + b);
    assert ReplaceChar(a + b, ',', '.') == a + b;
    PyFloatOfDigits(a + b);
    Round2OfInteger(DigitsValue(a + b));
  }

  /** "3,5" → 3.5: the refactored parser reads the comma as the decimal point. */
  lemma RefactoredReadsDecimalComma(a: string, b: string)
    requires AllDigits(a) && AllDigits(b) && |a| > 0
    ensures ParseNumberRefactored(Some(a + "," + b)) == Some(Round2(DecimalValue(a, b)))
  {
    JoinedIsNumeral(a, ',', b);
    var s := a + "," + b;
    NumberTokenOfNumeral(s);
    DigitsHaveNoSeparator(a);
    DigitsHaveNoSeparator(b);
    assert '.' !in s by { assert s == a + ("," + b); }
    DeleteCharAbsent(s, '.');
    ReplaceCommaInDecimal(a, b);
    PyFloatOfDecimal(a, b);
  }
}

=== FILE: pattern.dfy ===
/** A small regular-expression language, enough to write out the fixed patterns whose
    only use in the source is the yes/no answer of `re.search` (the main-road patterns
    and the facade-count table). `MatchAt` is the set-theoretic meaning of a pattern;
    for these patterns (no look-around, no back-references) a backtracking engine finds
    a match exactly when some substring is in that meaning, so `Search` is `re.search`
    read as a boolean. */
module Pattern {
  import opened Text

  datatype Regex =
    | Lit(text: string)              // the literal characters
    | Spaces1                         // \s+
    | Spaces0                         // \s*
    | Digits(lo: nat, hi: nat)        // \d{lo,hi}
    | WordBoundary                    // \b
    | Alt(left: Regex, right: Regex)  // left|right
    | Cat(first: Regex, second: Regex)
    | Opt(body: Regex)                // (?:body)?

  /** The pattern matches exactly `s[i..j]`. */
  predicate MatchAt(r: Regex, s: string, i: nat, j: nat)
    requires i <= j <= |s|
    decreases r
  {
    match r
    case Lit(t) => j == i + |t| && s[i..j] == t
    case Spaces1 => i < j && forall k | i <= k < j :: IsSpace(s[k])
    case Spaces0 => forall k | i <= k < j :: IsSpace(s[k])
    case Digits(lo, hi) => lo <= j - i <= hi && forall k | i <= k < j :: IsDigit(s[k])
    case WordBoundary => i == j && Boundary(s, i)
    case Alt(a, b) => MatchAt(a, s, i, j) || MatchAt(b, s, i, j)
    case Cat(a, b) => exists m | i <= m <= j :: MatchAt(a, s, i, m) && MatchAt(b, s, m, j)
    case Opt(a) => i == j || MatchAt(a, s, i, j)
  }

  /** `re.search(r, s) is not None`. */
  predicate Search(r: Regex, s: string) {
    exists i, j | 0 <= i <= j <= |s| :: MatchAt(r, s, i, j)
  }

  /** `a|b|c…` for a non-empty list of alternatives. */
  function AnyOf(alts: seq<Regex>): Regex
    requires |alts| > 0
  {
    if |alts| == 1 then alts[0] else Alt(alts[0], AnyOf(alts[1..]))
  }

  /** Literal alternatives `w1|w2|…`. */
  function Words(ws: seq<string>): Regex
    requires |ws| > 0
  {
    if |ws| == 1 then Lit(ws[0]) else Alt(Lit(ws[0]), Words(ws[1..]))
  }

  /** The concatenation of a non-empty list of patterns. */
  function Seq(parts: seq<Regex>): Regex
    requires |parts| > 0
  {
    if |parts| == 1 then parts[0] else Cat(parts[0], Seq(parts[1..]))
  }

  lemma SeqOfFour(r0: Regex, r1: Regex, r2: Regex, r3: Regex)
    ensures Seq([r0, r1, r2, r3]) == Cat(r0, Cat(r1, Cat(r2, r3)))
  {
    assert [r2, r3][1..] == [r3];
    assert Seq([r2, r3]) == Cat(r2, r3);
    assert [r1, r2, r3][1..] == [r2, r3];
    assert Seq([r1, r2, r3]) == Cat(r1, Cat(r2, r3));
    assert [r0, r1, r2, r3][1..] == [r1, r2, r3];
  }

  /** Words separated by `\s+`, as in `mặt\s+phố`. */
  function Phrase(ws: seq<string>): Regex
    requires |ws| > 0
  {
    if |ws| == 1 then Lit(ws[0]) else Cat(Lit(ws[0]), Cat(Spaces1, Phrase(ws[1..])))
  }

  /** `re.search` succeeds for some pattern of the list. */
  predicate SearchAny(rs: seq<Regex>, s: string) {
    exists k | 0 <= k < |rs| :: Search(rs[k], s)
  }

  // ----- helper facts used to exhibit matches -----

  lemma LitMatches(t: string, s: string, i: nat)
    requires OccursAt(s, t, i)
    ensures MatchAt(Lit(t), s, i, i + |t|)
  {
  }

  lemma CatMatches(a: Regex, b: Regex, s: string, i: nat, m: nat, j: nat)
    requires i <= m <= j <= |s|
    requires MatchAt(a, s, i, m) && MatchAt(b, s, m, j)
    ensures MatchAt(Cat(a, b), s, i, j)
  {
  }

  lemma {:induction false} WordsMatches(ws: seq<string>, k: nat, s: string, i: nat)
    requires 0 <= k < |ws| && OccursAt(s, ws[k], i)
    ensures MatchAt(Words(ws), s, i, i + |ws[k]|)
  {
    if k > 0 {
      assert ws[1..][k - 1] == ws[k];
      WordsMatches(ws[1..], k - 1, s, i);
      assert Words(ws) == Alt(Lit(ws[0]), Words(ws[1..]));
    } else {
      assert MatchAt(Lit(ws[0]), s, i, i + |ws[0]|);
    }
  }

  lemma SingleSpaceMatches(s: string, i: nat)
    requires i < |s| && s[i] == ' '
    ensures MatchAt(Spaces1, s, i, i + 1)
  {
  }
}

=== FILE: pipeline.dfy ===
/** The small decisions around the scraping pipeline: whether a CSV save appends and
    writes a header, which slice of the URL list is scraped and how many workers share
    it. The file system's answers ("does the file exist") and the configuration are
    parameters. */
module Pipeline {
  import Chunks

  // ----- the CSV save mode -----

  /** What a save does: nothing for empty data, else a write that appends or overwrites,
      with or without the header row. */
  datatype SaveAction = NothingToSave | WriteRows(append: bool, header: bool)

  /** `utils.save_to_csv`'s mode and header; a URL list is always overwritten with its
      header. */
  function UtilsSave<T>(data: seq<T>, appendMode: bool, fileExists: bool, isUrlList: bool): (r: SaveAction)
    ensures r.NothingToSave? <==> |data| == 0
  {
    if |data| == 0 then NothingToSave
    else WriteRows(appendMode && fileExists && !isUrlList, !(appendMode && fileExists) || isUrlList)
  }

  /** `main.save_details_to_csv`'s mode and header. */
  function MainSave<T>(details: seq<T>, appendMode: bool, fileExists: bool): (r: SaveAction)
    ensures r.NothingToSave? <==> |details| == 0
  {
    if |details| == 0 then NothingToSave
    else WriteRows(appendMode && fileExists, !(appendMode && fileExists))
  }

  /** The header row is written exactly when the file is overwritten, and rows are only
      appended to a file that exists in append mode. */
  lemma HeaderIffOverwrite<T>(data: seq<T>, appendMode: bool, fileExists: bool, isUrlList: bool)
    requires |data| > 0
    ensures var r := UtilsSave(data, appendMode, fileExists, isUrlList);
      r.header == !r.append && (r.append <==> appendMode && fileExists && !isUrlList)
    ensures var r := MainSave(data, appendMode, fileExists);
      r.header == !r.append && (r.append <==> appendMode && fileExists)
  {
  }

  /** For listing details the two savers agree. */
  lemma SaversAgreeOnDetails<T>(details: seq<T>, appendMode: bool, fileExists: bool)
    ensures UtilsSave(details, appendMode, fileExists, false) == MainSave(details, appendMode, fileExists)
  {
  }

  // ----- the URL slice and the workers -----

  /** `MAX_WORKERS`. */
  const MaxWorkers := 2

  /** Python's reading of a slice bound: a negative bound counts from the end, and both
      are clamped to the list. */
  function SliceIndex(i: int, len: nat): (r: nat)
    ensures r <= len
  {
    if i < 0 then (if len + i < 0 then 0 else len + i) else if i > len then len else i
  }

  /** `s[lo:hi]`. */
  function PySlice<T>(s: seq<T>, lo: int, hi: int): seq<T> {
    var a, b := SliceIndex(lo, |s|), SliceIndex(hi, |s|);
    if a < b then s[a..b] else []
  }

  /** `urls[start: start + count] if count else urls[start:]`. */
  function SelectUrls<T>(urls: seq<T>, start: int, count: int): seq<T> {
    if count != 0 then PySlice(urls, start, start + count) else PySlice(urls, start, |urls|)
  }

  /** `min(MAX_WORKERS, len(urls_to_scrape))`. */
  function Workers(selected: nat): (w: nat)
    ensures w <= MaxWorkers && w <= selected
    ensures w == 0 <==> selected == 0
  {
    if MaxWorkers <= selected then MaxWorkers else selected
  }

  /** What `run_scrape_details` hands to the pool: nothing when there is no URL, else one
      chunk per worker. */
  function WorkPlan<T>(urls: seq<T>, start: int, count: int): Chunks.Slices<T> {
    var selected := SelectUrls(urls, start, count);
    var workers := Workers(|selected|);
    if workers == 0 then Chunks.Yields([]) else Chunks.UtilsChunks(selected, workers)
  }

  /** A non-negative start and a positive count pick the URLs at `start` up to
      `start + count`, as far as the list goes. */
  lemma SelectionIsWindow<T>(urls: seq<T>, start: nat, count: nat)
    requires count > 0 && start <= |urls|
    ensures SelectUrls(urls, start, count) ==
      urls[start..if start + count <= |urls| then start + count else |urls|]
  {
  }

  /** The plan hands every selected URL to exactly one worker, in order, with at most
      `MAX_WORKERS` workers and none of them idle. */
  lemma WorkPlanCoversSelection<T>(urls: seq<T>, start: int, count: int)
    ensures var plan := WorkPlan(urls, start, count);
      plan.Yields? && |plan.slices| <= MaxWorkers &&
      Chunks.Flatten(plan.slices) == SelectUrls(urls, start, count) &&
      forall i | 0 <= i < |plan.slices| :: |plan.slices[i]| >= 1
  {
    var selected := SelectUrls(urls, start, count);
    var workers := Workers(|selected|);
    if workers > 0 {
      Chunks.ChunksCoverList(selected, workers);
      forall i | 0 <= i < workers
        ensures |Chunks.UtilsChunks(selected, workers).slices[i]| >= 1
      {
        Chunks.NoEmptyChunk(selected, workers, i);
      }
    } else {
      assert |selected| == 0;
      assert Chunks.Flatten<T>([]) == [];
    }
  }
}

=== FILE: pricing.dfy ===
/** The publication date and the asking price, both read from the `main_info` panel.
    A price is written "2,5 tỷ" (billions of đồng), "800 triệu" (millions) or as a
    bare number, with `,` as the decimal point; "Thỏa thuận" (negotiable) is no price. */
module Pricing {
  import opened Wrappers
  import opened Text
  import opened Numbers
  import opened Listing

  // ----- extract_published_date -----

  predicate IsDateItem(item: InfoItem) { item.title == "Ngày đăng" }

  /** `extract_published_date`: the value of the first "Ngày đăng" entry. */
  function ExtractPublishedDate(mainInfo: seq<InfoItem>): (r: Option<string>)
    ensures r.Some? ==> exists k | 0 <= k < |mainInfo| ::
              IsDateItem(mainInfo[k]) && mainInfo[k].value == Str(r.value) &&
              forall j | 0 <= j < k :: !IsDateItem(mainInfo[j])
    ensures (forall k | 0 <= k < |mainInfo| :: !IsDateItem(mainInfo[k])) ==> r.None?
    ensures forall k | 0 <= k < |mainInfo| && IsDateItem(mainInfo[k]) &&
                       (forall j | 0 <= j < k :: !IsDateItem(mainInfo[j])) :: r == Value(mainInfo[k])
  {
    var i := FirstWhere(mainInfo, IsDateItem);
    if i < |mainInfo| then Value(mainInfo[i]) else None
  }

  // ----- extract_total_price -----

  /** The unit a price is written in: tỷ (10^9 đồng), triệu (10^6 đồng) or none. */
  datatype PriceUnit = Billions | Millions | Dong

  /** `float(number) * unit`; none where `float()` raises. */
  function Scaled(v: Option<real>, unit: PriceUnit): Option<real> {
    match v
    case None => None
    case Some(x) =>
      match unit
      case Billions => Some(x * 1000000000.0)
      case Millions => Some(x * 1000000.0)
      case Dong => Some(x)
  }

  lemma ScaledValue(x: Option<real>, v: real)
    requires x == Some(v)
    ensures Scaled(x, Billions) == Some(v * 1000000000.0)
    ensures Scaled(x, Millions) == Some(v * 1000000.0)
  {
  }

  /** The normalisation of `_convert`: lower-case, `,` to `.`, strip. */
  function NormalisePrice(price: string): string {
    Strip(ReplaceChar(Lower(price), ',', '.'))
  }

  /** The unit dispatch of `_convert` on normalised text: a "tỷ" value is billions,
      else a "triệu" value millions, else a plain number; none where `float()` raises.
      The unit word is removed before `float()` reads the rest. */
  function PriceOfText(t: string): Option<real> {
    var billions := Contains(t, "tỷ");
    var millions := !billions && Contains(t, "triệu");
    var number := if billions then ReplaceAll(t, "tỷ", "")
                  else if millions then ReplaceAll(t, "triệu", "")
                  else t;
    Scaled(PyFloat(number), if billions then Billions else if millions then Millions else Dong)
  }

  /** The inner `_convert` of `extract_total_price`. */
  function ConvertPrice(price: string): Option<real> {
    PriceOfText(NormalisePrice(price))
  }

  /** An entry the loop acts on: a "Mức giá" entry whose value is not JSON `null` and
      not "thỏa thuận". A missing value reads as "", which `float()` rejects. */
  predicate IsPriceItem(item: InfoItem) {
    item.title == "Mức giá" &&
    match item.value
    case Null => false
    case Absent => true
    case Str(v) => Strip(Lower(v)) != "thỏa thuận"
  }

  function PriceText(item: InfoItem): string {
    if item.value.Str? then item.value.text else ""
  }

  /** The entry the scan stops at: the first price entry, if any. */
  function PriceEntry(items: seq<InfoItem>): (r: Option<InfoItem>)
    ensures r.Some? ==> IsPriceItem(r.value) && r.value in items
    ensures r.None? <==> forall k | 0 <= k < |items| :: !IsPriceItem(items[k])
    ensures r.Some? ==> exists k | 0 <= k < |items| ::
              items[k] == r.value && IsPriceItem(items[k]) && forall j | 0 <= j < k :: !IsPriceItem(items[j])
    ensures forall k | 0 <= k < |items| && IsPriceItem(items[k]) &&
                       (forall j | 0 <= j < k :: !IsPriceItem(items[j])) :: r == Some(items[k])
  {
    var i := FirstWhere(items, IsPriceItem);
    if i < |items| then Some(items[i]) else None
  }

  /** The price the scan settles on: the conversion of the first price entry, NaN
      (none) when there is none or when the conversion raises. */
  function PriceOf(items: seq<InfoItem>): Option<real> {
    match PriceEntry(items)
    case None => None
    case Some(item) => ConvertPrice(PriceText(item))
  }

  /** `extract_total_price`: the loop over `main_info` that returns at the first price
      entry. */
  method ExtractTotalPrice(mainInfo: seq<InfoItem>) returns (price: Option<real>)
    ensures price == PriceOf(mainInfo)
  {
    var i := 0;
    while i < |mainInfo|
      invariant 0 <= i <= |mainInfo|
      invariant forall j | 0 <= j < i :: !IsPriceItem(mainInfo[j])
    {
      if IsPriceItem(mainInfo[i]) {
        assert FirstWhere(mainInfo, IsPriceItem) == i;
        assert PriceEntry(mainInfo) == Some(mainInfo[i]);
        price := ConvertPrice(PriceText(mainInfo[i]));
        return;
      }
      i := i + 1;
    }
    assert PriceEntry(mainInfo) == None;
    price := None;
  }

  /** Entries the loop skips (other titles, `null` values, "thỏa thuận") do not change
      the entry it stops at, hence not the price. */
  lemma SkippedEntriesIgnored(skipped: seq<InfoItem>, rest: seq<InfoItem>)
    requires forall k | 0 <= k < |skipped| :: !IsPriceItem(skipped[k])
    ensures PriceEntry(skipped + rest) == PriceEntry(rest)
    ensures PriceOf(skipped + rest) == PriceOf(rest)
  {
    FirstWhereAfter(skipped, rest, IsPriceItem);
    var i := FirstWhere(rest, IsPriceItem);
    if i < |rest| {
      assert (skipped + rest)[|skipped| + i] == rest[i];
    }
  }

  /** A negotiable price, in any ASCII capitalisation, is skipped. */
  lemma NegotiableIsSkipped(v: string, ext: string)
    requires Strip(Lower(v)) == "thỏa thuận"
    ensures !IsPriceItem(InfoItem("Mức giá", Str(v), ext))
  {
  }

  // ----- conversions of the three written forms -----

  lemma DigitsHaveNoUpper(a: string)
    requires AllDigits(a)
    ensures NoUpper(a) && ',' !in a && '.' !in a && ' ' !in a
    ensures forall c | c in a :: IsDigit(c)
  {
  }

  /** A string without capitals, commas or surrounding space is already normalised. */
  lemma Normalised(p: string)
    requires NoUpper(p) && ',' !in p
    requires |p| > 0 && !IsSpace(p[0]) && !IsSpace(p[|p| - 1])
    ensures NormalisePrice(p) == p
  {
    LowerOfNoUpper(p);
    ReplaceCharAbsent(p, ',', '.');
    StripNoSpaces(p);
  }

  /** Normalising `a,rest` turns its decimal comma into a dot. */
  lemma NormaliseDecimalComma(a: string, rest: string)
    requires AllDigits(a) && |a| > 0
    requires NoUpper(rest) && ',' !in rest && |rest| > 0 && !IsSpace(rest[|rest| - 1])
    ensures NormalisePrice(a + "," + rest) == a + "." + rest
  {
    var p := a + "," + rest;
    var q := a + "." + rest;
    DigitsHaveNoUpper(a);
    NoUpper3(a, ",", rest);
    LowerOfNoUpper(p);
    DecimalCommaToDot(a, rest);
    assert q[0] == a[0] && q[|q| - 1] == rest[|rest| - 1];
    StripNoSpaces(q);
  }

  /** Turning the decimal comma of `a,b…` into a dot. */
  lemma DecimalCommaToDot(a: string, b: string)
    requires ',' !in a && ',' !in b
    ensures ReplaceChar(a + "," + b, ',', '.') == a + "." + b
  {
    assert a + "," + b == a + ([','] + b);
    ReplaceCharConcat(a, [','] + b, ',', '.');
    ReplaceCharConcat([','], b, ',', '.');
    ReplaceCharAbsent(a, ',', '.');
    ReplaceCharAbsent(b, ',', '.');
    assert a + "." + b == a + (['.'] + b);
  }

  lemma NoUpper3(a: string, b: string, c: string)
    requires NoUpper(a) && NoUpper(b) && NoUpper(c)
    ensures NoUpper(a + b + c)
  {
    NoUpperConcat(a, b);
    NoUpperConcat(a + b, c);
  }

  /** `sub in s` fails when `s` lacks some character of `sub`. */
  lemma NotContained(s: string, sub: string, c: char)
    requires c in sub && c !in s
    ensures !Contains(s, sub)
  {
  }

  /** `float()` of a literal followed by one space. */
  lemma PyFloatTrailingSpace(n: string, sp: char)
    requires |n| > 0 && IsDigit(n[0]) && !IsSpace(n[|n| - 1]) && IsSpace(sp)
    ensures PyFloat(n + [sp]) == DecimalLiteral(n)
  {
    StripTrailingSpace(n, sp);
  }

  /** `float()` rejects a literal with an inner space. */
  lemma PyFloatRejectsSpace(s: string, k: nat)
    requires 0 < k < |s| - 1 && IsDigit(s[0]) && !IsSpace(s[|s| - 1]) && s[k] == ' '
    ensures PyFloat(s) == None
  {
    PyFloatOfLiteral(s);
    DecimalLiteralRejects(s, k);
  }

  lemma DecimalLiteralRejects(s: string, k: nat)
    requires k < |s| && !IsDigit(s[k]) && s[k] != '.'
    ensures DecimalLiteral(s) == None
  {
  }

  /** What the unit lemmas need of a numeral: it starts with a digit, does not end in
      a space, and has neither of the letters of "tỷ". */
  predicate NumeralLike(n: string) {
    |n| > 0 && IsDigit(n[0]) && !IsSpace(n[|n| - 1]) && 't' !in n && 'ỷ' !in n
  }

  /** Digit strings, and digit strings around one dot, are such numerals. */
  lemma DigitsAreNumeralLike(a: string, b: string)
    requires AllDigits(a) && AllDigits(b) && |a| > 0
    ensures NumeralLike(a) && NumeralLike(a + "." + b)
    ensures NoUpper(a) && NoUpper(b) && ',' !in a && ',' !in b
  {
    var n := a + "." + b;
    DigitsHaveNoUpper(a);
    DigitsHaveNoUpper(b);
    assert n[0] == a[0] && n[|n| - 1] != ' ';
  }

  // billions

  /** "a,b tỷ" is `float("a.b")` billion, whatever white space (a no-break space
      included) separates the number from the unit: the decimal comma becomes a point,
      the space is stripped and the unit multiplies by 10^9. With digits a and b that value is `DecimalValue(a, b)`
      (`DecimalLiteralOfDecimal`). */
  lemma PriceInBillions(a: string, b: string, v: real, sp: char)
    requires NoUpper(a) && NoUpper(b) && ',' !in a && ',' !in b && IsSpace(sp)
    requires NumeralLike(a + "." + b) && DecimalLiteral(a + "." + b) == Some(v)
    ensures ConvertPrice(a + "," + b + [sp] + "tỷ") == Some(v * 1000000000.0)
  {
    BillionsNormalised(a, b, sp);
    BillionsText(a + "." + b, v, sp);
  }

  lemma BillionsNormalised(a: string, b: string, sp: char)
    requires NoUpper(a) && NoUpper(b) && ',' !in a && ',' !in b && IsSpace(sp)
    requires NumeralLike(a + "." + b)
    ensures NormalisePrice(a + "," + b + [sp] + "tỷ") == (a + "." + b) + [sp] + "tỷ"
  {
    var unit := [sp] + "tỷ";
    var p := a + "," + b + [sp] + "tỷ";
    var q := (a + "." + b) + [sp] + "tỷ";
    NoUpperConcat(b, unit);
    NoUpper3(a, ",", b + unit);
    assert p == a + "," + (b + unit);
    LowerOfNoUpper(p);
    DecimalCommaToDot(a, b + unit);
    assert a + "." + (b + unit) == q;
    assert q[0] == (a + "." + b)[0];
    StripNoSpaces(q);
  }

  lemma BillionsText(n: string, v: real, sp: char)
    requires NumeralLike(n) && DecimalLiteral(n) == Some(v) && IsSpace(sp)
    ensures PriceOfText(n + [sp] + "tỷ") == Some(v * 1000000000.0)
  {
    BillionsLiteral(n, sp);
    ScaledValue(DecimalLiteral(n), v);
  }

  lemma BillionsLiteral(n: string, sp: char)
    requires NumeralLike(n) && IsSpace(sp)
    ensures PriceOfText(n + [sp] + "tỷ") == Scaled(DecimalLiteral(n), Billions)
  {
    BillionsUnitForm(n, sp);
    PyFloatTrailingSpace(n, sp);
  }

  lemma BillionsUnitForm(n: string, sp: char)
    requires 't' !in n && IsSpace(sp)
    ensures PriceOfText(n + [sp] + "tỷ") == Scaled(PyFloat(n + [sp]), Billions)
  {
    var q := n + [sp] + "tỷ";
    assert Contains(q, "tỷ") by { assert OccursAt(q, "tỷ", |n| + 1); }
    BillionsUnitRemoved(n, sp);
  }

  lemma BillionsUnitRemoved(n: string, sp: char)
    requires 't' !in n && IsSpace(sp)
    ensures ReplaceAll(n + [sp] + "tỷ", "tỷ", "") == n + [sp]
  {
    assert 't' !in n + [sp];
    ReplaceAllAfter(n + [sp], "tỷ", "tỷ", "");
  }

  // millions

  /** "a triệu" is `float("a")` million. With a digit string a that value is
      `DigitsValue(a)` (`DecimalLiteralOfDigits`). */
  lemma PriceInMillions(a: string, v: real)
    requires NumeralLike(a) && NoUpper(a) && ',' !in a && DecimalLiteral(a) == Some(v)
    ensures ConvertPrice(a + " triệu") == Some(v * 1000000.0)
  {
    var p := a + " triệu";
    NoUpperConcat(a, " triệu");
    assert p[0] == a[0];
    Normalised(p);
    MillionsText(a, v);
  }

  lemma MillionsText(a: string, v: real)
    requires NumeralLike(a) && DecimalLiteral(a) == Some(v)
    ensures PriceOfText(a + " triệu") == Some(v * 1000000.0)
  {
    MillionsLiteral(a);
    ScaledValue(DecimalLiteral(a), v);
  }

  lemma MillionsLiteral(a: string)
    requires NumeralLike(a)
    ensures PriceOfText(a + " triệu") == Scaled(DecimalLiteral(a), Millions)
  {
    MillionsUnitForm(a);
    PyFloatTrailingSpace(a, ' ');
  }

  lemma MillionsUnitForm(a: string)
    requires NumeralLike(a)
    ensures PriceOfText(a + " triệu") == Scaled(PyFloat(a + " "), Millions)
  {
    MillionsHasNoBillions(a);
    MillionsHasUnit(a);
    MillionsUnitRemoved(a);
  }

  lemma MillionsHasNoBillions(a: string)
    requires 'ỷ' !in a
    ensures !Contains(a + " triệu", "tỷ")
  {
    NotContained(a + " triệu", "tỷ", 'ỷ');
  }

  lemma MillionsHasUnit(a: string)
    ensures Contains(a + " triệu", "triệu")
  {
    assert OccursAt(a + " triệu", "triệu", |a| + 1);
  }

  lemma MillionsUnitRemoved(a: string)
    requires 't' !in a
    ensures ReplaceAll(a + " triệu", "triệu", "") == a + " "
  {
    assert 't' !in a + " ";
    assert a + " triệu" == (a + " ") + "triệu";
    ReplaceAllAfter(a + " ", "triệu", "triệu", "");
  }

  // plain numbers

  /** A bare "a,b" is read with the comma as the decimal point. */
  lemma PlainPrice(a: string, b: string)
    requires AllDigits(a) && AllDigits(b) && |a| > 0 && |b| > 0
    ensures ConvertPrice(a + "," + b) == Some(DecimalValue(a, b))
  {
    DigitsHaveNoUpper(b);
    NormaliseDecimalComma(a, b);
    PlainText(a, b);
  }

  lemma PlainText(a: string, b: string)
    requires AllDigits(a) && AllDigits(b) && |a| > 0
    ensures PriceOfText(a + "." + b) == Some(DecimalValue(a, b))
  {
    var q := a + "." + b;
    DigitsHaveNoUpper(a);
    DigitsHaveNoUpper(b);
    assert 't' !in q;
    NotContained(q, "tỷ", 't');
    NotContained(q, "triệu", 't');
    PyFloatOfDecimal(a, b);
  }

  // mixed units

  /** "a tỷ b triệu" is NaN: the billions branch is taken first, and what is left after
      removing "tỷ" still holds "triệu", which `float()` rejects. */
  lemma MixedUnitsGiveNaN(a: string, b: string)
    requires AllDigits(a) && AllDigits(b) && |a| > 0
    ensures ConvertPrice(a + " tỷ " + b + " triệu") == None
  {
    var p := a + " tỷ " + b + " triệu";
    DigitsHaveNoUpper(a);
    DigitsHaveNoUpper(b);
    NoUpper3(a, " tỷ ", b + " triệu");
    assert p == a + " tỷ " + (b + " triệu");
    assert p[0] == a[0];
    Normalised(p);
    MixedText(a, b);
  }

  lemma MixedText(a: string, b: string)
    requires AllDigits(a) && AllDigits(b) && |a| > 0
    ensures PriceOfText(a + " tỷ " + b + " triệu") == None
  {
    var p := a + " tỷ " + b + " triệu";
    var head := a + " ";
    var tail := " " + b + " triệu";
    DigitsHaveNoUpper(a);
    DigitsHaveNoUpper(b);
    assert p == head + ("tỷ" + tail);
    assert Contains(p, "tỷ") by { assert OccursAt(p, "tỷ", |head|); }
    var rest := head + tail;
    assert ReplaceAll(p, "tỷ", "") == rest by {
      assert 't' !in head;
      ReplaceAllAfter(head, "tỷ" + tail, "tỷ", "");
      ReplaceAllTwoChars(tail);
    }
    assert rest[0] == a[0] && rest[|rest| - 1] == 'u' && rest[|a|] == ' ';
    PyFloatRejectsSpace(rest, |a|);
  }

  lemma ReplaceAllTwoChars(tail: string)
    requires 'ỷ' !in tail
    ensures ReplaceAll("tỷ" + tail, "tỷ", "") == tail
  {
    var s := "tỷ" + tail;
    assert s[..2] == "tỷ";
    assert s[2..] == tail;
    ReplaceAllWithout(tail, "tỷ", "", 'ỷ');
  }
}

=== FILE: refactored_floors.dfy ===
/** `RefactoredDataCleaner.extract_num_floors`: the regex-only floor count of the
    refactored cleaner. It reads the `other_info` panel, then an explicit total
    ("gồm 5 tầng"), then a composite description ("1 trệt 2 lầu") whose counts are
    summed, then the largest floor mention, then the single-storey phrases. The regex
    scans are parameters: `explicit` is the number captured by
    `(?:gồm|tổng cộng|có tất cả)\s*(\d+)\s*(?:tầng|lầu|tấm|mê)`, `tokens` the groups of
    `(\d+|<number word>)\s*(?:tầng|lầu|tấm|mê)` and `composite` the counts of
    `(\d+)\s*(trệt|lửng|gác|tầng|lầu|tấm|mê)`. */
module RefactoredFloors {
  import opened Wrappers
  import opened Text
  import opened Numbers
  import opened Listing
  import Floors

  // ----- exclude_context -----

  /** The units of `exclude_context`, `\d+\s*(m|m2|mét|triệu|tỷ)\b`. */
  const Units: seq<string> := ["m", "m2", "mét", "triệu", "tỷ"]

  predicate AllSpaces(s: string) {
    forall i | 0 <= i < |s| :: IsSpace(s[i])
  }

  /** `exclude_context.search(tok)`: a run of digits, optional white space, a unit and a
      word boundary somewhere in the token. */
  predicate UnitContext(tok: string) {
    exists i, j, k, u | 0 <= i < j <= k <= |tok| && 0 <= u < |Units| ::
      AllDigits(tok[i..j]) && AllSpaces(tok[j..k]) && OccursAt(tok, Units[u], k) &&
      Boundary(tok, k + |Units[u]|)
  }

  /** Every unit starts with a letter. */
  lemma UnitsStartWithLetters(u: nat)
    requires u < |Units|
    ensures |Units[u]| > 0 && !IsDigit(Units[u][0])
  {
    assert u == 0 || u == 1 || u == 2 || u == 3 || u == 4;
  }

  /** A digit string holds no unit, so `exclude_context` never rejects it. */
  lemma DigitsHaveNoUnitContext(tok: string)
    requires AllDigits(tok)
    ensures !UnitContext(tok)
  {
    forall k, u | 0 <= k <= |tok| && 0 <= u < |Units|
      ensures !OccursAt(tok, Units[u], k)
    {
      UnitsStartWithLetters(u);
      if k + |Units[u]| <= |tok| {
        assert tok[k..k + |Units[u]|][0] == tok[k];
      }
    }
  }

  /** A token without a digit (a number word) holds no digit run, so `exclude_context`
      never rejects it either. */
  lemma WordsHaveNoUnitContext(tok: string)
    requires !HasDigit(tok)
    ensures !UnitContext(tok)
  {
    forall i, j | 0 <= i < j <= |tok|
      ensures !AllDigits(tok[i..j])
    {
      assert tok[i..j][0] == tok[i];
    }
  }

  // ----- the candidates and the composite total -----

  /** `candidate_numbers`: the values of the tokens `exclude_context` lets through, in order. */
  function RefCandidates(tokens: seq<string>): seq<nat> {
    if |tokens| == 0 then []
    else
      var last := tokens[|tokens| - 1];
      var v := Floors.TokenValue(last);
      RefCandidates(tokens[..|tokens| - 1]) + (if !UnitContext(last) && v.Some? then [v.value] else [])
  }

  /** `total_from_composite`: the sum of the counts. */
  function Sum(counts: seq<nat>): nat {
    if |counts| == 0 then 0 else Sum(counts[..|counts| - 1]) + counts[|counts| - 1]
  }

  /** The refactored floor count. The emptiness test of the text never succeeds (the
      text always holds the joining space) but is kept as written. */
  function RefNumFloors(row: Row, explicit: Option<nat>, tokens: seq<string>, composite: seq<nat>)
    : Option<nat>
  {
    var panel := Floors.PanelFloors(row);
    var text := ListingText(row);
    if panel.Some? then panel
    else if |text| == 0 then None
    else if explicit.Some? then explicit
    else
      var candidates := RefCandidates(tokens);
      if |composite| > 0 then Some(Sum(composite))
      else if |candidates| > 0 then Some(MaxOf(candidates))
      else if Contains(text, "nhà cấp 4") || Contains(text, "nhà trệt") then Some(1)
      else None
  }

  /** The loop that fills `candidate_numbers`. */
  method CollectRefCandidates(tokens: seq<string>) returns (candidates: seq<nat>)
    ensures candidates == RefCandidates(tokens)
  {
    candidates := [];
    var i := 0;
    while i < |tokens|
      invariant 0 <= i <= |tokens|
      invariant candidates == RefCandidates(tokens[..i])
    {
      assert tokens[..i + 1][..i] == tokens[..i];
      var tok := tokens[i];
      if !UnitContext(tok) {
        var v := Floors.TokenValue(tok);
        if v.Some? {
          candidates := candidates + [v.value];
        }
      }
      i := i + 1;
    }
    assert tokens[..|tokens|] == tokens;
  }

  /** `RefactoredDataCleaner.extract_num_floors`. */
  method ExtractRefNumFloors(row: Row, explicit: Option<nat>, tokens: seq<string>, composite: seq<nat>)
    returns (floors: Option<nat>)
    ensures floors == RefNumFloors(row, explicit, tokens, composite)
  {
    if Floors.FloorsTitle in row.otherInfo {
      var m := FirstInteger(row.otherInfo[Floors.FloorsTitle]);
      if m.Some? {
        return m;
      }
    }
    var text := ListingText(row);
    if |text| == 0 {
      return None;
    }
    if explicit.Some? {
      return explicit;
    }
    var candidates := CollectRefCandidates(tokens);
    var total := 0;
    var found := false;
    var i := 0;
    while i < |composite|
      invariant 0 <= i <= |composite|
      invariant total == Sum(composite[..i])
      invariant found <==> i > 0
    {
      assert composite[..i + 1][..i] == composite[..i];
      found := true;
      total := total + composite[i];
      i := i + 1;
    }
    assert composite[..|composite|] == composite;
    if found {
      return Some(total);
    }
    if |candidates| > 0 {
      return Some(MaxOf(candidates));
    }
    if Contains(text, "nhà cấp 4") || Contains(text, "nhà trệt") {
      return Some(1);
    }
    return None;
  }

  // ----- properties -----

  /** The listing text is never empty, so the text rules are always reached. */
  lemma ListingTextNonEmpty(row: Row)
    ensures |ListingText(row)| > 0
  {
  }

  /** A candidate is collected exactly when a token gets past `exclude_context` and
      has a value. */
  lemma {:induction false} RefCandidatesOfTokens(tokens: seq<string>, v: nat)
    ensures v in RefCandidates(tokens) <==>
      exists k | 0 <= k < |tokens| :: !UnitContext(tokens[k]) && Floors.TokenValue(tokens[k]) == Some(v)
  {
    if |tokens| > 0 {
      var init := tokens[..|tokens| - 1];
      RefCandidatesOfTokens(init, v);
      assert forall k | 0 <= k < |init| :: init[k] == tokens[k];
    }
  }

  /** `exclude_context` is dead code: the floor pattern only captures digit strings and
      number words, and on those the refactored candidates are the original ones. */
  lemma {:induction false} ExcludeContextNeverFires(tokens: seq<string>)
    requires forall k | 0 <= k < |tokens| :: AllDigits(tokens[k]) || !HasDigit(tokens[k])
    ensures RefCandidates(tokens) == Floors.Candidates(tokens)
  {
    if |tokens| > 0 {
      var last := tokens[|tokens| - 1];
      if AllDigits(last) {
        DigitsHaveNoUnitContext(last);
      } else {
        WordsHaveNoUnitContext(last);
      }
      ExcludeContextNeverFires(tokens[..|tokens| - 1]);
    }
  }

  /** Each composite count is part of the total. */
  lemma {:induction false} SumBoundsEach(counts: seq<nat>, k: nat)
    requires k < |counts|
    ensures counts[k] <= Sum(counts)
  {
    if k < |counts| - 1 {
      SumBoundsEach(counts[..|counts| - 1], k);
    }
  }

  /** The panel figure comes first and an explicit total ("gồm 5 tầng") next, whatever
      the floor mentions say. */
  lemma PanelThenExplicitTotal(row: Row, explicit: Option<nat>, tokens: seq<string>, composite: seq<nat>)
    ensures Floors.PanelFloors(row).Some? ==>
      RefNumFloors(row, explicit, tokens, composite) == Floors.PanelFloors(row)
    ensures Floors.PanelFloors(row).None? && explicit.Some? ==>
      RefNumFloors(row, explicit, tokens, composite) == explicit
  {
    ListingTextNonEmpty(row);
  }

  /** A composite description beats every floor mention: its counts are summed, so the
      answer is at least each of them. */
  lemma CompositeIsSummed(row: Row, explicit: Option<nat>, tokens: seq<string>, composite: seq<nat>, k: nat)
    requires Floors.PanelFloors(row).None? && explicit.None?
    requires k < |composite|
    ensures RefNumFloors(row, explicit, tokens, composite) == Some(Sum(composite))
    ensures composite[k] <= Sum(composite)
  {
    ListingTextNonEmpty(row);
    SumBoundsEach(composite, k);
  }

  /** Without a composite, the answer is the largest candidate: at least every token that
      gets past `exclude_context`, and the value of one of them. */
  lemma LargestMentionWins(row: Row, explicit: Option<nat>, tokens: seq<string>, k: nat)
    requires Floors.PanelFloors(row).None? && explicit.None?
    requires k < |tokens| && !UnitContext(tokens[k]) && Floors.TokenValue(tokens[k]).Some?
    ensures var r := RefNumFloors(row, explicit, tokens, []);
      r.Some? && r.value >= Floors.TokenValue(tokens[k]).value &&
      exists j | 0 <= j < |tokens| :: !UnitContext(tokens[j]) && Floors.TokenValue(tokens[j]) == r
  {
    ListingTextNonEmpty(row);
    var candidates := RefCandidates(tokens);
    RefCandidatesOfTokens(tokens, Floors.TokenValue(tokens[k]).value);
    var m := MaxOf(candidates);
    RefCandidatesOfTokens(tokens, m);
  }

  /** The single-storey phrases give one floor only when nothing else was found. */
  lemma SingleStoreyIsLastResort(row: Row, explicit: Option<nat>, tokens: seq<string>, composite: seq<nat>)
    requires RefNumFloors(row, explicit, tokens, composite) == Some(1)
    requires Floors.PanelFloors(row) != Some(1) && explicit != Some(1)
    requires |composite| == 0 && forall k | 0 <= k < |tokens| :: Floors.TokenValue(tokens[k]).None?
    ensures Contains(ListingText(row), "nhà cấp 4") || Contains(ListingText(row), "nhà trệt")
  {
    ListingTextNonEmpty(row);
    if |RefCandidates(tokens)| > 0 {
      RefCandidatesOfTokens(tokens, RefCandidates(tokens)[0]);
    }
  }
}

=== FILE: refactored_road.dfy ===
/** `RefactoredDataCleaner.extract_alley_width` and `extract_distance_to_main_road`: the
    refactored extractors that consult `is_on_main_road`. The `re.findall` scans are
    parameters: `nums` holds the width groups `\d{1,2}(?:[.,]\d{1,2})?` of the three alley
    patterns, in pattern order, and `matches` the (number, unit) groups of the four
    distance patterns, the unit "" when the optional `(km|m|mét)?` did not take part. */
module RefactoredRoad {
  import opened Wrappers
  import opened Text
  import opened Numbers
  import opened Listing
  import Frontage
  import Road
  import RefactoredSize

  // ----- extract_alley_width -----

  /** The widest alley the refactored extractor believes (exclusive). */
  const AlleyLimit := 15.0

  /** `widths`: the captured numbers `parse_and_clean_width` reads, in order. */
  function ParsedRefWidths(nums: seq<string>): seq<real> {
    if |nums| == 0 then []
    else
      var w := ParseWidthAsWritten(Some(nums[|nums| - 1]));
      ParsedRefWidths(nums[..|nums| - 1]) + (if w.Some? then [w.value] else [])
  }

  /** `valid_widths`: `[w for w in widths if w < 15]`. */
  function Narrow(widths: seq<real>): seq<real> {
    if |widths| == 0 then []
    else
      var w := widths[|widths| - 1];
      Narrow(widths[..|widths| - 1]) + (if w < AlleyLimit then [w] else [])
  }

  /** `f"{title} {description}"`, before lower-casing. */
  function RawText(row: Row): string {
    row.title + " " + row.description
  }

  /** The `other_info` access width, read when it is a non-empty string. */
  function PanelAccess(row: Row): (r: Option<real>)
    ensures r.Some? ==> r.value >= 0.0
  {
    ParseWidthAsWritten(RefactoredSize.PanelText(row, Frontage.AccessTitle))
  }

  /** The refactored alley width: none for a blank listing; the access width of the
      panel when truthy; 0.0 on a main road; else the narrowest width below 15 m. */
  function RefAlleyWidth(row: Row, nums: seq<string>): Option<real> {
    if |Strip(RawText(row))| == 0 then None
    else if Frontage.Truthy(PanelAccess(row)) then PanelAccess(row)
    else if Road.OnMainRoad(Some(Lower(RawText(row)))) then Some(0.0)
    else
      var valid := Narrow(ParsedRefWidths(nums));
      if |valid| > 0 then Some(MinOf(valid)) else None
  }

  /** The nested loop over the patterns and their matches that fills `widths`. */
  method CollectRefWidths(nums: seq<string>) returns (widths: seq<real>)
    ensures widths == ParsedRefWidths(nums)
  {
    widths := [];
    var i := 0;
    while i < |nums|
      invariant 0 <= i <= |nums|
      invariant widths == ParsedRefWidths(nums[..i])
    {
      assert nums[..i + 1][..i] == nums[..i];
      var w := ParseWidthAsWritten(Some(nums[i]));
      if w.Some? {
        widths := widths + [w.value];
      }
      i := i + 1;
    }
    assert nums[..|nums|] == nums;
  }

  /** The list comprehension that keeps the widths below 15 m. */
  method KeepNarrow(widths: seq<real>) returns (valid: seq<real>)
    ensures valid == Narrow(widths)
  {
    valid := [];
    var i := 0;
    while i < |widths|
      invariant 0 <= i <= |widths|
      invariant valid == Narrow(widths[..i])
    {
      assert widths[..i + 1][..i] == widths[..i];
      if widths[i] < AlleyLimit {
        valid := valid + [widths[i]];
      }
      i := i + 1;
    }
    assert widths[..|widths|] == widths;
  }

  /** `RefactoredDataCleaner.extract_alley_width`. */
  method ExtractRefAlleyWidth(row: Row, nums: seq<string>) returns (width: Option<real>)
    ensures width == RefAlleyWidth(row, nums)
  {
    var text := RawText(row);
    if |Strip(text)| == 0 {
      return None;
    }
    var norm := Lower(text);
    var fromPanel := PanelAccess(row);
    if Frontage.Truthy(fromPanel) {
      return fromPanel;
    }
    var widths := CollectRefWidths(nums);
    var onMain := Road.IsOnMainRoad(Some(norm));
    if onMain {
      return Some(0.0);
    }
    if |widths| > 0 {
      var valid := KeepNarrow(widths);
      if |valid| > 0 {
        return Some(MinOf(valid));
      }
    }
    return None;
  }

  /** A width below the limit is kept exactly when it was read. */
  lemma {:induction false} NarrowKeeps(widths: seq<real>, x: real)
    ensures x in Narrow(widths) <==> x in widths && x < AlleyLimit
  {
    if |widths| > 0 {
      NarrowKeeps(widths[..|widths| - 1], x);
      assert widths == widths[..|widths| - 1] + [widths[|widths| - 1]];
    }
  }

  /** Every width read comes from a captured number. */
  lemma {:induction false} ReadWidthIsCaptured(nums: seq<string>, x: real)
    requires x in ParsedRefWidths(nums)
    ensures exists k | 0 <= k < |nums| :: ParseWidthAsWritten(Some(nums[k])) == Some(x)
  {
    var init := nums[..|nums| - 1];
    var w := ParseWidthAsWritten(Some(nums[|nums| - 1]));
    assert ParsedRefWidths(nums) == ParsedRefWidths(init) + (if w.Some? then [w.value] else []);
    if x in ParsedRefWidths(init) {
      ReadWidthIsCaptured(init, x);
      var k :| 0 <= k < |init| && ParseWidthAsWritten(Some(init[k])) == Some(x);
      assert nums[k] == init[k];
    } else {
      assert ParseWidthAsWritten(Some(nums[|nums| - 1])) == Some(x);
    }
  }

  /** Every captured number that parses is read. */
  lemma {:induction false} CapturedWidthIsRead(nums: seq<string>, k: nat)
    requires k < |nums| && ParseWidthAsWritten(Some(nums[k])).Some?
    ensures ParseWidthAsWritten(Some(nums[k])).value in ParsedRefWidths(nums)
  {
    var init := nums[..|nums| - 1];
    if k < |init| {
      assert init[k] == nums[k];
      CapturedWidthIsRead(init, k);
    }
  }

  /** A comma-only capture "a,b" whose decimal reading is at most 20 is read as that
      decimal, rounded: "5,500" is read as 5.5 and so stays below the 15 m limit. */
  lemma CommaCaptureReadAsDecimal(nums: seq<string>, k: nat, a: string, b: string)
    requires k < |nums| && nums[k] == a + "," + b
    requires AllDigits(a) && AllDigits(b) && |a| > 0 && DecimalValue(a, b) <= 20.0
    ensures Round2(DecimalValue(a, b)) in ParsedRefWidths(nums)
  {
    WidthReadsCommaOnly(a, b, ValueAboveTwenty);
    CapturedWidthIsRead(nums, k);
  }

  /** A comma-only panel access width "a,b" is read as written: above 20 the comma is
      taken for a thousands separator ("25,5" gives 255.0). */
  lemma PanelAccessCommaAsWritten(row: Row, a: string, b: string)
    requires AllDigits(a) && AllDigits(b) && |a| > 0
    requires Frontage.AccessTitle in row.otherInfo && row.otherInfo[Frontage.AccessTitle] == a + "," + b
    ensures AllDigits(a + b)
    ensures PanelAccess(row)
         == Some(Round2(if DecimalValue(a, b) > 20.0 then DigitsValue(a + b) as real else DecimalValue(a, b)))
  {
    WidthReadsCommaOnly(a, b, ValueAboveTwenty);
  }

  /** A truthy access width in the panel wins even on a main road. */
  lemma PanelAccessBeatsMainRoad(row: Row, nums: seq<string>)
    requires |Strip(RawText(row))| > 0 && Frontage.Truthy(PanelAccess(row))
    ensures RefAlleyWidth(row, nums) == PanelAccess(row)
  {
  }

  /** Without a panel width, a listing on a main road has alley width 0.0, whatever
      widths the text mentions. */
  lemma MainRoadHasNoAlley(row: Row, nums: seq<string>)
    requires |Strip(RawText(row))| > 0 && !Frontage.Truthy(PanelAccess(row))
    requires Road.OnMainRoad(Some(Lower(RawText(row))))
    ensures RefAlleyWidth(row, nums) == Some(0.0)
    ensures RefAlleyWidth(row, nums) == RefAlleyWidth(row, [])
  {
  }

  /** Off a main road and without a panel width, the answer is the narrowest width read
      below 15 m: below the limit, one of the captured numbers, and at most each
      plausible one. */
  lemma RefAlleyIsNarrowestPlausible(row: Row, nums: seq<string>, k: nat)
    requires |Strip(RawText(row))| > 0 && !Frontage.Truthy(PanelAccess(row))
    requires !Road.OnMainRoad(Some(Lower(RawText(row))))
    requires k < |nums| && ParseWidthAsWritten(Some(nums[k])).Some? && ParseWidthAsWritten(Some(nums[k])).value < AlleyLimit
    ensures var r := RefAlleyWidth(row, nums);
      r.Some? && r.value <= ParseWidthAsWritten(Some(nums[k])).value && r.value < AlleyLimit &&
      exists j | 0 <= j < |nums| :: ParseWidthAsWritten(Some(nums[j])) == r
  {
    var widths := ParsedRefWidths(nums);
    var x := ParseWidthAsWritten(Some(nums[k])).value;
    CapturedWidthIsRead(nums, k);
    NarrowKeeps(widths, x);
    var m := MinOf(Narrow(widths));
    NarrowKeeps(widths, m);
    ReadWidthIsCaptured(nums, m);
  }

  /** Widths of 15 m or more are never the answer off a main road. */
  lemma WideReadingsIgnored(row: Row, nums: seq<string>)
    requires |Strip(RawText(row))| > 0 && !Frontage.Truthy(PanelAccess(row))
    requires !Road.OnMainRoad(Some(Lower(RawText(row))))
    requires forall k | 0 <= k < |nums| :: ParseWidthAsWritten(Some(nums[k])).None? || ParseWidthAsWritten(Some(nums[k])).value >= AlleyLimit
    ensures RefAlleyWidth(row, nums).None?
  {
    NothingNarrowRead(nums);
  }

  /** When every captured number reads 15 m or more (or not at all), no width is kept. */
  lemma NothingNarrowRead(nums: seq<string>)
    requires forall k | 0 <= k < |nums| :: ParseWidthAsWritten(Some(nums[k])).None? || ParseWidthAsWritten(Some(nums[k])).value >= AlleyLimit
    ensures |Narrow(ParsedRefWidths(nums))| == 0
  {
    var widths := ParsedRefWidths(nums);
    if |Narrow(widths)| > 0 {
      var w := Narrow(widths)[0];
      NarrowKeeps(widths, w);
      ReadWidthIsCaptured(nums, w);
    }
  }

  // ----- extract_distance_to_main_road -----

  /** The longest distance the refactored extractor believes (exclusive), in metres. */
  const DistanceLimit := 1000.0

  /** The reading of one (number, unit) pair: the refactored number parser, scaled to
      metres by the unit. */
  function RefConvert(num: string, unit: string): (r: Option<real>)
    ensures r.Some? ==> r.value >= 0.0
  {
    InMetres(ParseNumberRefactored(Some(num)), unit)
  }

  /** A reading in `unit`, in metres: times 1000 for kilometres (in any case); the unit
      defaults to metres. */
  function InMetres(reading: Option<real>, unit: string): Option<real> {
    var u := if |unit| == 0 then "m" else unit;
    match reading
    case None => None
    case Some(v) => Some(if Lower(u) == "km" then v * 1000.0 else v)
  }

  /** `0 < converted < 1000`. */
  predicate Plausible(d: real) {
    0.0 < d < DistanceLimit
  }

  /** `dists`: the plausible conversions, in order. */
  function RefDistances(matches: seq<(string, string)>): seq<real> {
    if |matches| == 0 then []
    else
      var last := matches[|matches| - 1];
      var d := RefConvert(last.0, last.1);
      RefDistances(matches[..|matches| - 1]) + (if d.Some? && Plausible(d.value) then [d.value] else [])
  }

  /** The refactored distance: none for a blank listing, 0.0 on a main road, else the
      shortest plausible distance. */
  function RefDistance(row: Row, matches: seq<(string, string)>): Option<real> {
    var text := ListingText(row);
    if |Strip(text)| == 0 then None
    else if Road.OnMainRoad(Some(text)) then Some(0.0)
    else
      var dists := RefDistances(matches);
      if |dists| > 0 then Some(MinOf(dists)) else None
  }

  /** The nested loop over the patterns and their matches that fills `dists`. */
  method CollectRefDistances(matches: seq<(string, string)>) returns (dists: seq<real>)
    ensures dists == RefDistances(matches)
  {
    dists := [];
    var i := 0;
    while i < |matches|
      invariant 0 <= i <= |matches|
      invariant dists == RefDistances(matches[..i])
    {
      assert matches[..i + 1][..i] == matches[..i];
      var (num, unit) := matches[i];
      var d := RefConvert(num, unit);
      if d.Some? && Plausible(d.value) {
        dists := dists + [d.value];
      }
      i := i + 1;
    }
    assert matches[..|matches|] == matches;
  }

  /** `RefactoredDataCleaner.extract_distance_to_main_road`. */
  method ExtractRefDistance(row: Row, matches: seq<(string, string)>) returns (distance: Option<real>)
    ensures distance == RefDistance(row, matches)
  {
    var text := ListingText(row);
    if |Strip(text)| == 0 {
      return None;
    }
    var onMain := Road.IsOnMainRoad(Some(text));
    if onMain {
      return Some(0.0);
    }
    var dists := CollectRefDistances(matches);
    if |dists| > 0 {
      return Some(MinOf(dists));
    }
    return None;
  }

  /** Every collected distance is a plausible reading of some pair. */
  lemma {:induction false} CollectedDistanceIsRead(matches: seq<(string, string)>, x: real)
    requires x in RefDistances(matches)
    ensures Plausible(x) && exists k | 0 <= k < |matches| :: RefConvert(matches[k].0, matches[k].1) == Some(x)
  {
    var init := matches[..|matches| - 1];
    var last := matches[|matches| - 1];
    var d := RefConvert(last.0, last.1);
    assert RefDistances(matches) == RefDistances(init) + (if d.Some? && Plausible(d.value) then [d.value] else []);
    if x in RefDistances(init) {
      CollectedDistanceIsRead(init, x);
      var k :| 0 <= k < |init| && RefConvert(init[k].0, init[k].1) == Some(x);
      assert matches[k] == init[k];
    }
  }

  /** Every plausible reading of a pair is collected. */
  lemma {:induction false} PlausibleReadingIsCollected(matches: seq<(string, string)>, k: nat)
    requires k < |matches| && RefConvert(matches[k].0, matches[k].1).Some?
    requires Plausible(RefConvert(matches[k].0, matches[k].1).value)
    ensures RefConvert(matches[k].0, matches[k].1).value in RefDistances(matches)
  {
    var init := matches[..|matches| - 1];
    if k < |init| {
      assert init[k] == matches[k];
      PlausibleReadingIsCollected(init, k);
    }
  }

  /** The distance is 0.0 on a main road and otherwise strictly between 0 and 1000 m,
      the reading of one of the pairs. */
  lemma RefDistanceInRange(row: Row, matches: seq<(string, string)>)
    ensures var r := RefDistance(row, matches);
      r.Some? ==> (r.value == 0.0 || (Plausible(r.value) &&
                   exists k | 0 <= k < |matches| :: RefConvert(matches[k].0, matches[k].1) == r))
  {
    var dists := RefDistances(matches);
    if |dists| > 0 {
      CollectedDistanceIsRead(matches, MinOf(dists));
    }
  }

  /** A listing on a main road is at distance 0.0, whatever distances the text mentions. */
  lemma MainRoadIsAtZero(row: Row, matches: seq<(string, string)>)
    requires |Strip(ListingText(row))| > 0 && Road.OnMainRoad(Some(ListingText(row)))
    ensures RefDistance(row, matches) == Some(0.0)
  {
  }

  /** Off a main road, the answer is at most every plausible reading. */
  lemma RefDistanceIsShortest(row: Row, matches: seq<(string, string)>, k: nat)
    requires |Strip(ListingText(row))| > 0 && !Road.OnMainRoad(Some(ListingText(row)))
    requires k < |matches|
    requires RefConvert(matches[k].0, matches[k].1).Some? && Plausible(RefConvert(matches[k].0, matches[k].1).value)
    ensures RefDistance(row, matches).Some?
    ensures RefDistance(row, matches).value <= RefConvert(matches[k].0, matches[k].1).value
  {
    PlausibleReadingIsCollected(matches, k);
  }

  /** A distance of a kilometre or more never survives the filter: "1,5 km" reads
      1500 m and is dropped. */
  lemma KilometreAndBeyondDropped(num: string, unit: string)
    requires Lower(unit) == "km"
    requires ParseNumberRefactored(Some(num)).Some? && ParseNumberRefactored(Some(num)).value >= 1.0
    ensures RefConvert(num, unit).Some? && !Plausible(RefConvert(num, unit).value)
  {
  }

  /** A kilometre figure with a decimal comma, "a,b km", reads a.b, rounded to 2 decimals,
      times 1000 metres. */
  lemma KilometresWithDecimalComma(a: string, b: string, unit: string, v: real)
    requires AllDigits(a) && AllDigits(b) && |a| > 0 && Lower(unit) == "km"
    requires v == Round2(DecimalValue(a, b))
    ensures RefConvert(a + "," + b, unit) == Some(v * 1000.0)
  {
    RefactoredReadsDecimalComma(a, b);
    KilometresReading(a + "," + b, unit, v);
  }

  /** A number the refactored parser reads as v converts, under a "km" unit in any case,
      to v × 1000 metres. */
  lemma KilometresReading(num: string, unit: string, v: real)
    requires ParseNumberRefactored(Some(num)) == Some(v) && Lower(unit) == "km"
    ensures RefConvert(num, unit) == Some(v * 1000.0)
  {
    ConvertsReading(num, unit, Some(v));
    KilometresScaleReading(v, unit);
  }

  /** A pair converts as its number reads, scaled by its unit. */
  lemma ConvertsReading(num: string, unit: string, reading: Option<real>)
    requires ParseNumberRefactored(Some(num)) == reading
    ensures RefConvert(num, unit) == InMetres(reading, unit)
  {
  }

  /** A "km" unit, in any case, scales a reading by 1000. */
  lemma KilometresScaleReading(v: real, unit: string)
    requires Lower(unit) == "km"
    ensures InMetres(Some(v), unit) == Some(v * 1000.0)
  {
    assert |unit| == 2;
  }
}

=== FILE: refactored_size.dfy ===
/** `RefactoredDataCleaner.extract_facade_width` and `extract_land_length`: the plot's
    frontage and depth from the `other_info` panel, then from the description, then from
    the title, and from a size pair "5 x 20" as the last resort. The regex captures are
    parameters applied to the lower-cased field: `widthCapture` is the group of
    `(?:mặt tiền|chiều rộng|chiều ngang|rộng|ngang)\s*:?\s*([\d.,]+\s*m?)\b`,
    `lengthCapture` that of `(?:dài|chiều\s+dài)\s*:?\s*([\d.,]+)` and `pairCapture`
    groups 2 and 3 of
    `(diện\s+tích|dt|kích\s+thước)\s*[:\-]?\s*([\d.,]+)\s*m?\s*[xX*]\s*([\d.,]+)\s*m?`. */
module RefactoredSize {
  import opened Wrappers
  import opened Text
  import opened Numbers
  import opened Listing
  import Frontage

  /** A panel value that is a non-empty string (`if val and …`). */
  function PanelText(row: Row, key: string): (r: Option<string>)
    ensures r.Some? <==> key in row.otherInfo && |row.otherInfo[key]| > 0
  {
    var val := OtherValue(row, key);
    if val.Some? && |val.value| > 0 then val else None
  }

  /** The two sides of a size pair, when both parse. */
  function PairSides(pair: Option<(string, string)>): (r: Option<(real, real)>)
    ensures r.Some? ==> r.value.0 >= 0.0 && r.value.1 >= 0.0
  {
    match pair
    case None => None
    case Some((a, b)) =>
      var x, y := ParseNumberRefactored(Some(a)), ParseNumberRefactored(Some(b));
      if x.Some? && y.Some? then Some((x.value, y.value)) else None
  }

  /** The smaller of two readings. */
  function Smaller(x: real, y: real): (r: real)
    ensures r <= x && r <= y && (r == x || r == y)
  {
    if x <= y then x else y
  }

  // ----- extract_facade_width -----

  /** `_find` of the refactored `extract_facade_width`. */
  function FindRefWidth(text: string, widthCapture: string -> Option<string>): (r: Option<real>)
    ensures r.Some? ==> r.value >= 0.0
  {
    if |text| == 0 then None
    else
      match widthCapture(Lower(text))
      case None => None
      case Some(g) => ParseWidthAsWritten(Some(g))
  }

  /** The refactored facade width: the panel, the description, the title, then the
      smaller side of a size pair in the description. */
  function RefFacadeWidth(row: Row, widthCapture: string -> Option<string>,
                          pairCapture: string -> Option<(string, string)>): (r: Option<real>)
    ensures r.Some? ==> r.value >= 0.0
  {
    var fromPanel := ParseWidthAsWritten(PanelText(row, Frontage.WidthTitle));
    if fromPanel.Some? then fromPanel
    else
      var fromDescription := FindRefWidth(row.description, widthCapture);
      if fromDescription.Some? then fromDescription
      else
        var fromTitle := FindRefWidth(row.title, widthCapture);
        if fromTitle.Some? then fromTitle
        else
          match PairSides(pairCapture(Lower(row.description)))
          case Some((x, y)) => Some(Smaller(x, y))
          case None => None
  }

  // ----- extract_land_length -----

  /** `_find` of the refactored `extract_land_length`: a "dài" label answers even when
      its number does not parse, and only without one is the size pair read. */
  function FindRefLength(text: string, lengthCapture: string -> Option<string>,
                         pairCapture: string -> Option<(string, string)>): (r: Option<real>)
    ensures r.Some? ==> r.value >= 0.0
  {
    if |text| == 0 then None
    else
      var lower := Lower(text);
      match lengthCapture(lower)
      case Some(g) => ParseNumberRefactored(Some(g))
      case None =>
        match PairSides(pairCapture(lower))
        case Some((x, y)) => Some(Frontage.Larger(x, y))
        case None => None
  }

  /** The refactored land length: the panel, the description, then the title, each
      taken only when truthy, so that a zero length falls through. */
  function RefLandLength(row: Row, lengthCapture: string -> Option<string>,
                         pairCapture: string -> Option<(string, string)>): (r: Option<real>)
    ensures Frontage.Truthy(ParseNumberRefactored(PanelText(row, Frontage.LengthTitle))) ==>
              r == ParseNumberRefactored(PanelText(row, Frontage.LengthTitle))
    ensures !Frontage.Truthy(ParseNumberRefactored(PanelText(row, Frontage.LengthTitle))) &&
            Frontage.Truthy(FindRefLength(row.description, lengthCapture, pairCapture)) ==>
              r == FindRefLength(row.description, lengthCapture, pairCapture)
    ensures r.None? <==>
              !Frontage.Truthy(ParseNumberRefactored(PanelText(row, Frontage.LengthTitle))) &&
              !Frontage.Truthy(FindRefLength(row.description, lengthCapture, pairCapture)) &&
              !Frontage.Truthy(FindRefLength(row.title, lengthCapture, pairCapture))
  {
    var fromPanel := ParseNumberRefactored(PanelText(row, Frontage.LengthTitle));
    if Frontage.Truthy(fromPanel) then fromPanel
    else
      var fromDescription := FindRefLength(row.description, lengthCapture, pairCapture);
      if Frontage.Truthy(fromDescription) then fromDescription
      else
        var fromTitle := FindRefLength(row.title, lengthCapture, pairCapture);
        if Frontage.Truthy(fromTitle) then fromTitle else None
  }

  // ----- properties -----

  /** A panel width that parses decides, whatever the text says. */
  lemma PanelWidthDecides(row: Row, widthCapture: string -> Option<string>,
                          pairCapture: string -> Option<(string, string)>)
    requires Frontage.WidthTitle in row.otherInfo
    requires ParseWidthAsWritten(Some(row.otherInfo[Frontage.WidthTitle])).Some?
    ensures RefFacadeWidth(row, widthCapture, pairCapture) == ParseWidthAsWritten(Some(row.otherInfo[Frontage.WidthTitle]))
  {
  }

  /** A comma-only panel width "a,b" is read as written: as the decimal a.b, unless that
      exceeds 20, when the comma is taken for a thousands separator ("21,5" gives 215.0,
      "5,500" gives 5.5). */
  lemma PanelCommaWidthAsWritten(row: Row, widthCapture: string -> Option<string>,
                                 pairCapture: string -> Option<(string, string)>, a: string, b: string)
    requires AllDigits(a) && AllDigits(b) && |a| > 0
    requires Frontage.WidthTitle in row.otherInfo && row.otherInfo[Frontage.WidthTitle] == a + "," + b
    ensures AllDigits(a + b)
    ensures RefFacadeWidth(row, widthCapture, pairCapture)
         == Some(Round2(if DecimalValue(a, b) > 20.0 then DigitsValue(a + b) as real else DecimalValue(a, b)))
  {
    WidthReadsCommaOnly(a, b, ValueAboveTwenty);
    PanelWidthDecides(row, widthCapture, pairCapture);
  }

  /** A refactored land length, when there is one, is strictly positive. */
  lemma RefLandLengthPositive(row: Row, lengthCapture: string -> Option<string>,
                              pairCapture: string -> Option<(string, string)>)
    ensures var r := RefLandLength(row, lengthCapture, pairCapture); r.Some? ==> r.value > 0.0
  {
  }

  /** A "dài" label whose number does not parse hides a size pair in the same field. */
  lemma UnparsableLabelHidesPair(text: string, lengthCapture: string -> Option<string>,
                                 pairCapture: string -> Option<(string, string)>, g: string)
    requires lengthCapture(Lower(text)) == Some(g) && ParseNumberRefactored(Some(g)).None?
    ensures FindRefLength(text, lengthCapture, pairCapture).None?
  {
  }

  /** When both extractors fall back on the same size pair of the description, the width
      is its smaller side and the length its larger one, so the frontage never exceeds
      the depth. */
  lemma SizePairOrdersSides(row: Row, widthCapture: string -> Option<string>,
                            lengthCapture: string -> Option<string>,
                            pairCapture: string -> Option<(string, string)>, x: real, y: real)
    requires ParseWidthAsWritten(PanelText(row, Frontage.WidthTitle)).None?
    requires widthCapture(Lower(row.description)).None? && widthCapture(Lower(row.title)).None?
    requires !Frontage.Truthy(ParseNumberRefactored(PanelText(row, Frontage.LengthTitle)))
    requires |row.description| > 0 && lengthCapture(Lower(row.description)).None?
    requires PairSides(pairCapture(Lower(row.description))) == Some((x, y))
    requires x != 0.0 || y != 0.0
    ensures RefFacadeWidth(row, widthCapture, pairCapture) == Some(Smaller(x, y))
    ensures RefLandLength(row, lengthCapture, pairCapture) == Some(Frontage.Larger(x, y))
    ensures Smaller(x, y) <= Frontage.Larger(x, y)
  {
    assert FindRefWidth(row.description, widthCapture).None?;
    assert FindRefWidth(row.title, widthCapture).None?;
    assert FindRefLength(row.description, lengthCapture, pairCapture) == Some(Frontage.Larger(x, y));
  }
}

=== FILE: road.dfy ===
/** `is_on_main_road`: a listing is on a main road when its lower-cased text matches
    none of the "near a main road" patterns and some "on a main road" pattern. The near
    patterns are tried first and veto the answer. */
module Road {
  import opened Wrappers
  import opened Text
  import opened Pattern

  /** `mặt\s+(phố|đường|tiền)`. */
  function FrontOf(): Regex {
    Cat(Lit("mặt"), Cat(Spaces1, Words(["phố", "đường", "tiền"])))
  }

  /** `m(?:ét)?`, metres. */
  function Metres(): Regex {
    Cat(Lit("m"), Opt(Lit("ét")))
  }

  /** `near_but_not_on_patterns`. */
  const NearPatterns: seq<Regex> := [
    Seq([AnyOf([Lit("cách"), Lit("ra"), Lit("gần"), Lit("view"), Phrase(["hướng", "ra"]),
                Phrase(["đi", "ra"]), Phrase(["đi", "ra", "đến"])]),
         Spaces1, FrontOf()]),
    Seq([WordBoundary, Digits(1, 100), Spaces0, Metres(), Spaces0,
         Words(["tới", "ra", "cách"]), Spaces1, FrontOf()]),
    Seq([Words(["gần", "kế", "bên cạnh", "kề"]), Spaces1,
         AnyOf([Lit("phố"), Lit("đường"), Phrase(["mặt", "phố"]), Phrase(["mặt", "tiền"])])]),
    Seq([Words(["cách", "ra", "tới", "đến"]), Spaces1,
         AnyOf([Lit("phố"), Cat(Lit("đường"), Opt(Cat(Spaces1, Lit("lớn")))), FrontOf()]),
         Spaces0, Digits(1, 100), Spaces0, Metres()])
  ]

  /** `(ngay\s+)?`. */
  function Right(): Regex {
    Opt(Cat(Lit("ngay"), Spaces1))
  }

  /** `direct_main_road_patterns`. */
  const DirectPatterns: seq<Regex> := [
    Seq([Opt(Words(["nhà", "biệt thự", "căn nhà", "lô đất", "đất", "đất nền", "vị trí",
                    "nằm", "tọa lạc", "căn hộ", "ở"])),
         Spaces0, Right(), Alt(FrontOf(), Phrase(["mặt", "tiền"]))]),
    Seq([Opt(Words(["nhà", "biệt thự", "căn nhà", "vị trí", "nằm", "tọa lạc", "căn hộ", "ở"])),
         Spaces0, Right(), Lit("trên"), Spaces1,
         AnyOf([Lit("phố"), Lit("đường"), Phrase(["đường", "chính"]), Phrase(["phố", "lớn"])])]),
    Seq([Words(["nằm", "tọa lạc", "ở"]), Spaces1, Words(["trên", "tại"]), Spaces1,
         Lit("trục"), Spaces1, Words(["đường", "phố"]), Spaces1, Words(["chính", "lớn"])])
  ]

  /** The answer of `is_on_main_road`: a string, no near pattern, some direct one. */
  predicate OnMainRoad(text: Option<string>) {
    text.Some? && !SearchAny(NearPatterns, Lower(text.value)) && SearchAny(DirectPatterns, Lower(text.value))
  }

  /** One scan of `is_on_main_road`: `re.search` with each pattern of the list in
      turn, stopping at the first that matches. */
  method SearchEach(rs: seq<Regex>, s: string) returns (found: bool)
    ensures found <==> SearchAny(rs, s)
  {
    var i := 0;
    while i < |rs|
      invariant 0 <= i <= |rs|
      invariant forall j | 0 <= j < i :: !Search(rs[j], s)
    {
      if Search(rs[i], s) {
        return true;
      }
      i := i + 1;
    }
    return false;
  }

  /** `is_on_main_road`: non-strings are not on a main road; a near pattern vetoes; a
      direct pattern confirms. */
  method IsOnMainRoad(text: Option<string>) returns (on: bool)
    ensures on == OnMainRoad(text)
  {
    if text.None? {
      return false;
    }
    var lower := Lower(text.value);
    var near := SearchEach(NearPatterns, lower);
    if near {
      return false;
    }
    on := SearchEach(DirectPatterns, lower);
  }

  // ----- witnesses for "cách mặt phố" -----

  /** The pieces of an occurrence of "cách mặt phố". */
  lemma NearPhrasePieces(s: string, i: nat)
    requires OccursAt(s, "cách mặt phố", i)
    ensures OccursAt(s, "cách", i) && s[i + 4] == ' '
    ensures OccursAt(s, "mặt", i + 5) && s[i + 8] == ' ' && OccursAt(s, "phố", i + 9)
  {
    var w := s[i..i + 12];
    assert s[i..i + 4] == w[..4];
    assert s[i + 5..i + 8] == w[5..8];
    assert s[i + 9..i + 12] == w[9..12];
    assert s[i + 4] == w[4] && s[i + 8] == w[8];
  }

  /** "mặt phố" at `i` is matched by `mặt\s+(phố|đường|tiền)`. */
  lemma FrontOfMatches(s: string, i: nat)
    requires OccursAt(s, "mặt", i) && i + 7 <= |s| && s[i + 3] == ' ' && OccursAt(s, "phố", i + 4)
    ensures MatchAt(FrontOf(), s, i, i + 7)
  {
    LitMatches("mặt", s, i);
    SingleSpaceMatches(s, i + 3);
    WordsMatches(["phố", "đường", "tiền"], 0, s, i + 4);
    CatMatches(Spaces1, Words(["phố", "đường", "tiền"]), s, i + 3, i + 4, i + 7);
  }

  /** The first near pattern matches "cách mặt phố". */
  lemma NearPatternMatches(s: string, i: nat)
    requires OccursAt(s, "cách mặt phố", i)
    ensures Search(NearPatterns[0], s)
  {
    NearPhrasePieces(s, i);
    FrontOfMatches(s, i + 5);
    var opts := [Lit("cách"), Lit("ra"), Lit("gần"), Lit("view"), Phrase(["hướng", "ra"]),
                 Phrase(["đi", "ra"]), Phrase(["đi", "ra", "đến"])];
    assert AnyOf(opts) == Alt(Lit("cách"), AnyOf(opts[1..]));
    LitMatches("cách", s, i);
    SingleSpaceMatches(s, i + 4);
    var p := [AnyOf(opts), Spaces1, FrontOf()];
    assert Seq(p) == Cat(AnyOf(opts), Cat(Spaces1, FrontOf()));
    CatMatches(Spaces1, FrontOf(), s, i + 4, i + 5, i + 12);
    CatMatches(AnyOf(opts), Cat(Spaces1, FrontOf()), s, i, i + 4, i + 12);
  }

  /** The first direct pattern also matches "cách mặt phố", at "mặt phố". */
  lemma DirectPatternMatches(s: string, i: nat)
    requires OccursAt(s, "cách mặt phố", i)
    ensures Search(DirectPatterns[0], s)
  {
    NearPhrasePieces(s, i);
    FrontOfMatches(s, i + 5);
    var j := i + 5;
    var front := Alt(FrontOf(), Phrase(["mặt", "tiền"]));
    var owner := Opt(Words(["nhà", "biệt thự", "căn nhà", "lô đất", "đất", "đất nền", "vị trí",
                            "nằm", "tọa lạc", "căn hộ", "ở"]));
    assert Seq([owner, Spaces0, Right(), front]) == Cat(owner, Cat(Spaces0, Cat(Right(), front)));
    assert MatchAt(Right(), s, j, j);
    CatMatches(Right(), front, s, j, j, j + 7);
    CatMatches(Spaces0, Cat(Right(), front), s, j, j, j + 7);
    CatMatches(owner, Cat(Spaces0, Cat(Right(), front)), s, j, j, j + 7);
  }

  /** The veto comes first: "cách mặt phố" ("at some distance from the main road")
      matches the direct pattern `mặt phố` too, yet the answer is no. */
  lemma NearVetoesDirect(text: string)
    requires Contains(Lower(text), "cách mặt phố")
    ensures Search(DirectPatterns[0], Lower(text))
    ensures !OnMainRoad(Some(text))
  {
    var s := Lower(text);
    var i :| 0 <= i <= |s| && OccursAt(s, "cách mặt phố", i);
    NearPatternMatches(s, i);
    DirectPatternMatches(s, i);
  }

  /** Without a near pattern, the phrase "mặt phố" puts the listing on a main road. */
  lemma MainRoadPhraseAccepted(text: string, i: nat)
    requires OccursAt(Lower(text), "mặt phố", i)
    requires forall k | 0 <= k < |NearPatterns| :: !Search(NearPatterns[k], Lower(text))
    ensures OnMainRoad(Some(text))
  {
    var s := Lower(text);
    var owner := Words(["nhà", "biệt thự", "căn nhà", "lô đất", "đất", "đất nền", "vị trí",
                        "nằm", "tọa lạc", "căn hộ", "ở"]);
    FrontPatternMatches(owner, s, i);
    assert Search(DirectPatterns[0], s);
  }

  /** "mặt phố" at `i` is a match of the first direct pattern, whatever its optional
      leading word. */
  lemma FrontPatternMatches(owner: Regex, s: string, i: nat)
    requires OccursAt(s, "mặt phố", i)
    ensures MatchAt(Seq([Opt(owner), Spaces0, Right(), Alt(FrontOf(), Phrase(["mặt", "tiền"]))]), s, i, i + 7)
  {
    var w := s[i..i + 7];
    assert s[i..i + 3] == w[..3];
    assert s[i + 4..i + 7] == w[4..7];
    assert s[i + 3] == w[3];
    FrontOfMatches(s, i);
    var front := Alt(FrontOf(), Phrase(["mặt", "tiền"]));
    SeqOfFour(Opt(owner), Spaces0, Right(), front);
    assert MatchAt(Right(), s, i, i);
    CatMatches(Right(), front, s, i, i, i + 7);
    CatMatches(Spaces0, Cat(Right(), front), s, i, i, i + 7);
    CatMatches(Opt(owner), Cat(Spaces0, Cat(Right(), front)), s, i, i, i + 7);
  }
}

=== FILE: text.dfy ===
/** Character classes and string operations that the extractors use: the Python
    built-ins `str.lower`, `str.strip`, `str.split`, `str.replace`, `in`, and the
    regular-expression word boundary `\b`. */
module Text {

  predicate IsDigit(c: char) { '0' <= c <= '9' }

  predicate IsAsciiLetter(c: char) { 'a' <= c <= 'z' || 'A' <= c <= 'Z' }

  /** Python's `str.isspace()`, which `\s`, `str.strip()`, `str.split()` and `float()`
      share: the ASCII white space and separators, and the Unicode spaces (no-break space,
      the spaces U+2000 to U+200A, the line and paragraph separators, and the rest). */
  predicate IsSpace(c: char) {
    if c <= ' ' then c == ' ' || '\t' <= c <= '\r' || '\U{001c}' <= c
    else '\U{0085}' <= c && IsWideSpace(c)
  }

  /** The white space above ASCII. */
  predicate IsWideSpace(c: char) {
    c == '\U{0085}' || c == '\U{00a0}' || c == '\U{1680}' || '\U{2000}' <= c <= '\U{200a}' ||
    c == '\U{2028}' || c == '\U{2029}' || c == '\U{202f}' || c == '\U{205f}' || c == '\U{3000}'
  }

  /** A letter beyond ASCII (an approximation of Unicode's letter classes): any
      character above ASCII that is neither white space nor in the general punctuation
      block U+2010 to U+2027 (dashes, quotation marks, bullets, the ellipsis). It covers
      the Vietnamese letters. */
  predicate IsOtherLetter(c: char) {
    c as int > 127 && !IsSpace(c) && !('\U{2010}' <= c <= '\U{2027}')
  }

  /** Python's Unicode `\w`: ASCII letters, digits and `_`, and the letters beyond ASCII. */
  predicate IsWordChar(c: char) { IsDigit(c) || IsAsciiLetter(c) || c == '_' || IsOtherLetter(c) }

  /** Python's `str.isalpha()` for one character: the ASCII letters and the letters
      beyond ASCII. */
  predicate IsAlpha(c: char) { IsAsciiLetter(c) || IsOtherLetter(c) }

  predicate HasAlpha(s: string) { exists i | 0 <= i < |s| :: IsAlpha(s[i]) }

  predicate HasDigit(s: string) { exists i | 0 <= i < |s| :: IsDigit(s[i]) }

  predicate AllDigits(s: string) { forall i | 0 <= i < |s| :: IsDigit(s[i]) }

  // ----- scanning a sequence -----

  /** The index of the first element satisfying `p`, or `|s|` when there is none. */
  function FirstWhere<T>(s: seq<T>, p: T -> bool): (i: nat)
    ensures i <= |s|
    ensures forall k | 0 <= k < i :: !p(s[k])
    ensures i < |s| ==> p(s[i])
  {
    if |s| == 0 || p(s[0]) then 0
    else
      var i := FirstWhere(s[1..], p);
      assert forall k | 1 <= k < 1 + i :: s[k] == s[1..][k - 1];
      1 + i
  }

  /** The length of the longest prefix whose elements all satisfy `p`. */
  function RunLength<T>(s: seq<T>, p: T -> bool): (n: nat)
    ensures n <= |s|
    ensures forall k | 0 <= k < n :: p(s[k])
    ensures n < |s| ==> !p(s[n])
  {
    if |s| == 0 || !p(s[0]) then 0
    else
      var n := RunLength(s[1..], p);
      assert forall k | 1 <= k < 1 + n :: s[k] == s[1..][k - 1];
      1 + n
  }

  lemma {:induction false} FirstWhereAfter<T>(x: seq<T>, y: seq<T>, p: T -> bool)
    requires forall k | 0 <= k < |x| :: !p(x[k])
    ensures FirstWhere(x + y, p) == |x| + FirstWhere(y, p)
  {
    if |x| > 0 {
      assert (x + y)[1..] == x[1..] + y;
      assert (x + y)[0] == x[0];
      FirstWhereAfter(x[1..], y, p);
    } else {
      assert x + y == y;
    }
  }

  lemma {:induction false} RunLengthOf<T>(x: seq<T>, y: seq<T>, p: T -> bool)
    requires forall k | 0 <= k < |x| :: p(x[k])
    requires |y| == 0 || !p(y[0])
    ensures RunLength(x + y, p) == |x|
  {
    if |x| > 0 {
      assert (x + y)[1..] == x[1..] + y;
      assert (x + y)[0] == x[0];
      RunLengthOf(x[1..], y, p);
    } else {
      assert x + y == y;
    }
  }

  // ----- str.lower() -----

  function LowerChar(c: char): char {
    if 'A' <= c <= 'Z' then (c as int + 32) as char else c
  }

  /** `s.lower()`, for the ASCII letters (the Vietnamese capitals with diacritics are left as they are). */
  function Lower(s: string): (r: string)
    ensures |r| == |s|
    ensures forall i | 0 <= i < |s| :: r[i] == LowerChar(s[i])
  {
    seq(|s|, i requires 0 <= i < |s| => LowerChar(s[i]))
  }

  /** No ASCII capital letter, so `.lower()` changes nothing. */
  predicate NoUpper(s: string) {
    forall i | 0 <= i < |s| :: !('A' <= s[i] <= 'Z')
  }

  lemma LowerOfNoUpper(s: string)
    requires NoUpper(s)
    ensures Lower(s) == s
  {
  }

  lemma NoUpperConcat(a: string, b: string)
    requires NoUpper(a) && NoUpper(b)
    ensures NoUpper(a + b)
  {
    forall i | 0 <= i < |a + b| ensures !('A' <= (a + b)[i] <= 'Z') {
      if i < |a| { assert (a + b)[i] == a[i]; } else { assert (a + b)[i] == b[i - |a|]; }
    }
  }

  // ----- `sub in s` and `re.search(r"\bkw\b", s)` -----

  predicate OccursAt(s: string, sub: string, i: nat) {
    i + |sub| <= |s| && s[i..i + |sub|] == sub
  }

  /** Python's `sub in s`. */
  predicate Contains(s: string, sub: string) {
    exists i | 0 <= i <= |s| :: OccursAt(s, sub, i)
  }

  /** A `\b` position: a word character on exactly one side of position `i`. */
  predicate Boundary(s: string, i: nat)
    requires i <= |s|
  {
    (i > 0 && IsWordChar(s[i - 1])) != (i < |s| && IsWordChar(s[i]))
  }

  predicate WordOccursAt(s: string, kw: string, i: nat) {
    OccursAt(s, kw, i) && Boundary(s, i) && Boundary(s, i + |kw|)
  }

  /** `re.search(rf"\b{re.escape(kw)}\b", s)` succeeds. */
  predicate ContainsWord(s: string, kw: string) {
    exists i | 0 <= i <= |s| :: WordOccursAt(s, kw, i)
  }

  lemma WordOccurrenceIsOccurrence(s: string, kw: string)
    requires ContainsWord(s, kw)
    ensures Contains(s, kw)
  {
    var i :| 0 <= i <= |s| && WordOccursAt(s, kw, i);
    assert OccursAt(s, kw, i);
  }

  /** When `kw` begins with `short` followed by a non-word character, and `short` ends
      with a word character, every whole-word hit of `kw` is a whole-word hit of `short`. */
  lemma {:induction false} WordHitOfExtension(s: string, short: string, kw: string)
    requires |short| > 0 && IsWordChar(short[|short| - 1])
    requires |kw| > |short| && kw[..|short|] == short && !IsWordChar(kw[|short|])
    requires ContainsWord(s, kw)
    ensures ContainsWord(s, short)
  {
    var i :| 0 <= i <= |s| && WordOccursAt(s, kw, i);
    var m := |short|;
    assert s[i..i + m] == short by {
      forall k | 0 <= k < m ensures s[i..i + m][k] == short[k] {
        assert s[i..i + m][k] == s[i..i + |kw|][k];
        assert short[k] == kw[..m][k];
      }
    }
    assert s[i + m] == kw[m] by { assert s[i + m] == s[i..i + |kw|][m]; }
    assert s[i + m - 1] == short[m - 1] by { assert s[i + m - 1] == s[i..i + m][m - 1]; }
    assert WordOccursAt(s, short, i);
  }

  // ----- str.strip() -----

  function StripStart(s: string): (r: string)
    ensures |r| <= |s|
  {
    if |s| > 0 && IsSpace(s[0]) then StripStart(s[1..]) else s
  }

  function StripEnd(s: string): (r: string)
    ensures |r| <= |s|
  {
    if |s| > 0 && IsSpace(s[|s| - 1]) then StripEnd(s[..|s| - 1]) else s
  }

  /** `s.strip()`. */
  function Strip(s: string): string {
    StripEnd(StripStart(s))
  }

  /** `lstrip` keeps a suffix that starts with no whitespace. */
  lemma {:induction false} StripStartIsSuffix(s: string)
    ensures StripStart(s) == s[|s| - |StripStart(s)|..]
    ensures |StripStart(s)| == 0 || !IsSpace(StripStart(s)[0])
  {
    if |s| > 0 && IsSpace(s[0]) {
      StripStartIsSuffix(s[1..]);
      var r := StripStart(s[1..]);
      assert s[1..][|s| - 1 - |r|..] == s[|s| - |r|..];
    }
  }

  /** `rstrip` keeps a prefix that ends with no whitespace. */
  lemma {:induction false} StripEndIsPrefix(s: string)
    ensures StripEnd(s) == s[..|StripEnd(s)|]
    ensures |StripEnd(s)| == 0 || !IsSpace(StripEnd(s)[|StripEnd(s)| - 1])
  {
    if |s| > 0 && IsSpace(s[|s| - 1]) {
      StripEndIsPrefix(s[..|s| - 1]);
      var r := StripEnd(s[..|s| - 1]);
      assert s[..|s| - 1][..|r|] == s[..|r|];
    }
  }

  lemma StripIsSlice(s: string)
    ensures exists a, b | 0 <= a <= b <= |s| :: Strip(s) == s[a..b]
  {
    var t := StripStart(s);
    var u := StripEnd(t);
    StripStartIsSuffix(s);
    StripEndIsPrefix(t);
    var lo, hi := |s| - |t|, |s| - |t| + |u|;
    assert Strip(s) == u == s[lo..hi];
  }

  /** Stripping adds no character. */
  lemma StripKeepsAbsent(s: string, c: char)
    requires c !in s
    ensures c !in Strip(s)
  {
    StripIsSlice(s);
    var a, b :| 0 <= a <= b <= |s| && Strip(s) == s[a..b];
    assert forall k | 0 <= k < b - a :: s[a..b][k] == s[a + k];
  }

  lemma StripNoSpaces(s: string)
    requires |s| == 0 || (!IsSpace(s[0]) && !IsSpace(s[|s| - 1]))
    ensures Strip(s) == s
  {
  }

  /** Stripping `s` and one trailing white-space character, when `s` has no
      surrounding whitespace. */
  lemma StripTrailingSpace(s: string, sp: char)
    requires |s| > 0 && !IsSpace(s[0]) && !IsSpace(s[|s| - 1]) && IsSpace(sp)
    ensures Strip(s + [sp]) == s
  {
    var t := s + [sp];
    assert t[0] == s[0] && t[|t| - 1] == sp;
    assert StripStart(t) == t;
    assert t[..|t| - 1] == s;
    assert StripEnd(s) == s;
    assert StripEnd(t) == s;
  }

  // ----- str.split(sep), str.join -----

  /** `s.split(sep)` for a one-character separator: never empty. */
  function Split(s: string, sep: char): (r: seq<string>)
    ensures |r| >= 1
  {
    if |s| == 0 then [""]
    else
      var rest := Split(s[1..], sep);
      if s[0] == sep then [""] + rest
      else [[s[0]] + rest[0]] + rest[1..]
  }

  /** No piece of `s.split(sep)` holds the separator. */
  lemma {:induction false} SplitHasNoSeparator(s: string, sep: char)
    ensures forall k | 0 <= k < |Split(s, sep)| :: sep !in Split(s, sep)[k]
  {
    if |s| > 0 {
      SplitHasNoSeparator(s[1..], sep);
      var rest := Split(s[1..], sep);
      if s[0] != sep {
        assert forall k | 1 <= k < |rest| :: rest[1..][k - 1] == rest[k];
        assert sep !in [s[0]] + rest[0];
      }
    }
  }

  /** Without the separator, `s.split(sep)` is `[s]`. */
  lemma {:induction false} SplitWithout(s: string, sep: char)
    requires sep !in s
    ensures Split(s, sep) == [s]
  {
    if |s| > 0 {
      assert sep !in s[1..];
      SplitWithout(s[1..], sep);
      assert [s[0]] + s[1..] == s;
    }
  }

  /** Splitting at a separator splits the two sides independently. */
  lemma {:induction false} SplitAt(a: string, sep: char, b: string)
    ensures Split(a + [sep] + b, sep) == Split(a, sep) + Split(b, sep)
  {
    if |a| == 0 {
      assert a + [sep] + b == [sep] + b;
      SplitCons(sep, b, sep);
    } else {
      var t := a[1..] + [sep] + b;
      assert a + [sep] + b == [a[0]] + t;
      assert a == [a[0]] + a[1..];
      SplitAt(a[1..], sep, b);
      SplitCons(a[0], t, sep);
      SplitCons(a[0], a[1..], sep);
      SplitJoinsHead(a[0], Split(a[1..], sep), Split(b, sep), sep);
    }
  }

  /** One unfolding of `Split` on a string with a known first character. */
  lemma SplitCons(c: char, t: string, sep: char)
    ensures Split([c] + t, sep) ==
            if c == sep then [""] + Split(t, sep) else [[c] + Split(t, sep)[0]] + Split(t, sep)[1..]
  {
    assert ([c] + t)[0] == c;
    assert ([c] + t)[1..] == t;
  }

  lemma SplitJoinsHead(c: char, ra: seq<string>, rb: seq<string>, sep: char)
    requires |ra| >= 1
    ensures (if c == sep then [""] + (ra + rb) else [[c] + (ra + rb)[0]] + (ra + rb)[1..]) ==
            (if c == sep then [""] + ra else [[c] + ra[0]] + ra[1..]) + rb
  {
    if c != sep {
      assert (ra + rb)[0] == ra[0];
      assert (ra + rb)[1..] == ra[1..] + rb;
    }
  }

  /** `s.split(sep)` has a second piece exactly when `s` holds the separator. */
  lemma {:induction false} SplitInTwo(s: string, sep: char)
    ensures |Split(s, sep)| >= 2 <==> sep in s
  {
    if |s| > 0 {
      SplitInTwo(s[1..], sep);
      assert s == [s[0]] + s[1..];
    }
  }

  /** `[p.strip() for p in parts]`. */
  function StripAll(parts: seq<string>): (r: seq<string>)
    ensures |r| == |parts| && forall i | 0 <= i < |parts| :: r[i] == Strip(parts[i])
  {
    seq(|parts|, i requires 0 <= i < |parts| => Strip(parts[i]))
  }

  lemma StripAllKeepsAbsent(parts: seq<string>, c: char)
    requires forall k | 0 <= k < |parts| :: c !in parts[k]
    ensures forall k | 0 <= k < |parts| :: c !in StripAll(parts)[k]
  {
    forall k | 0 <= k < |parts| ensures c !in StripAll(parts)[k] {
      StripKeepsAbsent(parts[k], c);
    }
  }

  /** `sep.join(parts)`. */
  function Join(parts: seq<string>, sep: string): string {
    if |parts| == 0 then ""
    else if |parts| == 1 then parts[0]
    else parts[0] + sep + Join(parts[1..], sep)
  }

  predicate NotSpace(c: char) { !IsSpace(c) }

  /** A word of `s.split()`: non-empty, without whitespace. */
  predicate IsWord(w: string) {
    |w| > 0 && forall j | 0 <= j < |w| :: !IsSpace(w[j])
  }

  /** `s.split()`: the maximal runs of non-space characters, in order. */
  function SplitWords(s: string): (ws: seq<string>)
    decreases |s|
  {
    var i := FirstWhere(s, NotSpace);
    if i == |s| then []
    else
      var rest := s[i..];
      var n := RunLength(rest, NotSpace);
      [rest[..n]] + SplitWords(rest[n..])
  }

  /** Every piece of `s.split()` is a word. */
  lemma {:induction false} SplitWordsAreWords(s: string)
    ensures forall k | 0 <= k < |SplitWords(s)| :: IsWord(SplitWords(s)[k])
    decreases |s|
  {
    var i := FirstWhere(s, NotSpace);
    if i < |s| {
      var rest := s[i..];
      var n := RunLength(rest, NotSpace);
      assert rest[0] == s[i];
      var w := rest[..n];
      assert forall j | 0 <= j < |w| :: w[j] == rest[j];
      assert IsWord(w);
      SplitWordsAreWords(rest[n..]);
      var tail := SplitWords(rest[n..]);
      forall k | 0 <= k < |SplitWords(s)| ensures IsWord(SplitWords(s)[k]) {
        if k > 0 {
          assert SplitWords(s)[k] == tail[k - 1];
        }
      }
    }
  }

  /** `len(s.split())`. */
  function WordCount(s: string): nat {
    |SplitWords(s)|
  }

  // ----- str.startswith, str.replace -----

  predicate StartsWith(s: string, prefix: string) {
    |prefix| <= |s| && s[..|prefix|] == prefix
  }

  /** `s.startswith(tuple(prefixes))`. */
  predicate StartsWithAny(s: string, prefixes: seq<string>) {
    exists k | 0 <= k < |prefixes| :: StartsWith(s, prefixes[k])
  }

  /** `s.replace(pat, rep)`: every non-overlapping occurrence, scanned left to right. */
  function ReplaceAll(s: string, pat: string, rep: string): string
    requires |pat| > 0
  {
    if |s| < |pat| then s
    else if s[..|pat|] == pat then rep + ReplaceAll(s[|pat|..], pat, rep)
    else [s[0]] + ReplaceAll(s[1..], pat, rep)
  }

  /** `s.replace(c, d)` for single characters. */
  function ReplaceChar(s: string, c: char, d: char): (r: string)
    ensures |r| == |s|
    ensures forall i | 0 <= i < |s| :: r[i] == (if s[i] == c then d else s[i])
  {
    seq(|s|, i requires 0 <= i < |s| => if s[i] == c then d else s[i])
  }

  lemma ReplaceCharAbsent(s: string, c: char, d: char)
    requires c !in s
    ensures ReplaceChar(s, c, d) == s
  {
  }

  lemma ReplaceCharConcat(a: string, b: string, c: char, d: char)
    ensures ReplaceChar(a + b, c, d) == ReplaceChar(a, c, d) + ReplaceChar(b, c, d)
  {
    var l, r := ReplaceChar(a + b, c, d), ReplaceChar(a, c, d) + ReplaceChar(b, c, d);
    forall i | 0 <= i < |l| ensures l[i] == r[i] {
      if i < |a| { assert (a + b)[i] == a[i]; } else { assert (a + b)[i] == b[i - |a|]; }
    }
  }

  /** `s.replace(pat, rep)` leaves a string alone when it lacks some character of `pat`. */
  lemma {:induction false} ReplaceAllWithout(s: string, pat: string, rep: string, c: char)
    requires |pat| > 0 && c in pat && c !in s
    ensures ReplaceAll(s, pat, rep) == s
    decreases |s|
  {
    if |s| >= |pat| {
      assert s[..|pat|] != pat by { assert c !in s[..|pat|]; }
      ReplaceAllWithout(s[1..], pat, rep, c);
      assert [s[0]] + s[1..] == s;
    }
  }

  /** No occurrence of `pat` starts inside a prefix that lacks its first character. */
  lemma {:induction false} ReplaceAllAfter(x: string, y: string, pat: string, rep: string)
    requires |pat| > 0 && pat[0] !in x
    ensures ReplaceAll(x + y, pat, rep) == x + ReplaceAll(y, pat, rep)
    decreases |x|
  {
    if |x| == 0 {
      assert x + y == y;
    } else {
      var s := x + y;
      assert s[0] == x[0];
      assert s[1..] == x[1..] + y;
      if |s| >= |pat| {
        assert s[..|pat|] != pat by { assert s[..|pat|][0] == x[0]; }
        calc {
          ReplaceAll(s, pat, rep);
          [s[0]] + ReplaceAll(s[1..], pat, rep);
          { ReplaceAllAfter(x[1..], y, pat, rep); }
          [x[0]] + (x[1..] + ReplaceAll(y, pat, rep));
          { assert [x[0]] + x[1..] == x; }
          x + ReplaceAll(y, pat, rep);
        }
      } else {
        assert ReplaceAll(y, pat, rep) == y;
      }
    }
  }

  /** `s.replace(c, "")` for a single character. */
  function DeleteChar(s: string, c: char): (r: string)
    ensures c !in r
  {
    if |s| == 0 then ""
    else (if s[0] == c then "" else [s[0]]) + DeleteChar(s[1..], c)
  }

  lemma DeleteCharAppend(a: string, b: string, c: char)
    ensures DeleteChar(a + b, c) == DeleteChar(a, c) + DeleteChar(b, c)
  {
    if |a| > 0 {
      assert (a + b)[1..] == a[1..] + b;
      DeleteCharAppend(a[1..], b, c);
    } else {
      assert a + b == b;
    }
  }

  lemma DeleteCharKeepsAbsent(s: string, c: char, d: char)
    requires d !in s
    ensures d !in DeleteChar(s, c)
  {
    if |s| > 0 {
      assert d !in s[1..];
      DeleteCharKeepsAbsent(s[1..], c, d);
    }
  }

  /** Deleting the one occurrence of `c` in `a + [c] + b`. */
  lemma DeleteCharOnce(a: string, c: char, b: string)
    requires c !in a && c !in b
    ensures DeleteChar(a + [c] + b, c) == a + b
  {
    calc {
      DeleteChar(a + [c] + b, c);
      { assert a + [c] + b == a + ([c] + b); }
      DeleteChar(a + ([c] + b), c);
      { DeleteCharAppend(a, [c] + b, c); }
      DeleteChar(a, c) + DeleteChar([c] + b, c);
      { DeleteCharAppend([c], b, c); }
      DeleteChar(a, c) + (DeleteChar([c], c) + DeleteChar(b, c));
      { assert DeleteChar([c], c) == ""; DeleteCharAbsent(a, c); DeleteCharAbsent(b, c); }
      a + ("" + b);
      { assert "" + b == b; }
      a + b;
    }
  }

  lemma DeleteCharAbsent(s: string, c: char)
    requires c !in s
    ensures DeleteChar(s, c) == s
  {
  }

  // ----- min() over a non-empty list -----

  function MinOf(s: seq<real>): (r: real)
    requires |s| > 0
    ensures r in s && forall k | 0 <= k < |s| :: r <= s[k]
  {
    if |s| == 1 then s[0]
    else
      var m := MinOf(s[1..]);
      assert forall k | 1 <= k < |s| :: s[k] == s[1..][k - 1];
      if s[0] <= m then s[0] else m
  }

  function MaxOf(s: seq<int>): (r: int)
    requires |s| > 0
    ensures r in s && forall k | 0 <= k < |s| :: s[k] <= r
  {
    if |s| == 1 then s[0]
    else
      var m := MaxOf(s[1..]);
      assert forall k | 1 <= k < |s| :: s[k] == s[1..][k - 1];
      if s[0] >= m then s[0] else m
  }
}

=== FILE: wrappers.dfy ===
/** The optional value used throughout the model for Python's `None`, pandas' `NaN`
    and "the key is missing or its JSON did not decode". */
module Wrappers {

  datatype Option<+T> = None | Some(value: T) {

    /** The value, or `default` when there is none (Python's `x if x is not None else d`). */
    function GetOr(default: T): T {
      match this
      case Some(v) => v
      case None => default
    }
  }
}
